=== FILE: README.md ===
# erode front end in Dafny

A model of the front end of the `erode` compiler: the lexer that turns
source text into tokens, the recursive-descent parser that builds the
abstract syntax tree, and the semantic analyser that checks names and types
over a chain of scopes. Every stage is a pure function. A fatal `error()`
or `exit(1)` of the source becomes a `Failure` carrying the source's message
text in the lexer and parser, and an `Err` naming the cause in the analyser
(`Semantics.Message` gives the printed text).

Modules, one per file:

- `Wrappers`: `Option` and `Result`.
- `Tokens`: token kinds, operators, types and the token payload.
- `Lexer`: `lex()` and its sub-lexers, the constructor's token loop, and
  `current()`/`next()`. The input is a `seq<char>` whose last character is
  the NUL sentinel that `main` reads into the buffer.
- `LexerProperties`: a token printer (`Unlex`) and the proof that lexing
  its output gives the tokens back. Also the skipping of blanks and
  comments, and the cursor's walk over the buffer.
- `ParserHelper`: `isType`, `getTypeKind`, `isOperator`, `isLiteral` and
  `type_to_string`.
- `Ast`: expressions, statements, items and programs.
- `Parser`: the parser over a token buffer and a cursor position. Each
  function returns the tree and the position after it. The source's longer
  functions (`parseFunction`, `parseExtern`, `parseIf`, `parseFor`) are
  split into one function per stage.
- `ParserProperties`: an expression printer and the proof that parsing
  inverts it. Also precedence, associativity and the expression errors.
- `ProgramRoundTrip` and `ItemRoundTrip`: the printer extended to
  statements, items and programs, and the proof that the parser reads
  every printable program back.
- `Scope`: `scope.h` as a sequence of symbol tables, root first.
- `Semantics`: the analyser, with its two mutable fields turned into a
  `State` value.

The code departs from the language's documented design in a few places.
The model follows the code:

- Unary expressions never type-check. After the `++`/`--` operand check,
  `analyzeExpression` has no `return`, so it falls through to
  "Invalid expression". An assignment expression falls through there too.
- `analyzeStatement` does not look inside `if`, `while` or `for`.
- The symbol a `def` binds always has type INT, whatever its declared
  return type.
- Argument types are never compared with parameter types.
- A declaration is bound before its initializer is analysed, so `int x = x;`
  is accepted.
- A parameter list with a trailing comma, `(int a,)`, is accepted.
- The parser never produces a nested `Block` statement.

## Model

| member | source | states |
|---|---|---|
| Lexer.NewLexer | lexer/lexer.cpp:13-20 | The constructor succeeds exactly when the token loop does. Its buffer is that loop's tokens, with the cursor at 0, ending in EOF with no earlier EOF. |
| Lexer.Tokenize | lexer/lexer.cpp:13-20 | The token loop yields a buffer with EOF last and nowhere else, every payload of its kind's shape; `TokenizeUnlex` shows it inverts the token printer. |
| Lexer.TokenizeStep | lexer/lexer.cpp:16-19 | One round of the loop: an EOF token ends the buffer, any other token is followed by what is lexed after it. |
| Lexer.Lex | lexer/lexer.cpp:201-235 | A token never starts before the cursor or runs past the sentinel; every token but EOF consumes input, and EOF is produced only at the NUL. |
| Lexer.LexAlpha | lexer/lexer.cpp:36-86 | Consumes a maximal run of word characters; the token spells exactly that run, and it is an identifier carrying the run exactly when the run is no reserved word. |
| Lexer.AccumulateDigits | lexer/lexer.cpp:89-94 | The loop stops at the end of the digit run, and the accumulator ends as `acc * 10^len + value of the run`. |
| Lexer.LexNumber | lexer/lexer.cpp:88-110 | A digit run not followed by `.` is an int literal of its decimal value. A `.` makes a float literal of that value and the digit run after the dot. |
| Lexer.LexOperator | lexer/lexer.cpp:112-153 | Succeeds exactly when the two-character window or the single character is in the operator table. It takes the longest match. The token spells what it consumed, and `->` alone is an arrow. Otherwise it fails with "unknown operator: c". |
| Lexer.SeparatorKind | lexer/lexer.cpp:155-170 | Each punctuation character has the kind whose spelling is that character. |
| Lexer.OpToString | lexer/lexer.cpp:237-262 | Each operator's text is an entry of the lexer's operator table, and that entry maps back to the same operator. |
| Lexer.OpTableInverse | lexer/lexer.cpp:237-262 | Every entry of the operator table prints back, through `to_string` of its operator, as its own text; with `OpToString`, the table and `to_string` are inverse to each other. |
| Lexer.LexString | lexer/lexer.cpp:176-187 | Succeeds exactly when a closing quote comes before the NUL; the payload is the raw text between the quotes. Otherwise "unterminated string". |
| Lexer.LexChar | lexer/lexer.cpp:189-199 | Succeeds exactly when a non-NUL character is followed by a closing quote; the payload is that character. Otherwise "unterminated char". |
| Lexer.Current | lexer/lexer.cpp:29-34 | The token under the cursor, or the last token once the cursor is past the buffer. |
| Lexer.Next | lexer/lexer.cpp:22-27 | Returns the current token; advances by one inside the buffer, and stays put past it. |
| LexerProperties.TokenizeUnlex | lexer/lexer.cpp:201-235 | Lexing the printed spelling of any list of spellable tokens, closed by NUL, yields exactly that list followed by EOF. |
| LexerProperties.LexSpelled | lexer/lexer.cpp:201-235 | Lexing at the spelling of a token followed by a blank yields that token and stops right after its spelling. |
| LexerProperties.KeywordSpelling | lexer/lexer.cpp:43-84 | Every keyword and boolean literal is spelled by a word that lexes back to that very token. |
| LexerProperties.LexOperatorSpelling | lexer/lexer.cpp:112-153 | Every operator's text, followed by a blank, lexes to that operator (an arrow for `->`) and consumes exactly its text. |
| LexerProperties.TokenizeSpace | lexer/lexer.cpp:212-215 | A blank, tab, newline or carriage return contributes no token. |
| LexerProperties.TokenizeComment | lexer/lexer.cpp:228-233 | A `#` comment up to the next newline or NUL contributes no token. |
| LexerProperties.TokenizeAtNul | lexer/lexer.cpp:216-218 | At the NUL the token loop ends with EOF alone. |
| LexerProperties.DecimalRoundTrip | lexer/lexer.cpp:91-94 | The digit accumulation reads back the decimal text of any natural number. |
| LexerProperties.ReadTokensWalksBuffer | lexer/lexer.cpp:22-27 | n calls of `next()` from index i read the buffer's tokens in order, then repeat the last one. |
| LexerProperties.ReadPastEndIsEof | lexer/lexer.cpp:22-34 | On a lexed buffer every read from the final EOF onwards is EOF. |
| ParserHelper.IsOperator | parser/parser_helper.h:4-6 | Holds exactly for the operators the lexer spells `+`, `-`, `*` and `/`. |
| ParserHelper.IsType | parser/parser_helper.h:8-10 | Holds exactly for the kinds spelled by the reserved words `int`, `float`, `bool`, `char` and `string`. |
| ParserHelper.IsLiteral | parser/parser_helper.h:21-23 | Holds exactly for the kinds whose payload is neither absent, nor text, nor an operator: the int, float, bool and char literals, and not the string literal. |
| ParserHelper.GetTypeKind | parser/parser_helper.h:12-19 | The result is VOID exactly when the kind is not one of the five type keywords. |
| ParserHelper.TypeToString | parser/parser_helper.h:25-35 | A non-VOID type's name is a reserved word that lexes to a type keyword. "void" is no reserved word. |
| ParserHelper.TypeNamesRoundTrip | parser/parser_helper.h:12-35 | The name of the type a keyword denotes is that keyword's own spelling. Lexing a type's name gives a keyword denoting the same type. |
| ParserHelper.TypeToStringInjective | parser/parser_helper.h:25-35 | Distinct types have distinct names. |
| Parser.Consume | parser/parser.cpp:23-30 | Succeeds exactly when the current token has the expected kind; it returns that token and moves one on. Otherwise it fails with the caller's message. |
| Parser.NarrowToInt | parser/parser.cpp:424-427 | The result is a 32-bit `int` congruent to the literal modulo 2^32, and equal to it when it fits. |
| Parser.ParseProgram | parser/parser.cpp:32-38 | A buffer holding only EOF is the empty program. Otherwise a failing first item is the program's failure, and a parsed program starts with the first item read. A program has fewer items than the buffer has tokens. `ItemRoundTrip.ParsePrintedProgram` reads every printable program back. |
| Parser.ParseItems | parser/parser.cpp:34-36 | The item loop returns what it has at EOF. A parsed list keeps the items read so far as a prefix and adds at most one item per token before the EOF. |
| Parser.ParseItem | parser/parser.cpp:40-50 | A parsed item consumes at least one token and stops inside the buffer. `ItemRoundTrip.ItemOnPrinted` gives the dispatch on `def`, `extern` or a statement. |
| Parser.ParseFunction | parser/parser.cpp:52-105 | A parsed definition consumes at least one token and stops inside the buffer. `ItemRoundTrip.FunctionOnPrinted` gives what it reads. |
| Parser.ParseParams | parser/parser.cpp:58-82 | A parsed parameter list never moves back and stops at a `)`. `ItemRoundTrip.ParamsOnPrinted` gives its contents, and `ParserProperties.ParamWithoutType`, `ParamWithoutName` and `TrailingCommaAccepted` its edge cases. |
| Parser.ParseReturnType | parser/parser.cpp:85-95 | Without `->` the type is VOID and nothing is consumed. After `->` it succeeds exactly when a type keyword follows; it then gives that keyword's type and moves past both tokens. Otherwise it fails with "Expected type after '->' in function return type". |
| Parser.ParseExtern | parser/parser.cpp:117-161 | A parsed extern consumes at least one token and stops inside the buffer. `ItemRoundTrip.ExternOnPrinted` gives what it reads. |
| Parser.ParseBlock | parser/parser.cpp:107-115 | A parsed statement list never moves back and stops at a `}`. `ProgramRoundTrip.BlockOnPrinted` gives its contents. |
| Parser.ParseIf | parser/parser.cpp:163-181 | A parsed `if` consumes at least one token and stops inside the buffer. `ProgramRoundTrip.IfElseOnPrinted` and `ParserProperties.ElseWithoutBrace` give what it reads and how it fails. |
| Parser.ParseWhile | parser/parser.cpp:183-193 | A parsed `while` consumes at least one token and stops inside the buffer. `ProgramRoundTrip.WhileOnPrinted` gives what it reads. |
| Parser.ParseFor | parser/parser.cpp:195-238 | A parsed `for` consumes at least one token and stops inside the buffer. `ProgramRoundTrip.ForOnPrinted` gives what it reads. |
| Parser.ParseStatement | parser/parser.cpp:240-285 | A parsed statement consumes at least one token and stops inside the buffer. `ProgramRoundTrip.StmtOnPrinted` and `ParserProperties.NoStatementAt` give what it reads and how it fails. |
| Parser.ParseExpression | parser/parser.cpp:287-289 | A parsed expression consumes at least one token and stops inside the buffer. `ParserProperties.ExpressionRoundTrip` gives what it reads. |
| Parser.ParseAssignment | parser/parser.cpp:291-307 | A parsed assignment level consumes at least one token and stops inside the buffer. `ParserProperties.AssignRightAssociative` and `AssignToNonVariable` give its shape and its error. |
| Parser.ParseBinary | parser/parser.cpp:309-382 | A parsed binary level consumes at least one token and stops inside the buffer. `ParserProperties.BinaryLevel`, `LeftAssociative`, `TighterFirst` and `TighterSecond` give its operators, associativity and precedence. |
| Parser.ParseBinaryRest | parser/parser.cpp:309-382 | The operator loop of one level never moves back and stops inside the buffer. `ParserProperties.LeftAssociative` gives the fold to the left. |
| Parser.ParseUnary | parser/parser.cpp:384-394 | A parsed unary expression consumes at least one token and stops inside the buffer. `ParserProperties.UnaryFailureLifts` and `ExpressionRoundTrip` give its failures and its trees. |
| Parser.ParsePostfix | parser/parser.cpp:396-417 | A parsed postfix expression consumes at least one token and stops inside the buffer. `ParserProperties.CallOfCall` gives its error for a call of a call. |
| Parser.ParseArgs | parser/parser.cpp:401-409 | A parsed argument list never moves back and stops at a `)`. `ParserProperties.ExpressionRoundTrip` reads back every printed call. |
| Parser.ParsePrimary | parser/parser.cpp:419-451 | A parsed primary consumes at least one token and stops inside the buffer. `ParserProperties.UnexpectedToken` gives its error, and `Parser.NarrowToInt` the value of an int literal. |
| ParserProperties.BinaryLevel | parser/parser.cpp:309-382 | Each operator belongs to exactly the binary level whose loop accepts it, or to none. |
| ParserProperties.ExpressionRoundTrip | parser/parser.cpp:287-451 | Parsing the printed tokens of any printable expression, followed by a token that ends expressions, rebuilds the tree and stops right after it. |
| ParserProperties.LeftAssociative | parser/parser.cpp:309-382 | Two operators of one level fold to the left: `a op1 b op2 c` parses as `(a op1 b) op2 c`. |
| ParserProperties.TighterSecond | parser/parser.cpp:309-382 | A tighter second operator binds first: `a + b * c` parses as `a + (b * c)`. |
| ParserProperties.TighterFirst | parser/parser.cpp:309-382 | A tighter first operator binds first: `a * b + c` parses as `(a * b) + c`. |
| ParserProperties.AssignRightAssociative | parser/parser.cpp:291-307 | `x = y = v` parses as `x = (y = v)`. |
| ParserProperties.AssignToNonVariable | parser/parser.cpp:291-307 | An assignment whose left side is not a bare name fails with "Left side of assignment must be a variable". |
| ParserProperties.CallOfCall | parser/parser.cpp:396-417 | `f()()` fails with "Can only call identifiers". |
| ParserProperties.UnexpectedToken | parser/parser.cpp:419-451 | An expression starting with a token that opens no primary and is not `!` or `-` fails with "Unexpected token in expression". |
| ParserProperties.UnaryFailureLifts | parser/parser.cpp:309-394 | A failure at the unary level is the failure of every binary level and of the whole expression. |
| ParserProperties.HelperClasses | parser/parser_helper.h:4-23 | `isOperator` holds exactly for the additive and multiplicative operators. Every `isLiteral` kind starts an expression, and the string literal is not one of them. |
| ParserProperties.ElseWithoutBrace | parser/parser.cpp:172-177 | `else` not followed directly by `{` fails with "Expected '{' after 'else'". |
| ParserProperties.ParamWithoutType | parser/parser.cpp:58-82 | In a parameter list, a token that is neither `)` nor a type keyword fails with "Expected type in … parameter". |
| ParserProperties.ParamWithoutName | parser/parser.cpp:58-82 | A parameter type not followed by an identifier fails with "Expected identifier after type in … parameter". |
| ParserProperties.NoStatementAt | parser/parser.cpp:240-285 | A statement starting with `{`, or at EOF inside an unclosed block, fails with "Unexpected token in expression", since it falls through to the expression parser. |
| ParserProperties.TrailingCommaAccepted | parser/parser.cpp:58-82 | `(type name,)` parses as a one-parameter list, because the loop stops at `)` right after a comma. |
| ProgramRoundTrip.StmtOnPrinted | parser/parser.cpp:240-285 | Any printable statement, printed and not followed by `else`, parses back to itself and stops right after its tokens. |
| ProgramRoundTrip.BlockOnPrinted | parser/parser.cpp:107-115 | A printed statement list followed by `}` parses back to that list, stopping at the `}`. |
| ProgramRoundTrip.IfElseOnPrinted | parser/parser.cpp:163-181 | `if (c) {…} else {…}` printed from its parts parses back to that `if` with its else block. |
| ProgramRoundTrip.WhileOnPrinted | parser/parser.cpp:183-193 | `while (c) {…}` printed from its parts parses back to that loop. |
| ProgramRoundTrip.ForOnPrinted | parser/parser.cpp:195-238 | A `for` header with any mix of present and absent clauses, printed with its body, parses back to that loop. |
| ProgramRoundTrip.ReturnOnPrinted | parser/parser.cpp:256-264 | `return;` and `return e;` parse back to the return they print. |
| ProgramRoundTrip.DeclStmtOnPrinted | parser/parser.cpp:266-279 | `type name;` and `type name = e;` parse back to the declaration they print. |
| ItemRoundTrip.ParamsOnPrinted | parser/parser.cpp:58-82 | A printed parameter list followed by `)` parses back to those parameters in order, stopping at the `)`. |
| ItemRoundTrip.FunctionOnPrinted | parser/parser.cpp:52-105 | A printed definition parses back to that definition, whether or not it has a return type. |
| ItemRoundTrip.ExternOnPrinted | parser/parser.cpp:117-161 | A printed extern declaration parses back to that declaration, whether or not it has a return type. |
| ItemRoundTrip.ItemOnPrinted | parser/parser.cpp:40-50 | Any printable item parses back to itself, dispatching on `def`, `extern` or a statement. |
| ItemRoundTrip.ParsePrintedProgram | parser/parser.cpp:32-38 | Every printable program, printed and closed by EOF, is a buffer the parser accepts and reads back item for item. |
| Scope.Root | semantics/scope.h:20 | A root scope is a single empty table. |
| Scope.Push | semantics/scope.h:21 | A new scope is an empty table whose parent is the old chain. |
| Scope.Insert | semantics/scope.h:23-25 | Binds exactly when the current table lacks the name. Only the current table changes, and it gains just that binding; a failed insert changes nothing. |
| Scope.Lookup | semantics/scope.h:27-35 | Finds nothing exactly when no table of the chain binds the name. What it finds is a binding of some table of the chain; `Scope.LookupInnermost` says which one. |
| Scope.LookupSpec | semantics/scope.h:27-35 | Lookup finds nothing exactly when no table binds the name. Otherwise it returns the binding of a table that no later table overrides. |
| Scope.LookupInnermost | semantics/scope.h:27-35 | Lookup returns the binding of the innermost table that has the name. |
| Scope.LookupShadows | semantics/scope.h:27-35 | A binding in the current table hides every differing binding of the name further up. |
| Scope.LookupPush | semantics/scope.h:21-35 | A fresh scope changes no lookup. |
| Scope.LookupAfterInsert | semantics/scope.h:23-35 | After a successful insert the name finds the new symbol, and no other name's lookup changes. |
| Semantics.EnterScope | semantics/semantic_analyzer.cpp:37-39 | A fresh empty current scope whose parent is the old chain; the return type is kept. |
| Semantics.LeaveScope | semantics/semantic_analyzer.cpp:41-47 | Succeeds exactly below the root, dropping the current table; at the root it fails with "Parent scope not found". |
| Semantics.LeaveAfterEnter | semantics/semantic_analyzer.cpp:37-47 | Leaving a scope just entered restores the state exactly. |
| Semantics.AnalyzeExpr | semantics/semantic_analyzer.cpp:137-187 | Fails only with expression errors. An assignment expression always fails with "Invalid expression". A unary expression fails with its operand's error if the operand fails. Otherwise `++`/`--` on a non-INT operand fails with the increment/decrement error, and every other unary expression fails with "Invalid expression". A binary expression fails with its left operand's error, else with its right operand's error. A typed binary expression has the type shared by both operands, and operands of different types fail with a binary type mismatch. A call of a function of the right arity succeeds exactly when its arguments do, with the callee's type; otherwise it fails with the arguments' error. |
| Semantics.AnalyzeArgs | semantics/semantic_analyzer.cpp:178-181 | On success, one type per argument, each the argument's own type. A failing first argument is the loop's failure. |
| Semantics.AnalyzeExprDecidesTyped | semantics/semantic_analyzer.cpp:137-187 | The analyser returns type t for an expression exactly when the declarative typing relation, stated on innermost bindings, gives it type t. |
| Semantics.UnboundIdentifier | semantics/semantic_analyzer.cpp:144-149 | A name no table binds fails with "Undefined variable". |
| Semantics.BoundIdentifier | semantics/semantic_analyzer.cpp:144-147 | A name has the type of its innermost binding. |
| Semantics.UnboundCallee | semantics/semantic_analyzer.cpp:164-185 | Calling a name no table binds fails with "Undefined function". |
| Semantics.CallOfVariable | semantics/semantic_analyzer.cpp:164-177 | Calling a name whose innermost binding is not a function fails with "Call to non-function". |
| Semantics.CallArityMismatch | semantics/semantic_analyzer.cpp:166-172 | Calling a function with the wrong number of arguments fails with "Argument count mismatch". |
| Semantics.CallIgnoresArgumentTypes | semantics/semantic_analyzer.cpp:164-183 | A call of the right arity whose arguments all type has the callee's type, whatever the argument types are. |
| Semantics.AnalyzeStmt | semantics/semantic_analyzer.cpp:97-135 | Success only adds bindings to the current scope and keeps the return type; failures are statement errors. The rules: redeclaration in the current scope fails; the initializer is checked with the name already bound, must have the declared type, and a failing initializer is the declaration's failure; a return value must have the current return type, and a failing return value is the statement's failure; a bare return needs VOID; `if`/`while`/`for` pass unchecked. A block succeeds exactly when its body succeeds in a freshly entered scope; the state after it is the state before it, and a failure is the body's failure. |
| Semantics.AnalyzeStmts | semantics/semantic_analyzer.cpp:75-77 | A statement list only adds bindings to the current scope and keeps the return type. |
| Semantics.SelfInitializedDeclaration | semantics/semantic_analyzer.cpp:102-116 | `ty x = x;` is accepted for any name the current table does not bind, even a name bound nowhere. |
| Semantics.BlockRedeclares | semantics/semantic_analyzer.cpp:128-133 | A block may redeclare a name the current scope binds, which a declaration outside the block may not, and leaves the state as it found it. |
| Semantics.DeclarationShadows | semantics/semantic_analyzer.cpp:102-109 | A declaration may reuse a name bound further up. Afterwards the name denotes the new variable, and other names are unaffected. |
| Semantics.DeclarationOrder | semantics/semantic_analyzer.cpp:97-116 | Using an unbound name before declaring it fails with "Undefined variable"; declaring it first and then using it succeeds. |
| Semantics.DeclareParams | semantics/semantic_analyzer.cpp:66-74 | Succeeds exactly when the parameter names are distinct and unbound in the current table. On success each is bound as a variable of its type; on failure the error names a parameter. |
| Semantics.AnalyzeFunction | semantics/semantic_analyzer.cpp:62-79 | On success the caller's scope is back and the return type is the function's, and the parameters are distinct. |
| Semantics.FunctionEntry | semantics/semantic_analyzer.cpp:62-77 | The body runs one scope deeper, with the function's return type, in a scope that binds every parameter as a variable. |
| Semantics.ParameterRedeclared | semantics/semantic_analyzer.cpp:62-109 | A body whose first statement declares a parameter's name fails with "Redefinition of variable": parameters and body share one scope. |
| Semantics.ParameterCalled | semantics/semantic_analyzer.cpp:62-79 | A body that calls a parameter fails with "Call to non-function". |
| Semantics.ParameterReturned | semantics/semantic_analyzer.cpp:62-79 | A body returning a parameter of the declared return type is accepted, whatever enclosing scopes bind under that name. |
| Semantics.AnalyzeExtern | semantics/semantic_analyzer.cpp:81-95 | Fails below the root. At the root it succeeds exactly when the name is unbound, adding the extern's symbol with its declared return type; otherwise it fails with "Redefinition of external declaration". |
| Semantics.AnalyzeItem | semantics/semantic_analyzer.cpp:49-60 | An item only adds bindings to the current scope, and at the root never fails with "External declarations must be at the top level". |
| Semantics.AnalyzeItems | semantics/semantic_analyzer.cpp:27-29 | The items leave the chain a single root table that keeps every earlier binding. |
| Semantics.DeclareFunctions | semantics/semantic_analyzer.cpp:13-26 | Succeeds exactly when the `def` names are distinct and unbound; each is then bound as a function of type INT with its parameter types. Otherwise it fails naming a `def`. |
| Semantics.AnalyzeProgram | semantics/semantic_analyzer.cpp:10-30 | Two `def`s with one name fail with "Redefinition of function"; on success every `def` is looked up as its INT function symbol at the root. |
| Semantics.CallBeforeDefinition | semantics/semantic_analyzer.cpp:10-30 | A top-level call may precede the definition it calls. |

## Left out

- Integer width in `lex_number` (lexer/lexer.cpp:92): `intval` is an
  `int64_t`, and the accumulation overflows past 2^63 - 1.
  The model accumulates an unbounded integer, so `LexNumber` and
  `DecimalRoundTrip` say nothing about overflow.
- Floating point (lexer/lexer.cpp:96-107, parser/parser.cpp:428-431): a
  float literal keeps its payload as the integer part and the raw fraction
  digits. No `double` or `float` value is computed.
- Characters: C++ `char` bytes and the locale-dependent
  `isalpha`/`isdigit` are modelled as Dafny characters with ASCII
  predicates.
- Parser.NarrowToInt: `static_cast<int>` of an int64 is modelled as
  two's-complement wrap modulo 2^32 (parser/parser.cpp:427). That is the
  C++20 rule; earlier standards leave it implementation-defined.
- The analyser's `currentReturnType` is never initialised. A top-level
  `return` before any `def` reads it, so it is the `returnType` parameter
  of `Semantics.AnalyzeProgram` and may be any value.
- Fatal errors: `error()`/`exit(1)` and the process ending are modelled as
  `Failure`/`Err` results. The stderr message prefixes are not modelled.
- Unreachable branches:
  - The `cur == end` branch of `lex()` (lexer/lexer.cpp:202-204): the
    buffer always ends in NUL, where `lex()` stops first.
  - The `default` of `lex_separator` (lexer/lexer.cpp:167-168): it is only
    called on a punctuation character.
  - The clamp of the lexer cursor (lexer/lexer.cpp:23-26) under the
    parser: the parser never advances over EOF. `Parser.Advance` keeps the
    clamp all the same.
  - The null-scope check of `leaveScope` (semantic_analyzer.cpp:42-43):
    the chain is never empty.
- Lexer.Lex: its own contract states progress and where EOF comes from.
  Skipping blanks and comments is stated by
  `LexerProperties.TokenizeSpace` and `LexerProperties.TokenizeComment`.
- ItemRoundTrip.ParsePrintedProgram: covers printable programs only. These
  are programs with no nested block statement, no `void` variable or
  parameter, integer literals that fit 32 bits, unary operators among
  `!` and `-`, and binary operators that belong to one of the parser's six
  precedence levels (so not `+=` and the like). That the parser builds no
  other trees is an observation from reading it, and is not proved.
- Parser.ParseItem: its own contract states only that a success consumes input
  and stays in the buffer; what it builds is stated by `ItemRoundTrip.ItemOnPrinted`.
- Parser.ParseFunction: its own contract states only that a success consumes input
  and stays in the buffer; what it builds is stated by `ItemRoundTrip.FunctionOnPrinted`.
- Parser.ParseExtern: its own contract states only that a success consumes input
  and stays in the buffer; what it builds is stated by `ItemRoundTrip.ExternOnPrinted`.
- Parser.ParseStatement: its own contract states only that a success consumes input
  and stays in the buffer; what it builds is stated by `ProgramRoundTrip.StmtOnPrinted` and `ParserProperties.NoStatementAt`.
- Parser.ParseIf: its own contract states only that a success consumes input
  and stays in the buffer; what it builds is stated by `ProgramRoundTrip.IfElseOnPrinted` and `ParserProperties.ElseWithoutBrace`.
- Parser.ParseWhile: its own contract states only that a success consumes input
  and stays in the buffer; what it builds is stated by `ProgramRoundTrip.WhileOnPrinted`.
- Parser.ParseFor: its own contract states only that a success consumes input
  and stays in the buffer; what it builds is stated by `ProgramRoundTrip.ForOnPrinted`.
- Parser.ParseExpression: its own contract states only that a success consumes input
  and stays in the buffer; what it builds is stated by `ParserProperties.ExpressionRoundTrip`.
- Parser.ParseAssignment: its own contract states only that a success consumes input
  and stays in the buffer; what it builds is stated by `ParserProperties.AssignRightAssociative` and `AssignToNonVariable`.
- Parser.ParseBinary: its own contract states only that a success consumes input
  and stays in the buffer; what it builds is stated by `ParserProperties.BinaryLevel`, `LeftAssociative` and the `Tighter` lemmas.
- Parser.ParseUnary: its own contract states only that a success consumes input
  and stays in the buffer; what it builds and how it fails is stated by `ParserProperties.ExpressionRoundTrip` and `UnaryFailureLifts`.
- Parser.ParsePostfix: its own contract states only that a success consumes input
  and stays in the buffer; what it builds is stated by `ParserProperties.CallOfCall` and `ExpressionRoundTrip`.
- Parser.ParsePrimary: its own contract states only that a success consumes input
  and stays in the buffer; what it builds is stated by `ParserProperties.UnexpectedToken` and `ExpressionRoundTrip`.
- Parser.ParseParams: its own contract states progress and the closing token; the
  contents are stated by `ItemRoundTrip.ParamsOnPrinted`.
- Parser.ParseBlock: its own contract states progress and the closing token; the
  contents are stated by `ProgramRoundTrip.BlockOnPrinted`.
- Parser.ParseArgs: its own contract states progress and the closing token; the
  contents are stated by `ParserProperties.ExpressionRoundTrip`.
- Parser.ParseBinaryRest: its own contract states only that it never moves
  back; the fold is stated by `ParserProperties.LeftAssociative`.
- Semantics.AnalyzeFunction: its own contract gives the state after the
  function. The scoping of parameters and body is stated by
  `Semantics.FunctionEntry` and the `Parameter*` lemmas.
- Printing and dumping: `printProgram` and its helpers
  (parser/parser.cpp:453-668) and `test_lexer` (lexer/lexer.cpp:264-386)
  are output only.
- Code generation, `main`'s file reading and command-line handling are
  not part of this model.
- `isOperator` and `isLiteral` (parser/parser_helper.h:4-6, 21-23) are not
  called by the parser. They are modelled, and related to the parser's
  levels by `ParserProperties.HelperClasses`.

=== FILE: ast.dfy ===
/** The abstract syntax tree the parser builds and the analyser walks
    (ast/expression.h, ast/statement.h, ast/function.h), with the shape the
    parser's constructor calls give it: `Assign` nodes exist, an extern
    carries a return type, and a function's return type is always a concrete
    `TypeKind`. Runtime type tests on node pointers become sum types. */
module Ast {
  import opened Wrappers
  import opened Tokens

  datatype Expr =
    | Identifier(name: string)
    | IntLit(i: int)
    | FloatLit(whole: int, fraction: string)
    | BoolLit(b: bool)
    | CharLit(c: char)
    | StringLit(s: string)
    | Unary(op: Operator, operand: Expr)
    | Binary(op: Operator, left: Expr, right: Expr)
    | Call(callee: string, args: seq<Expr>)
    | Assign(target: string, rhs: Expr)

  datatype Stmt =
    | ExprStmt(expr: Expr)
    | VarDecl(ty: TypeKind, name: string, init: Option<Expr>)
    | Block(stmts: seq<Stmt>)
    | Return(value: Option<Expr>)
    | If(cond: Expr, thenBody: seq<Stmt>, elseBody: ElseBranch)
    | While(whileCond: Expr, body: seq<Stmt>)
    | For(forInit: Option<Stmt>, forCond: Option<Expr>, forIncr: Option<Expr>, body: seq<Stmt>)

  /** The optional else block of an if statement (a null `elseBlock`
      when absent). */
  datatype ElseBranch = NoElse | Else(elseStmts: seq<Stmt>)

  datatype Param = Param(ty: TypeKind, name: string)

  datatype FunctionDef = FunctionDef(name: string, params: seq<Param>, body: seq<Stmt>, returnType: TypeKind)

  datatype ExternDecl = ExternDecl(name: string, params: seq<Param>, returnType: TypeKind)

  datatype Item =
    | FunctionItem(def: FunctionDef)
    | ExternItem(ext: ExternDecl)
    | StmtItem(stmt: Stmt)

  type Program = seq<Item>
}

=== FILE: item_round_trip.dfy ===
/** Items and whole programs through the printer and back: parameter lists,
    `def` and `extern` items, statements at top level, and the item loop of
    parseProgram. */
module ItemRoundTrip {
  import opened Wrappers
  import opened Tokens
  import opened Ast
  import opened ParserHelper
  import opened Parser
  import opened ParserProperties
  import opened ProgramRoundTrip

  // ---------------------------------------------------------------------------
  // Parameter lists

  lemma ParamsEnd(toks: seq<Token>, pos: nat, what: string, acc: seq<Param>)
    requires Stream(toks) && pos < |toks| && toks[pos] == Punct(TokRParen)
    ensures ParseParams(toks, pos, what, acc) == Success(Parsed(acc, pos))
  {
  }

  /** A `type name` pair followed by `)` ends the list. */
  lemma ParamsLast(toks: seq<Token>, pos: nat, what: string, acc: seq<Param>, p: Param)
    requires Stream(toks) && pos + 2 < |toks| && p.ty != VOID
    requires toks[pos] == TypeTok(p.ty) && toks[pos + 1] == IdentTok(p.name) && toks[pos + 2] == Punct(TokRParen)
    ensures ParseParams(toks, pos, what, acc) == Success(Parsed(acc + [p], pos + 2))
  {
  }

  /** A `type name` pair followed by `,` hands the rest to the next round. */
  lemma ParamsNext(toks: seq<Token>, pos: nat, what: string, acc: seq<Param>, p: Param)
    requires Stream(toks) && pos + 3 < |toks| && p.ty != VOID
    requires toks[pos] == TypeTok(p.ty) && toks[pos + 1] == IdentTok(p.name) && toks[pos + 2] == Punct(TokComma)
    ensures ParseParams(toks, pos, what, acc) == ParseParams(toks, pos + 3, what, acc + [p])
  {
  }

  lemma ParamsLayoutOne(toks: seq<Token>, pos: nat, ps: seq<Param>, end: nat)
    requires |ps| == 1 && ParamsPrintable(ps) && PrintedAt(toks, pos, PrintParams(ps))
    requires end == pos + |PrintParams(ps)| && toks[end] == Punct(TokRParen)
    ensures ps[0].ty != VOID && end == pos + 2 && end < |toks|
    ensures toks[pos] == TypeTok(ps[0].ty) && toks[pos + 1] == IdentTok(ps[0].name) && toks[pos + 2] == Punct(TokRParen)
  {
    PrintedIndex(toks, pos, PrintParams(ps), 0);
    PrintedIndex(toks, pos, PrintParams(ps), 1);
  }

  /** Several printed parameters: the first pair, its comma, and the rest. */
  lemma ParamsLayout(toks: seq<Token>, pos: nat, ps: seq<Param>, end: nat) returns (next: nat)
    requires |ps| > 1 && ParamsPrintable(ps) && PrintedAt(toks, pos, PrintParams(ps))
    requires end == pos + |PrintParams(ps)|
    ensures next == pos + 3 && next < |toks| && ps[0].ty != VOID
    ensures toks[pos] == TypeTok(ps[0].ty) && toks[pos + 1] == IdentTok(ps[0].name) && toks[pos + 2] == Punct(TokComma)
    ensures ParamsPrintable(ps[1..]) && PrintedAt(toks, next, PrintParams(ps[1..]))
    ensures end == next + |PrintParams(ps[1..])|
  {
    var head := [TypeTok(ps[0].ty), IdentTok(ps[0].name), Punct(TokComma)];
    assert PrintParams(ps) == head + PrintParams(ps[1..]);
    PrintedSplit(toks, pos, head, PrintParams(ps[1..]));
    PrintedIndex(toks, pos, head, 0);
    PrintedIndex(toks, pos, head, 1);
    PrintedIndex(toks, pos, head, 2);
    next := pos + 3;
    assert forall k :: 0 <= k < |ps| - 1 ==> ps[1..][k] == ps[k + 1];
  }

  lemma AppendFirstParam(acc: seq<Param>, ps: seq<Param>)
    requires |ps| > 0
    ensures acc + [ps[0]] + ps[1..] == acc + ps
  {
  }

  /** Printed parameters closed by `)` are read back by the parameter loop,
      which stops at the `)`. */
  lemma {:induction false} ParamsOnPrinted(toks: seq<Token>, pos: nat, ps: seq<Param>, what: string, acc: seq<Param>, end: nat)
    requires Stream(toks) && ParamsPrintable(ps) && PrintedAt(toks, pos, PrintParams(ps))
    requires end == pos + |PrintParams(ps)| && toks[end] == Punct(TokRParen)
    ensures ParseParams(toks, pos, what, acc) == Success(Parsed(acc + ps, end))
    decreases |ps|
  {
    if |ps| == 0 {
      assert acc + ps == acc;
      ParamsEnd(toks, pos, what, acc);
    } else if |ps| == 1 {
      ParamsLayoutOne(toks, pos, ps, end);
      ParamsLast(toks, pos, what, acc, ps[0]);
      assert acc + ps == acc + [ps[0]];
    } else {
      var next := ParamsLayout(toks, pos, ps, end);
      ParamsOnPrinted(toks, next, ps[1..], what, acc + [ps[0]], end);
      ParamsNext(toks, pos, what, acc, ps[0]);
      AppendFirstParam(acc, ps);
    }
  }

  // ---------------------------------------------------------------------------
  // Return types

  /** A printed return type is read back; an absent one (VOID) is read back
      as long as no `->` follows. */
  lemma ReturnTypeOnPrinted(toks: seq<Token>, pos: nat, t: TypeKind, end: nat)
    requires Stream(toks) && PrintedAt(toks, pos, PrintReturnType(t)) && end == pos + |PrintReturnType(t)|
    requires t == VOID ==> toks[pos].kind != TokArrow
    ensures ParseReturnType(toks, pos) == Success(Parsed(t, end))
  {
    if t != VOID {
      PrintedIndex(toks, pos, PrintReturnType(t), 0);
      PrintedIndex(toks, pos, PrintReturnType(t), 1);
    }
  }

  // ---------------------------------------------------------------------------
  // Definitions

  /** Where the parts of a printed definition lie: `def name (` at `pos`,
      the parameters, `)` at `p`, the return type, and the body at `b`. */
  lemma FunctionLayout(toks: seq<Token>, pos: nat, f: FunctionDef, end: nat) returns (p: nat, b: nat)
    requires PrintedAt(toks, pos, PrintItem(FunctionItem(f))) && end == pos + |PrintItem(FunctionItem(f))|
    ensures toks[pos] == Punct(TokDef) && toks[pos + 1] == IdentTok(f.name) && toks[pos + 2] == Punct(TokLParen)
    ensures PrintedAt(toks, pos + 3, PrintParams(f.params)) && p == pos + 3 + |PrintParams(f.params)|
    ensures toks[p] == Punct(TokRParen)
    ensures PrintedAt(toks, p + 1, PrintReturnType(f.returnType)) && b == p + 1 + |PrintReturnType(f.returnType)|
    ensures f.returnType == VOID ==> toks[p + 1].kind != TokArrow
    ensures PrintedAt(toks, b, Braced(f.body)) && end == b + |Braced(f.body)|
  {
    var a := [Punct(TokDef), IdentTok(f.name), Punct(TokLParen)];
    var pp, rt, br := PrintParams(f.params), PrintReturnType(f.returnType), Braced(f.body);
    PrintedSplit(toks, pos, a + pp + [Punct(TokRParen)] + rt, br);
    PrintedSplit(toks, pos, a + pp + [Punct(TokRParen)], rt);
    p := FunctionLayoutFront(toks, pos, f);
    b := p + 1 + |rt|;
    PrintedBraced(toks, b, f.body);
  }

  /** `def name (`, the parameters and `)` of a printed definition. */
  lemma FunctionLayoutFront(toks: seq<Token>, pos: nat, f: FunctionDef) returns (p: nat)
    requires PrintedAt(toks, pos, [Punct(TokDef), IdentTok(f.name), Punct(TokLParen)] + PrintParams(f.params) + [Punct(TokRParen)])
    ensures toks[pos] == Punct(TokDef) && toks[pos + 1] == IdentTok(f.name) && toks[pos + 2] == Punct(TokLParen)
    ensures PrintedAt(toks, pos + 3, PrintParams(f.params)) && p == pos + 3 + |PrintParams(f.params)|
    ensures toks[p] == Punct(TokRParen)
  {
    var a := [Punct(TokDef), IdentTok(f.name), Punct(TokLParen)];
    var pp := PrintParams(f.params);
    PrintedLast(toks, pos, a + pp, Punct(TokRParen));
    PrintedSplit(toks, pos, a, pp);
    PrintedIndex(toks, pos, a, 0);
    PrintedIndex(toks, pos, a, 1);
    PrintedIndex(toks, pos, a, 2);
    p := pos + 3 + |pp|;
  }

  /** `def` dispatches to parseFunction, whose definition becomes the item. */
  lemma FunctionDispatch(toks: seq<Token>, pos: nat, f: FunctionDef, end: nat)
    requires Stream(toks) && pos + 1 < |toks| && toks[pos] == Punct(TokDef)
    requires ParseFunction(toks, pos + 1) == Success(Parsed(f, end))
    ensures ParseItem(toks, pos) == Success(Parsed(FunctionItem(f), end))
  {
  }

  /** The name and `(` of a definition, then its signature and its body. */
  lemma FunctionHead(toks: seq<Token>, q: nat, f: FunctionDef, b: nat, end: nat)
    requires Stream(toks) && q + 2 < |toks| && b < |toks|
    requires toks[q] == IdentTok(f.name) && toks[q + 1] == Punct(TokLParen)
    requires FunctionSignature(toks, q + 2) == Success(Parsed((f.params, f.returnType), b))
    requires FunctionRest(toks, f.name, f.params, f.returnType, b) == Success(Parsed(f, end))
    ensures ParseFunction(toks, q) == Success(Parsed(f, end))
  {
    var name := Consume(toks, q, TokIdentifier, "Expected identifier after def");
    var lparen := Consume(toks, q + 1, TokLParen, "Expected '(' after function name");
    assert name == Success(Parsed(toks[q], q + 1));
    assert lparen == Success(Parsed(toks[q + 1], q + 2));
    assert toks[q].value.s == f.name;
    assert ParseFunction(toks, q) == FunctionRest(toks, f.name, f.params, f.returnType, b);
  }

  /** The parameters, `)` and the return type of a definition. */
  lemma FunctionSignatureParsed(toks: seq<Token>, s: nat, ps: seq<Param>, t: TypeKind, p: nat, b: nat)
    requires Stream(toks) && s < |toks|
    requires ParseParams(toks, s, "function", []) == Success(Parsed(ps, p))
    requires ParseReturnType(toks, p + 1) == Success(Parsed(t, b))
    ensures FunctionSignature(toks, s) == Success(Parsed((ps, t), b))
  {
    assert toks[p].kind == TokRParen;
  }

  lemma FunctionBody(toks: seq<Token>, f: FunctionDef, b: nat, end: nat)
    requires Stream(toks) && b < |toks|
    requires ParseBraced(toks, b, "Expected '{' after function parameters") == Success(Parsed(f.body, end))
    ensures FunctionRest(toks, f.name, f.params, f.returnType, b) == Success(Parsed(f, end))
  {
  }

  /** The printed signature of a definition, from its parameters to its
      return type. */
  lemma FunctionSignaturePart(toks: seq<Token>, s: nat, f: FunctionDef, p: nat, b: nat)
    requires Stream(toks) && ParamsPrintable(f.params)
    requires PrintedAt(toks, s, PrintParams(f.params)) && p == s + |PrintParams(f.params)| && toks[p] == Punct(TokRParen)
    requires PrintedAt(toks, p + 1, PrintReturnType(f.returnType)) && b == p + 1 + |PrintReturnType(f.returnType)|
    requires f.returnType == VOID ==> toks[p + 1].kind != TokArrow
    ensures FunctionSignature(toks, s) == Success(Parsed((f.params, f.returnType), b))
  {
    ParamsOnPrinted(toks, s, f.params, "function", [], p);
    assert [] + f.params == f.params;
    ReturnTypeOnPrinted(toks, p + 1, f.returnType, b);
    FunctionSignatureParsed(toks, s, f.params, f.returnType, p, b);
  }

  /** The printed body of a definition. */
  lemma {:induction false} FunctionBodyPart(toks: seq<Token>, f: FunctionDef, b: nat, end: nat)
    requires Stream(toks) && BlockPrintable(f.body)
    requires PrintedAt(toks, b, Braced(f.body)) && end == b + |Braced(f.body)|
    ensures FunctionRest(toks, f.name, f.params, f.returnType, b) == Success(Parsed(f, end))
  {
    BracedOnPrinted(toks, b, f.body, "Expected '{' after function parameters", end);
    FunctionBody(toks, f, b, end);
  }

  /** A printed definition is read back by parseItem. */
  lemma {:induction false} FunctionOnPrinted(toks: seq<Token>, pos: nat, f: FunctionDef, end: nat)
    requires Stream(toks) && ItemPrintable(FunctionItem(f))
    requires PrintedAt(toks, pos, PrintItem(FunctionItem(f))) && end == pos + |PrintItem(FunctionItem(f))|
    ensures ParseItem(toks, pos) == Success(Parsed(FunctionItem(f), end))
  {
    var p, b := FunctionLayout(toks, pos, f, end);
    FunctionParts(toks, pos, f, p, b, end);
    FunctionHead(toks, pos + 1, f, b, end);
    FunctionDispatch(toks, pos, f, end);
  }

  /** The signature and the body of a definition whose parts lie where
      `FunctionLayout` puts them are read back. */
  lemma {:induction false} FunctionParts(toks: seq<Token>, pos: nat, f: FunctionDef, p: nat, b: nat, end: nat)
    requires Stream(toks) && ParamsPrintable(f.params) && BlockPrintable(f.body)
    requires pos + 2 < |toks| && toks[pos] == Punct(TokDef) && toks[pos + 1] == IdentTok(f.name) && toks[pos + 2] == Punct(TokLParen)
    requires PrintedAt(toks, pos + 3, PrintParams(f.params)) && p == pos + 3 + |PrintParams(f.params)|
    requires p + 1 < |toks| && toks[p] == Punct(TokRParen)
    requires PrintedAt(toks, p + 1, PrintReturnType(f.returnType)) && b == p + 1 + |PrintReturnType(f.returnType)|
    requires f.returnType == VOID ==> toks[p + 1].kind != TokArrow
    requires PrintedAt(toks, b, Braced(f.body)) && end == b + |Braced(f.body)|
    ensures b < |toks| && FunctionSignature(toks, pos + 3) == Success(Parsed((f.params, f.returnType), b))
    ensures FunctionRest(toks, f.name, f.params, f.returnType, b) == Success(Parsed(f, end))
  {
    FunctionSignaturePart(toks, pos + 3, f, p, b);
    FunctionBodyPart(toks, f, b, end);
  }

  // ---------------------------------------------------------------------------
  // Externs

  /** Where the parts of a printed extern lie: `extern`, the optional type,
      `name (` at `q`, the parameters, and `) ;` at `p`. */
  lemma ExternLayout(toks: seq<Token>, pos: nat, x: ExternDecl, end: nat) returns (q: nat, p: nat)
    requires PrintedAt(toks, pos, PrintItem(ExternItem(x))) && end == pos + |PrintItem(ExternItem(x))|
    ensures toks[pos] == Punct(TokExtern) && q == pos + 1 + |ExternType(x.returnType)|
    ensures x.returnType == VOID ==> q == pos + 1
    ensures x.returnType != VOID ==> q == pos + 2
    ensures x.returnType != VOID ==> toks[pos + 1] == TypeTok(x.returnType)
    ensures toks[q] == IdentTok(x.name) && toks[q + 1] == Punct(TokLParen)
    ensures PrintedAt(toks, q + 2, PrintParams(x.params)) && p == q + 2 + |PrintParams(x.params)|
    ensures toks[p] == Punct(TokRParen) && toks[p + 1] == Punct(TokSemicolon) && end == p + 2
  {
    var e, rt := [Punct(TokExtern)], ExternType(x.returnType);
    var ni, pp, cs := [IdentTok(x.name), Punct(TokLParen)], PrintParams(x.params), [Punct(TokRParen), Punct(TokSemicolon)];
    PrintedSplit(toks, pos, e + rt + ni + pp, cs);
    PrintedSplit(toks, pos, e + rt + ni, pp);
    PrintedSplit(toks, pos, e + rt, ni);
    PrintedSplit(toks, pos, e, rt);
    PrintedIndex(toks, pos, e, 0);
    q := pos + 1 + |rt|;
    p := q + 2 + |pp|;
    if x.returnType != VOID {
      PrintedIndex(toks, pos + 1, rt, 0);
    }
    PrintedIndex(toks, q, ni, 0);
    PrintedIndex(toks, q, ni, 1);
    PrintedIndex(toks, p, cs, 0);
    PrintedIndex(toks, p, cs, 1);
  }

  /** The name and `(` of an extern: what is left is its parameters. */
  lemma ExternName(toks: seq<Token>, q: nat, n: string, t: TypeKind)
    requires Stream(toks) && q + 2 < |toks|
    requires toks[q] == IdentTok(n) && toks[q + 1] == Punct(TokLParen)
    ensures ParseExternSignature(toks, q, t) == ExternParams(toks, n, q + 2, t)
  {
    var name := Consume(toks, q, TokIdentifier, "Expected identifier after extern");
    var lparen := Consume(toks, q + 1, TokLParen, "Expected '(' after extern identifier");
    assert name == Success(Parsed(toks[q], q + 1));
    assert lparen == Success(Parsed(toks[q + 1], q + 2));
    assert toks[q].value.s == n;
  }

  /** The parameters, `)` and `;` of an extern. */
  lemma ExternParamsParsed(toks: seq<Token>, s: nat, x: ExternDecl, p: nat)
    requires Stream(toks) && s < |toks|
    requires ParseParams(toks, s, "extern", []) == Success(Parsed(x.params, p))
    requires p + 2 < |toks| && toks[p + 1] == Punct(TokSemicolon)
    ensures ExternParams(toks, x.name, s, x.returnType) == Success(Parsed(x, p + 2))
  {
    assert toks[p].kind == TokRParen;
    var semi := Consume(toks, p + 1, TokSemicolon, "Expected ';' after extern declaration");
    assert semi == Success(Parsed(toks[p + 1], p + 2));
  }

  /** `extern` dispatches to parseExtern, whose declaration becomes the
      item. */
  lemma ExternDispatch(toks: seq<Token>, pos: nat, x: ExternDecl, end: nat)
    requires Stream(toks) && pos + 1 < |toks| && toks[pos] == Punct(TokExtern)
    requires ParseExtern(toks, pos + 1) == Success(Parsed(x, end))
    ensures ParseItem(toks, pos) == Success(Parsed(ExternItem(x), end))
  {
  }

  /** A type keyword after `extern` is its return type. */
  lemma ExternTyped(toks: seq<Token>, q0: nat, t: TypeKind, q: nat)
    requires Stream(toks) && q0 + 1 < |toks| && t != VOID && toks[q0] == TypeTok(t) && q == q0 + 1
    ensures ParseExtern(toks, q0) == ParseExternSignature(toks, q, t)
  {
  }

  /** An identifier after `extern` leaves the return type VOID. */
  lemma ExternUntyped(toks: seq<Token>, q0: nat, q: nat)
    requires Stream(toks) && q0 < |toks| && toks[q0].kind == TokIdentifier && q == q0
    ensures ParseExtern(toks, q0) == ParseExternSignature(toks, q, VOID)
  {
  }

  /** The optional type after `extern`, as printed, leads to the signature
      at `q`. */
  lemma ExternHead(toks: seq<Token>, pos: nat, t: TypeKind, q: nat)
    requires Stream(toks) && q < |toks| && toks[q].kind == TokIdentifier
    requires t == VOID ==> q == pos + 1
    requires t != VOID ==> q == pos + 2 && toks[pos + 1] == TypeTok(t)
    ensures ParseExtern(toks, pos + 1) == ParseExternSignature(toks, q, t)
  {
    if t != VOID {
      ExternTyped(toks, pos + 1, t, q);
    } else {
      ExternUntyped(toks, pos + 1, q);
    }
  }

  /** The printed signature of an extern, from its name to its `;`. */
  lemma ExternSignaturePart(toks: seq<Token>, q: nat, x: ExternDecl, p: nat)
    requires Stream(toks) && ParamsPrintable(x.params) && q + 2 < |toks|
    requires toks[q] == IdentTok(x.name) && toks[q + 1] == Punct(TokLParen)
    requires PrintedAt(toks, q + 2, PrintParams(x.params)) && p == q + 2 + |PrintParams(x.params)|
    requires toks[p] == Punct(TokRParen) && toks[p + 1] == Punct(TokSemicolon) && p + 2 < |toks|
    ensures ParseExternSignature(toks, q, x.returnType) == Success(Parsed(x, p + 2))
  {
    ParamsOnPrinted(toks, q + 2, x.params, "extern", [], p);
    assert [] + x.params == x.params;
    ExternParamsParsed(toks, q + 2, x, p);
    ExternName(toks, q, x.name, x.returnType);
  }

  /** A printed extern is read back by parseItem. */
  lemma {:induction false} ExternOnPrinted(toks: seq<Token>, pos: nat, x: ExternDecl, end: nat)
    requires Stream(toks) && ItemPrintable(ExternItem(x))
    requires PrintedAt(toks, pos, PrintItem(ExternItem(x))) && end == pos + |PrintItem(ExternItem(x))|
    ensures ParseItem(toks, pos) == Success(Parsed(ExternItem(x), end))
  {
    var q, p := ExternLayout(toks, pos, x, end);
    ExternSignaturePart(toks, q, x, p);
    ExternHead(toks, pos, x.returnType, q);
    ExternDispatch(toks, pos, x, end);
  }

  // ---------------------------------------------------------------------------
  // Statements at top level and the item loop

  /** Any other first token dispatches to the statement parser. */
  lemma StmtItemDispatch(toks: seq<Token>, pos: nat, s: Stmt, end: nat)
    requires Stream(toks) && pos < |toks| && toks[pos].kind != TokDef && toks[pos].kind != TokExtern
    requires ParseStatement(toks, pos) == Success(Parsed(s, end))
    ensures ParseItem(toks, pos) == Success(Parsed(StmtItem(s), end))
  {
  }

  lemma {:induction false} StmtItemOnPrinted(toks: seq<Token>, pos: nat, s: Stmt, end: nat)
    requires Stream(toks) && StmtPrintable(s) && PrintedAt(toks, pos, PrintStmt(s))
    requires end == pos + |PrintStmt(s)| && toks[end].kind != TokElse
    ensures ParseItem(toks, pos) == Success(Parsed(StmtItem(s), end))
  {
    StmtStart(s);
    PrintedIndex(toks, pos, PrintStmt(s), 0);
    StmtOnPrinted(toks, pos, s, end);
    StmtItemDispatch(toks, pos, s, end);
  }

  /** A printed item is read back by parseItem, provided the token after it
      is not `else`. */
  lemma {:induction false} ItemOnPrinted(toks: seq<Token>, pos: nat, it: Item, end: nat)
    requires Stream(toks) && ItemPrintable(it) && PrintedAt(toks, pos, PrintItem(it))
    requires end == pos + |PrintItem(it)| && toks[end].kind != TokElse
    ensures ParseItem(toks, pos) == Success(Parsed(it, end))
  {
    match it
    case FunctionItem(f) => FunctionOnPrinted(toks, pos, f, end);
    case ExternItem(x) => ExternOnPrinted(toks, pos, x, end);
    case StmtItem(s) => StmtItemOnPrinted(toks, pos, s, end);
  }

  /** The first token of a printed item: neither `else` nor EOF. */
  lemma ItemStart(it: Item)
    requires ItemPrintable(it)
    ensures |PrintItem(it)| > 0 && PrintItem(it)[0].kind != TokElse && PrintItem(it)[0].kind != TokEof
  {
    if it.StmtItem? {
      StmtStart(it.stmt);
    }
  }

  lemma ProgramUnfold(p: Program)
    requires |p| > 0 && ProgramPrintable(p)
    ensures PrintProgram(p) == PrintItem(p[0]) + PrintProgram(p[1..])
    ensures ItemPrintable(p[0]) && ProgramPrintable(p[1..])
  {
    assert forall k :: 0 <= k < |p| - 1 ==> p[1..][k] == p[k + 1];
  }

  lemma ProgramStart(p: Program)
    requires |p| > 0 && ItemPrintable(p[0])
    ensures |PrintProgram(p)| > 0 && PrintProgram(p)[0].kind != TokElse && PrintProgram(p)[0].kind != TokEof
  {
    ItemStart(p[0]);
    assert PrintProgram(p)[0] == PrintItem(p[0])[0];
  }

  /** A printed program split after its first item. */
  lemma ItemsLayout(toks: seq<Token>, pos: nat, w: seq<Token>, a: seq<Token>, b: seq<Token>, end: nat) returns (mid: nat)
    requires w == a + b && PrintedAt(toks, pos, w) && end == pos + |w| && toks[end] == EofToken
    requires |a| > 0 && a[0].kind != TokEof && (|b| > 0 ==> b[0].kind != TokElse)
    ensures mid == pos + |a| && end == mid + |b|
    ensures PrintedAt(toks, pos, a) && PrintedAt(toks, mid, b)
    ensures toks[pos].kind != TokEof && toks[mid].kind != TokElse
  {
    mid := pos + |a|;
    PrintedSplit(toks, pos, a, b);
    PrintedIndex(toks, pos, a, 0);
    if |b| > 0 {
      PrintedIndex(toks, mid, b, 0);
    }
  }

  /** A non-empty printed program: its first item, the rest from `mid`, and
      the tokens the item loop tests at each boundary. */
  lemma ProgramHead(toks: seq<Token>, pos: nat, p: Program, end: nat) returns (mid: nat)
    requires |p| > 0 && ProgramPrintable(p) && PrintedAt(toks, pos, PrintProgram(p))
    requires end == pos + |PrintProgram(p)| && toks[end] == EofToken
    ensures ItemPrintable(p[0]) && ProgramPrintable(p[1..])
    ensures PrintedAt(toks, pos, PrintItem(p[0])) && PrintedAt(toks, mid, PrintProgram(p[1..]))
    ensures toks[pos].kind != TokEof && toks[mid].kind != TokElse
    ensures mid == pos + |PrintItem(p[0])| && end == mid + |PrintProgram(p[1..])|
  {
    ProgramUnfold(p);
    ItemStart(p[0]);
    if |p| > 1 {
      ProgramStart(p[1..]);
    }
    mid := ItemsLayout(toks, pos, PrintProgram(p), PrintItem(p[0]), PrintProgram(p[1..]), end);
  }

  lemma ItemsEnd(toks: seq<Token>, pos: nat, acc: Program)
    requires Stream(toks) && pos < |toks| && toks[pos] == EofToken
    ensures ParseItems(toks, pos, acc) == Success(acc)
  {
  }

  /** One turn of the item loop. */
  lemma ItemsCons(toks: seq<Token>, pos: nat, acc: Program, p: Program, mid: nat)
    requires Stream(toks) && pos < |toks| && toks[pos].kind != TokEof && |p| > 0
    requires ParseItem(toks, pos) == Success(Parsed(p[0], mid))
    requires ParseItems(toks, mid, acc + [p[0]]) == Success(acc + [p[0]] + p[1..])
    ensures ParseItems(toks, pos, acc) == Success(acc + p)
  {
    assert acc + [p[0]] + p[1..] == acc + p;
    ItemsStep(toks, pos, acc, p[0], mid);
  }

  lemma ItemsStep(toks: seq<Token>, pos: nat, acc: Program, item: Item, mid: nat)
    requires Stream(toks) && pos < |toks| && toks[pos].kind != TokEof
    requires ParseItem(toks, pos) == Success(Parsed(item, mid))
    ensures mid < |toks| && ParseItems(toks, pos, acc) == ParseItems(toks, mid, acc + [item])
  {
  }

  /** The items of a printed program, up to EOF, are appended to the
      accumulator. */
  lemma {:induction false} ItemsOnPrinted(toks: seq<Token>, pos: nat, p: Program, acc: Program, end: nat)
    requires Stream(toks) && ProgramPrintable(p) && PrintedAt(toks, pos, PrintProgram(p))
    requires end == pos + |PrintProgram(p)| && toks[end] == EofToken
    ensures ParseItems(toks, pos, acc) == Success(acc + p)
    decreases |p|
  {
    if |p| == 0 {
      assert acc + p == acc;
      ItemsEnd(toks, pos, acc);
    } else {
      var mid := ProgramHead(toks, pos, p, end);
      ItemOnPrinted(toks, pos, p[0], mid);
      ItemsOnPrinted(toks, mid, p[1..], acc + [p[0]], end);
      ItemsCons(toks, pos, acc, p, mid);
    }
  }

  // ---------------------------------------------------------------------------
  // Well-formed payloads

  lemma DeclFits(ty: TypeKind, n: string, init: Option<Expr>)
    ensures AllFit(PrintDecl(ty, n, init))
  {
    if init.Some? {
      PrintFits(init.value);
      FitsConcat([OpTok(Equal)], Print(init.value));
      FitsConcat([TypeTok(ty), IdentTok(n)], [OpTok(Equal)] + Print(init.value));
    }
  }

  lemma OptFits(e: Option<Expr>)
    ensures AllFit(PrintOpt(e))
  {
    if e.Some? {
      PrintFits(e.value);
    }
  }

  lemma HeaderFits(kw: Kind, c: Expr)
    requires kw == TokIf || kw == TokWhile
    ensures AllFit(Header(kw, c))
  {
    PrintFits(c);
    FitsConcat([Punct(kw), Punct(TokLParen)], Print(c));
    FitsConcat([Punct(kw), Punct(TokLParen)] + Print(c), [Punct(TokRParen)]);
  }

  lemma InitFits(init: Option<Stmt>)
    ensures AllFit(PrintInit(init))
  {
    if init.Some? {
      match init.value
      case VarDecl(ty, n, v) => DeclFits(ty, n, v);
      case ExprStmt(e) => PrintFits(e);
      case _ =>
    }
  }

  lemma ForHeaderFits(init: Option<Stmt>, cond: Option<Expr>, incr: Option<Expr>)
    ensures AllFit(ForHeader(init, cond, incr))
  {
    var a := [Punct(TokFor), Punct(TokLParen)];
    var semi := [Punct(TokSemicolon)];
    InitFits(init);
    OptFits(cond);
    OptFits(incr);
    FitsConcat(a, PrintInit(init));
    FitsConcat(a + PrintInit(init), semi);
    FitsConcat(a + PrintInit(init) + semi, PrintOpt(cond));
    FitsConcat(a + PrintInit(init) + semi + PrintOpt(cond), semi);
    FitsConcat(a + PrintInit(init) + semi + PrintOpt(cond) + semi, PrintOpt(incr));
    FitsConcat(a + PrintInit(init) + semi + PrintOpt(cond) + semi + PrintOpt(incr), [Punct(TokRParen)]);
  }

  /** The statement printer only writes tokens the lexer could have built. */
  lemma {:induction false} StmtFits(s: Stmt)
    ensures AllFit(PrintStmt(s))
    decreases s, 2
  {
    var semi := [Punct(TokSemicolon)];
    match s
    case ExprStmt(e) =>
      PrintFits(e);
      FitsConcat(Print(e), semi);
    case VarDecl(ty, n, init) =>
      DeclFits(ty, n, init);
      FitsConcat(PrintDecl(ty, n, init), semi);
    case Block(ss) =>
      BracedFits(ss);
    case Return(v) =>
      OptFits(v);
      FitsConcat([Punct(TokReturn)], PrintOpt(v));
      FitsConcat([Punct(TokReturn)] + PrintOpt(v), semi);
    case If(c, th, NoElse) =>
      HeaderFits(TokIf, c);
      BracedFits(th);
      FitsConcat(Header(TokIf, c), Braced(th));
    case If(c, th, Else(eb)) =>
      HeaderFits(TokIf, c);
      BracedFits(th);
      BracedFits(eb);
      FitsConcat(Header(TokIf, c), Braced(th));
      FitsConcat(Header(TokIf, c) + Braced(th), [Punct(TokElse)]);
      FitsConcat(Header(TokIf, c) + Braced(th) + [Punct(TokElse)], Braced(eb));
    case While(c, b) =>
      HeaderFits(TokWhile, c);
      BracedFits(b);
      FitsConcat(Header(TokWhile, c), Braced(b));
    case For(init, cond, incr, b) =>
      ForHeaderFits(init, cond, incr);
      BracedFits(b);
      FitsConcat(ForHeader(init, cond, incr), Braced(b));
  }

  lemma {:induction false} BracedFits(ss: seq<Stmt>)
    ensures AllFit(Braced(ss))
    decreases ss, 1
  {
    BlockFits(ss);
    FitsConcat([Punct(TokLBrace)], PrintBlock(ss));
    FitsConcat([Punct(TokLBrace)] + PrintBlock(ss), [Punct(TokRBrace)]);
  }

  lemma {:induction false} BlockFits(ss: seq<Stmt>)
    ensures AllFit(PrintBlock(ss))
    decreases ss, 0
  {
    if |ss| > 0 {
      StmtFits(ss[0]);
      BlockFits(ss[1..]);
      FitsConcat(PrintStmt(ss[0]), PrintBlock(ss[1..]));
    }
  }

  lemma {:induction false} ParamsFit(ps: seq<Param>)
    ensures AllFit(PrintParams(ps))
    decreases |ps|
  {
    if |ps| > 1 {
      ParamsFit(ps[1..]);
      FitsConcat([TypeTok(ps[0].ty), IdentTok(ps[0].name), Punct(TokComma)], PrintParams(ps[1..]));
    }
  }

  lemma ItemFits(it: Item)
    ensures AllFit(PrintItem(it))
  {
    match it
    case FunctionItem(f) =>
      var a := [Punct(TokDef), IdentTok(f.name), Punct(TokLParen)];
      var pp, rt, br := PrintParams(f.params), PrintReturnType(f.returnType), Braced(f.body);
      ParamsFit(f.params);
      BracedFits(f.body);
      FitsConcat(a, pp);
      FitsConcat(a + pp, [Punct(TokRParen)]);
      FitsConcat(a + pp + [Punct(TokRParen)], rt);
      FitsConcat(a + pp + [Punct(TokRParen)] + rt, br);
    case ExternItem(x) =>
      var e, rt := [Punct(TokExtern)], ExternType(x.returnType);
      var ni, pp, cs := [IdentTok(x.name), Punct(TokLParen)], PrintParams(x.params), [Punct(TokRParen), Punct(TokSemicolon)];
      ParamsFit(x.params);
      FitsConcat(e, rt);
      FitsConcat(e + rt, ni);
      FitsConcat(e + rt + ni, pp);
      FitsConcat(e + rt + ni + pp, cs);
    case StmtItem(s) =>
      StmtFits(s);
  }

  lemma {:induction false} ProgramFits(p: Program)
    ensures AllFit(PrintProgram(p))
    decreases |p|
  {
    if |p| > 0 {
      ItemFits(p[0]);
      ProgramFits(p[1..]);
      FitsConcat(PrintItem(p[0]), PrintProgram(p[1..]));
    }
  }

  // ---------------------------------------------------------------------------
  // The whole program

  /** The parser is the printer's inverse on programs: every printable
      program, printed and closed by EOF, is a token buffer the parser
      accepts and reads back item for item. */
  lemma ParsePrintedProgram(p: Program)
    requires ProgramPrintable(p)
    ensures Stream(PrintProgram(p) + [EofToken])
    ensures ParseProgram(PrintProgram(p) + [EofToken]) == Success(p)
  {
    var toks := PrintProgram(p) + [EofToken];
    ProgramFits(p);
    StreamPrefix(PrintProgram(p), [EofToken]);
    ItemsOnPrinted(toks, 0, p, [], |PrintProgram(p)|);
    assert [] + p == p;
  }
}

=== FILE: lexer.dfy ===
/** The tokenizer of lexer/lexer.cpp, as pure functions over the character
    buffer. A buffer is a `seq<char>` whose last element is the NUL that
    main.cpp appends; every scan of the lexer stops at that NUL, so every
    position the lexer reaches stays strictly below `|s|`. */
module Lexer {
  import opened Wrappers
  import opened Tokens

  /** A buffer as main.cpp hands it to the lexer: non-empty, ending in NUL. */
  predicate Terminated(s: seq<char>) {
    |s| > 0 && s[|s| - 1] == '\0'
  }

  // Character classes of the C locale (`isalpha`, `isdigit`).
  predicate IsAlpha(c: char) { 'a' <= c <= 'z' || 'A' <= c <= 'Z' }
  predicate IsDigit(c: char) { '0' <= c <= '9' }
  predicate IsWordChar(c: char) { IsAlpha(c) || IsDigit(c) || c == '_' }
  predicate IsSpace(c: char) { c == ' ' || c == '\t' || c == '\n' || c == '\r' }
  predicate IsSeparator(c: char) {
    c == ',' || c == ';' || c == '(' || c == ')' || c == '{' || c == '}' || c == '[' || c == ']'
  }
  predicate InStringBody(c: char) { c != '"' && c != '\0' }
  predicate InComment(c: char) { c != '\n' && c != '\0' }

  function DigitValue(c: char): (d: nat)
    requires IsDigit(c)
    ensures d < 10
  {
    c as int - '0' as int
  }

  /** The result of one call of `lex()`: the token and the new cursor. */
  datatype Lexed = Lexed(token: Token, next: nat)

  /** The end of the maximal run of characters satisfying `p` from `i`. Since
      `p` rejects NUL, the run stops at the sentinel at the latest. */
  function RunEnd(s: seq<char>, i: nat, p: char -> bool): (j: nat)
    requires Terminated(s) && i < |s| && !p('\0')
    ensures i <= j < |s|
    ensures !p(s[j])
    decreases |s| - i
  {
    if p(s[i]) then RunEnd(s, i + 1, p) else i
  }

  /** Every character of the run satisfies `p`. Kept out of `RunEnd`'s own
      contract so that the quantifier is only in scope where it is used. */
  lemma {:induction false} RunEndRun(s: seq<char>, i: nat, p: char -> bool)
    requires Terminated(s) && i < |s| && !p('\0')
    ensures forall k :: i <= k < RunEnd(s, i, p) ==> p(s[k])
    decreases |s| - i
  {
    if p(s[i]) {
      RunEndRun(s, i + 1, p);
    }
  }

  // ---------------------------------------------------------------------------
  // Spelling of tokens

  /** The reserved words and the token each yields, tested in the order of
      lex_alpha's comparisons. */
  function KeywordToken(w: string): (r: Option<Token>)
    ensures r.Some? ==> Lexeme(r.value) == Some(w) && r.value.kind != TokIdentifier
    ensures r.Some? ==> PayloadFits(r.value)
  {
    if w == "def" then Some(Token(TokDef, NoValue))
    else if w == "extern" then Some(Token(TokExtern, NoValue))
    else if w == "int" then Some(Token(TokInt, NoValue))
    else if w == "float" then Some(Token(TokFloat, NoValue))
    else if w == "bool" then Some(Token(TokBool, NoValue))
    else if w == "true" then Some(Token(TokBoolLiteral, BoolVal(true)))
    else if w == "false" then Some(Token(TokBoolLiteral, BoolVal(false)))
    else if w == "string" then Some(Token(TokString, NoValue))
    else if w == "char" then Some(Token(TokChar, NoValue))
    else if w == "return" then Some(Token(TokReturn, NoValue))
    else if w == "if" then Some(Token(TokIf, NoValue))
    else if w == "else" then Some(Token(TokElse, NoValue))
    else if w == "while" then Some(Token(TokWhile, NoValue))
    else if w == "for" then Some(Token(TokFor, NoValue))
    else None
  }

  predicate IsReserved(w: string) {
    KeywordToken(w).Some?
  }

  /** The operator table of lex_operator (lexer.cpp:113-135). */
  const OpTable: map<string, Operator> := map[
    "==" := EqualEqual, "!=" := NotEqual, "<=" := LessEqual, ">=" := GreaterEqual,
    "&&" := AndAnd, "||" := OrOr, "++" := PlusPlus, "--" := MinusMinus,
    "+=" := PlusEqual, "-=" := MinusEqual,
    "+" := Plus, "-" := Minus, "*" := Multiply, "/" := Divide, "=" := Equal,
    "!" := Not, "&" := And, "|" := Or, "<" := Less, ">" := Greater,
    "->" := Arrow
  ]

  /** `to_string(Operator)`: the lexeme of each operator. */
  function OpToString(op: Operator): (r: string)
    ensures r in OpTable && OpTable[r] == op
  {
    match op
    case Plus => "+"
    case Minus => "-"
    case Multiply => "*"
    case Divide => "/"
    case EqualEqual => "=="
    case NotEqual => "!="
    case LessEqual => "<="
    case GreaterEqual => ">="
    case AndAnd => "&&"
    case OrOr => "||"
    case PlusPlus => "++"
    case MinusMinus => "--"
    case PlusEqual => "+="
    case MinusEqual => "-="
    case And => "&"
    case Or => "|"
    case Not => "!"
    case Equal => "="
    case Greater => ">"
    case Less => "<"
    case Arrow => "->"
  }

  /** `to_string` inverts the operator table: each entry's operator prints as
      exactly that entry's lexeme. */
  lemma OpTableInverse()
    ensures forall w :: w in OpTable ==> OpToString(OpTable[w]) == w
  {
  }

  /** The decimal value of a digit string, position by position. */
  function Pow10(n: nat): (r: nat)
    ensures r >= 1
  {
    if n == 0 then 1 else 10 * Pow10(n - 1)
  }

  predicate AllDigits(ds: string) {
    forall k :: 0 <= k < |ds| ==> IsDigit(ds[k])
  }

  function ValueOf(ds: string): nat
    requires AllDigits(ds)
  {
    if |ds| == 0 then 0 else DigitValue(ds[0]) * Pow10(|ds| - 1) + ValueOf(ds[1..])
  }

  /** The shortest decimal text of a natural number. */
  function DecimalText(n: nat): (ds: string)
    ensures |ds| > 0 && AllDigits(ds)
  {
    if n < 10 then [('0' as int + n) as char]
    else DecimalText(n / 10) + [('0' as int + n % 10) as char]
  }

  /** The text a token was lexed from, for the kinds whose text the token
      determines. */
  function Lexeme(t: Token): Option<string> {
    match t.kind
    case TokEof => None
    case TokIdentifier => if t.value.StrVal? then Some(t.value.s) else None
    case TokOperator => if t.value.OpVal? then Some(OpToString(t.value.op)) else None
    case TokArrow => Some("->")
    case TokIntLiteral =>
      if t.value.IntVal? && t.value.i >= 0 then Some(DecimalText(t.value.i)) else None
    case TokFloatLiteral =>
      if t.value.FloatVal? && t.value.whole >= 0 then
        Some(DecimalText(t.value.whole) + "." + t.value.fraction)
      else None
    case TokStringLiteral => if t.value.StrVal? then Some("\"" + t.value.s + "\"") else None
    case TokCharLiteral => if t.value.CharVal? then Some(['\'', t.value.c, '\'']) else None
    case TokBoolLiteral =>
      if t.value.BoolVal? then Some(if t.value.b then "true" else "false") else None
    case TokDef => Some("def")
    case TokExtern => Some("extern")
    case TokInt => Some("int")
    case TokFloat => Some("float")
    case TokBool => Some("bool")
    case TokString => Some("string")
    case TokChar => Some("char")
    case TokReturn => Some("return")
    case TokIf => Some("if")
    case TokElse => Some("else")
    case TokWhile => Some("while")
    case TokFor => Some("for")
    case TokComma => Some(",")
    case TokSemicolon => Some(";")
    case TokLParen => Some("(")
    case TokRParen => Some(")")
    case TokLBrace => Some("{")
    case TokRBrace => Some("}")
    case TokLBracket => Some("[")
    case TokRBracket => Some("]")
  }

  // ---------------------------------------------------------------------------
  // The sub-lexers

  /** lex_alpha: a maximal run of letters, digits and `_`, classified as a
      reserved word or an identifier. */
  function LexAlpha(s: seq<char>, i: nat): (r: Lexed)
    requires Terminated(s) && i < |s| && (IsAlpha(s[i]) || s[i] == '_')
    ensures i < r.next < |s|
    ensures forall k :: i <= k < r.next ==> IsWordChar(s[k])
    ensures !IsWordChar(s[r.next])
    ensures Lexeme(r.token) == Some(s[i..r.next])
    ensures r.token.kind == TokIdentifier <==> !IsReserved(s[i..r.next])
    ensures r.token.kind == TokIdentifier ==> r.token.value == StrVal(s[i..r.next])
    ensures PayloadFits(r.token)
  {
    var j := RunEnd(s, i, IsWordChar);
    RunEndRun(s, i, IsWordChar);
    var name := s[i..j];
    var keyword := KeywordToken(name);
    if keyword.Some? then Lexed(keyword.value, j)
    else Lexed(Token(TokIdentifier, StrVal(name)), j)
  }

  /** The integer loop of lex_number: `intval = intval * 10 + digit` over
      the maximal run of digits from `i`. Returns the value and the end. */
  function AccumulateDigits(s: seq<char>, i: nat, acc: int): (r: (int, nat))
    requires Terminated(s) && i < |s|
    ensures r.1 == RunEnd(s, i, IsDigit)
    ensures AllDigits(s[i..r.1])
    ensures r.0 == acc * Pow10(r.1 - i) + ValueOf(s[i..r.1])
    decreases |s| - i
  {
    if IsDigit(s[i]) then
      var r := AccumulateDigits(s, i + 1, acc * 10 + DigitValue(s[i]));
      assert s[i..r.1][1..] == s[i + 1..r.1];
      var p := Pow10(r.1 - (i + 1));
      assert Pow10(r.1 - i) == 10 * p;
      ShiftDigit(acc, DigitValue(s[i]), p);
      r
    else
      (acc, i)
  }

  lemma ShiftDigit(acc: int, d: int, p: int)
    ensures (acc * 10 + d) * p == acc * (10 * p) + d * p
  {
  }

  /** lex_number: a digit run is an int literal, unless a `.` follows, in
      which case the `.` and the following digit run make it one float
      literal. */
  function LexNumber(s: seq<char>, i: nat): (r: Lexed)
    requires Terminated(s) && i < |s| && IsDigit(s[i])
    ensures var j := RunEnd(s, i, IsDigit);
      && i < j < r.next + 1
      && AllDigits(s[i..j])
      && (s[j] != '.' ==> r == Lexed(Token(TokIntLiteral, IntVal(ValueOf(s[i..j]))), j))
      && (s[j] == '.' ==>
            && r.token.kind == TokFloatLiteral
            && r.next == RunEnd(s, j + 1, IsDigit)
            && r.token.value == FloatVal(ValueOf(s[i..j]), s[j + 1..r.next])
            && AllDigits(s[j + 1..r.next]))
    ensures i < r.next < |s|
    ensures PayloadFits(r.token)
  {
    var (intval, j) := AccumulateDigits(s, i, 0);
    if s[j] == '.' then
      var k := RunEnd(s, j + 1, IsDigit);
      RunEndRun(s, j + 1, IsDigit);
      Lexed(Token(TokFloatLiteral, FloatVal(intval, s[j + 1..k])), k)
    else
      Lexed(Token(TokIntLiteral, IntVal(intval)), j)
  }

  /** lex_operator: the 2-character window is tried first, then one
      character. The source guards the window with `cur + 1 < end`; a
      non-NUL character always has the sentinel after it, so the guard
      always holds here. */
  function LexOperator(s: seq<char>, i: nat): (r: Result<Lexed>)
    requires Terminated(s) && i < |s| && s[i] != '\0'
    ensures i + 2 <= |s|
    ensures r.Success? <==> s[i..i + 2] in OpTable || [s[i]] in OpTable
    ensures s[i..i + 2] in OpTable ==> r.Success? && r.value.next == i + 2
    ensures r.Success? ==> r.value.next == i + 1 || r.value.next == i + 2
    ensures r.Success? ==> r.value.next < |s|
    ensures r.Success? ==> Lexeme(r.value.token) == Some(s[i..r.value.next])
    ensures r.Success? ==> (r.value.token.kind == TokArrow <==> s[i..r.value.next] == "->")
    ensures r.Success? ==> r.value.token.kind in {TokArrow, TokOperator} && PayloadFits(r.value.token)
    ensures r.Failure? ==> r.error == "unknown operator: " + [s[i]]
  {
    OpTableInverse();
    var two := s[i..i + 2];
    if two in OpTable then
      OpLexemeNoNul(two);
      var op := OpTable[two];
      if op == Arrow then Success(Lexed(Token(TokArrow, OpVal(op)), i + 2))
      else Success(Lexed(Token(TokOperator, OpVal(op)), i + 2))
    else if [s[i]] in OpTable then
      assert s[i..i + 1] == [s[i]];
      Success(Lexed(Token(TokOperator, OpVal(OpTable[[s[i]]])), i + 1))
    else
      Failure("unknown operator: " + [s[i]])
  }

  /** No operator lexeme contains the NUL sentinel, so a 2-character
      operator never reaches past the buffer. */
  lemma OpLexemeNoNul(w: string)
    requires w in OpTable
    ensures forall k :: 0 <= k < |w| ==> w[k] != '\0'
  {
    OpTableInverse();
  }

  /** The kind of each punctuation character (lex_separator). */
  function SeparatorKind(c: char): (k: Kind)
    requires IsSeparator(c)
    ensures Lexeme(Token(k, NoValue)) == Some([c])
  {
    match c
    case ',' => TokComma
    case ';' => TokSemicolon
    case '(' => TokLParen
    case ')' => TokRParen
    case '{' => TokLBrace
    case '}' => TokRBrace
    case '[' => TokLBracket
    case ']' => TokRBracket
  }

  /** lex_string: the raw characters up to the closing quote; reaching the
      NUL first is fatal. */
  function LexString(s: seq<char>, i: nat): (r: Result<Lexed>)
    requires Terminated(s) && i < |s| && s[i] == '"'
    ensures var j := RunEnd(s, i + 1, InStringBody);
      && (r.Success? <==> s[j] == '"')
      && (r.Success? ==> r.value == Lexed(Token(TokStringLiteral, StrVal(s[i + 1..j])), j + 1))
    ensures r.Success? ==> i + 1 < r.value.next < |s|
    ensures r.Success? ==> Lexeme(r.value.token) == Some(s[i..r.value.next])
    ensures r.Success? ==> '"' !in r.value.token.value.s && '\0' !in r.value.token.value.s
    ensures r.Failure? ==>
      && r.error == "unterminated string"
      && exists k :: i < k < |s| && s[k] == '\0' && '"' !in s[i + 1..k]
  {
    var j := RunEnd(s, i + 1, InStringBody);
    RunEndRun(s, i + 1, InStringBody);
    if s[j] != '"' then
      assert forall k :: i + 1 <= k < j ==> s[k] != '"';
      Failure("unterminated string")
    else
      QuotedSlice(s, i, j);
      Success(Lexed(Token(TokStringLiteral, StrVal(s[i + 1..j])), j + 1))
  }

  /** A slice that starts and ends with a double quote is the text between
      them, quoted. */
  lemma QuotedSlice(s: seq<char>, i: nat, j: nat)
    requires i < j < |s| && s[i] == '"' && s[j] == '"'
    ensures s[i..j + 1] == "\"" + s[i + 1..j] + "\""
  {
    var q := "\"" + s[i + 1..j] + "\"";
    forall k | 0 <= k < |q|
      ensures s[i..j + 1][k] == q[k]
    {
      if 0 < k < |q| - 1 {
        assert q[k] == s[i + 1..j][k - 1];
      }
    }
  }

  /** lex_char: exactly one character between single quotes. */
  function LexChar(s: seq<char>, i: nat): (r: Result<Lexed>)
    requires Terminated(s) && i < |s| && s[i] == '\''
    ensures r.Success? <==> s[i + 1] != '\0' && s[i + 2] == '\''
    ensures r.Success? ==> r.value == Lexed(Token(TokCharLiteral, CharVal(s[i + 1])), i + 3)
    ensures r.Success? ==> i + 3 < |s| && Lexeme(r.value.token) == Some(s[i..i + 3])
    ensures r.Failure? ==> r.error == "unterminated char"
  {
    if s[i + 1] == '\0' then Failure("unterminated char")
    else if s[i + 2] != '\'' then Failure("unterminated char")
    else
      assert s[i..i + 3] == [s[i], s[i + 1], s[i + 2]];
      Success(Lexed(Token(TokCharLiteral, CharVal(s[i + 1])), i + 3))
  }

  // ---------------------------------------------------------------------------
  // lex() and the token buffer

  /** lex(): skip blanks and comments, then dispatch on the first character.
      NUL yields EOF without moving the cursor. */
  function Lex(s: seq<char>, i: nat): (r: Result<Lexed>)
    requires Terminated(s) && i < |s|
    ensures r.Success? ==> i <= r.value.next < |s| && PayloadFits(r.value.token)
    ensures r.Success? && r.value.token.kind != TokEof ==> i < r.value.next
    ensures r.Success? && r.value.token.kind == TokEof ==> s[r.value.next] == '\0'
    decreases |s| - i
  {
    var c := s[i];
    if IsAlpha(c) || c == '_' then Success(LexAlpha(s, i))
    else if IsDigit(c) then Success(LexNumber(s, i))
    else if IsSpace(c) then Lex(s, i + 1)
    else if c == '\0' then Success(Lexed(EofToken, i))
    else if IsSeparator(c) then Success(Lexed(Token(SeparatorKind(c), NoValue), i + 1))
    else if c == '"' then LexString(s, i)
    else if c == '\'' then LexChar(s, i)
    else if c == '#' then Lex(s, RunEnd(s, i, InComment))
    else LexOperator(s, i)
  }

  /** A token buffer as the Lexer constructor leaves it: non-empty, EOF last
      and nowhere else, every payload of the shape its kind expects. */
  predicate EofTerminated(ts: seq<Token>) {
    && |ts| > 0
    && ts[|ts| - 1].kind == TokEof
    && (forall k :: 0 <= k < |ts| - 1 ==> ts[k].kind != TokEof)
    && (forall k :: 0 <= k < |ts| ==> PayloadFits(ts[k]))
  }

  /** The loop of the Lexer constructor from cursor `i`: lex until EOF,
      keeping the EOF token. */
  function Tokenize(s: seq<char>, i: nat): (r: Result<seq<Token>>)
    requires Terminated(s) && i < |s|
    ensures r.Success? ==> EofTerminated(r.value)
    decreases |s| - i
  {
    var step :- Lex(s, i);
    if step.token.kind == TokEof then Success([step.token])
    else
      var rest :- Tokenize(s, step.next);
      Success([step.token] + rest)
  }

  // ---------------------------------------------------------------------------
  // The cursor over the token buffer

  datatype Cursor = Cursor(tokens: seq<Token>, index: nat)

  predicate Valid(c: Cursor) { |c.tokens| > 0 }

  /** current(): the token under the cursor, or the last token once the
      cursor has run past the buffer. */
  function Current(c: Cursor): (t: Token)
    requires Valid(c)
    ensures t in c.tokens
    ensures c.index < |c.tokens| ==> t == c.tokens[c.index]
    ensures c.index >= |c.tokens| ==> t == c.tokens[|c.tokens| - 1]
  {
    if c.index < |c.tokens| then c.tokens[c.index] else c.tokens[|c.tokens| - 1]
  }

  /** next(): return the token under the cursor and advance by one, unless
      the cursor is already past the buffer. */
  function Next(c: Cursor): (r: (Token, Cursor))
    requires Valid(c)
    ensures r.0 == Current(c)
    ensures r.1.tokens == c.tokens && Valid(r.1)
    ensures c.index < |c.tokens| ==> r.1.index == c.index + 1
    ensures c.index >= |c.tokens| ==> r.1 == c
  {
    if c.index < |c.tokens| then (c.tokens[c.index], c.(index := c.index + 1))
    else (c.tokens[|c.tokens| - 1], c)
  }

  /** Prepend already-collected tokens to the outcome of the rest of the loop. */
  function Prepend(ts: seq<Token>, r: Result<seq<Token>>): Result<seq<Token>> {
    if r.Success? then Success(ts + r.value) else r
  }

  /** One round of the constructor's loop: a non-EOF token is followed by
      the tokens lexed after it. */
  lemma TokenizeStep(s: seq<char>, i: nat, prefix: seq<Token>)
    requires Terminated(s) && i < |s| && Lex(s, i).Success?
    ensures var step := Lex(s, i).value;
      && (step.token.kind == TokEof ==> Prepend(prefix, Tokenize(s, i)) == Success(prefix + [step.token]))
      && (step.token.kind != TokEof ==>
            Prepend(prefix, Tokenize(s, i)) == Prepend(prefix + [step.token], Tokenize(s, step.next)))
  {
    var step := Lex(s, i).value;
    if step.token.kind != TokEof {
      var rest := Tokenize(s, step.next);
      if rest.Success? {
        assert prefix + ([step.token] + rest.value) == (prefix + [step.token]) + rest.value;
      }
    }
  }

  /** The Lexer constructor: lex and push until an EOF token has been pushed. */
  method NewLexer(s: seq<char>) returns (r: Result<Cursor>)
    requires Terminated(s)
    ensures r.Success? <==> Tokenize(s, 0).Success?
    ensures r.Success? ==> r.value == Cursor(Tokenize(s, 0).value, 0)
    ensures r.Success? ==> EofTerminated(r.value.tokens)
  {
    var tokens: seq<Token> := [];
    var pos := 0;
    var done := false;
    assert Prepend(tokens, Tokenize(s, 0)) == Tokenize(s, 0) by {
      if Tokenize(s, 0).Success? {
        assert tokens + Tokenize(s, 0).value == Tokenize(s, 0).value;
      }
    }
    while !done
      invariant pos < |s|
      invariant !done ==> Tokenize(s, 0) == Prepend(tokens, Tokenize(s, pos))
      invariant done ==> Tokenize(s, 0) == Success(tokens)
      decreases |s| - pos, if done then 0 else 1
    {
      var step := Lex(s, pos);
      if step.Failure? {
        assert Tokenize(s, pos).Failure?;
        return Failure(step.error);
      }
      TokenizeStep(s, pos, tokens);
      tokens := tokens + [step.value.token];
      if step.value.token.kind == TokEof {
        done := true;
      } else {
        pos := step.value.next;
      }
    }
    r := Success(Cursor(tokens, 0));
  }
}

=== FILE: lexer_properties.dfy ===
/** Properties of the tokenizer as a whole: the decimal reading of a digit
    run inverts decimal printing, tokenizing the spelling of a token
    sequence gives the sequence back, and the cursor keeps returning the
    final EOF once the buffer is exhausted. */
module LexerProperties {
  import opened Wrappers
  import opened Tokens
  import opened Lexer

  // ---------------------------------------------------------------------------
  // Digit runs

  /** Appending a digit multiplies the value so far by ten and adds it. */
  lemma {:induction false} ValueOfSnoc(ds: string, d: char)
    requires AllDigits(ds) && IsDigit(d)
    ensures AllDigits(ds + [d]) && ValueOf(ds + [d]) == 10 * ValueOf(ds) + DigitValue(d)
    decreases |ds|
  {
    if |ds| == 0 {
      assert ds + [d] == [d];
    } else {
      var tail := ds[1..];
      assert (ds + [d])[1..] == tail + [d];
      ValueOfSnoc(tail, d);
      var p := Pow10(|ds| - 1);
      var h := DigitValue(ds[0]);
      assert Pow10(|ds|) == 10 * p;
      assert ValueOf(ds + [d]) == h * (10 * p) + ValueOf(tail + [d]);
      TenTimes(h, p);
      assert ValueOf(ds) == h * p + ValueOf(tail);
    }
  }

  lemma TenTimes(h: int, p: int)
    ensures h * (10 * p) == 10 * (h * p)
  {
  }

  /** Reading back the decimal text of `n` gives `n`: an int literal the
      lexer reads from `DecimalText(n)` carries the value `n`. */
  lemma {:induction false} DecimalRoundTrip(n: nat)
    ensures ValueOf(DecimalText(n)) == n
    decreases n
  {
    if n >= 10 {
      DecimalRoundTrip(n / 10);
      ValueOfSnoc(DecimalText(n / 10), ('0' as int + n % 10) as char);
    } else {
      assert DecimalText(n)[1..] == [];
    }
  }

  /** A run of `p` that ends at `j` is the maximal run `RunEnd` finds. */
  lemma {:induction false} RunEndAt(s: seq<char>, i: nat, p: char -> bool, j: nat)
    requires Terminated(s) && i <= j < |s| && !p('\0')
    requires forall k :: i <= k < j ==> p(s[k])
    requires !p(s[j])
    ensures RunEnd(s, i, p) == j
    decreases j - i
  {
    if i < j {
      RunEndAt(s, i + 1, p, j);
    }
  }

  // ---------------------------------------------------------------------------
  // Spelling tokens and lexing them back

  /** A word as lex_alpha reads it: a letter or `_`, then word characters. */
  predicate IsWord(w: string) {
    && |w| > 0
    && (IsAlpha(w[0]) || w[0] == '_')
    && forall k :: 0 <= k < |w| ==> IsWordChar(w[k])
  }

  /** The tokens the lexer can produce, with payloads it can produce: no
      EOF (it is only ever last), identifiers that are words but not
      reserved, non-negative numbers, string bodies without a quote or NUL,
      char payloads other than NUL, and `->` only as the arrow token. */
  predicate Spellable(t: Token) {
    && PayloadFits(t)
    && match t.kind
       case TokEof => false
       case TokIdentifier => IsWord(t.value.s) && !IsReserved(t.value.s)
       case TokIntLiteral => t.value.i >= 0
       case TokFloatLiteral => t.value.whole >= 0 && AllDigits(t.value.fraction)
       case TokStringLiteral => '"' !in t.value.s && '\0' !in t.value.s
       case TokCharLiteral => t.value.c != '\0'
       case TokOperator => t.value.op != Arrow
       case _ => true
  }

  /** The text of a spellable token. */
  function Spelling(t: Token): (w: string)
    requires Spellable(t)
    ensures Lexeme(t) == Some(w) && |w| > 0
  {
    Lexeme(t).value
  }

  /** Every token of the sequence is spellable, stated head first so that
      the tail of a spellable sequence is spellable by definition. */
  predicate AllSpellable(ts: seq<Token>) {
    |ts| == 0 || (Spellable(ts[0]) && AllSpellable(ts[1..]))
  }

  /** AllSpellable says no more and no less than "each token is spellable". */
  lemma {:induction false} AllSpellableEach(ts: seq<Token>)
    ensures AllSpellable(ts) <==> forall k :: 0 <= k < |ts| ==> Spellable(ts[k])
    decreases |ts|
  {
    if |ts| > 0 {
      AllSpellableEach(ts[1..]);
      assert forall k :: 0 < k < |ts| ==> ts[k] == ts[1..][k - 1];
    }
  }

  /** The source text of a token sequence: each token's text followed by a
      blank. */
  function Unlex(ts: seq<Token>): string
    requires AllSpellable(ts)
  {
    if |ts| == 0 then "" else Spelling(ts[0]) + " " + Unlex(ts[1..])
  }

  /** `w` is spelled in `s` from `i`, with at least one character after
      it. */
  predicate SpelledAt(s: seq<char>, i: nat, w: string) {
    i + |w| < |s| && s[i..i + |w|] == w
  }

  lemma SpelledChars(s: seq<char>, i: nat, w: string)
    requires SpelledAt(s, i, w)
    ensures forall k :: 0 <= k < |w| ==> s[i + k] == w[k]
  {
    forall k | 0 <= k < |w|
      ensures s[i + k] == w[k]
    {
      assert s[i..i + |w|][k] == s[i + k];
    }
  }

  /** A spelling split in two: the second part is spelled right after the
      first. */
  lemma SpelledSplit(s: seq<char>, i: nat, u: string, v: string)
    requires SpelledAt(s, i, u + v)
    ensures SpelledAt(s, i, u) && SpelledAt(s, i + |u|, v)
  {
    assert s[i..i + |u|] == s[i..i + |u + v|][..|u|];
    assert s[i + |u|..i + |u| + |v|] == s[i..i + |u + v|][|u|..];
  }

  /** Every reserved word spells its keyword token, and reads back as it. */
  lemma KeywordSpelling(t: Token)
    requires Spellable(t) && t.kind in {TokDef, TokExtern, TokInt, TokFloat, TokBool, TokBoolLiteral,
                                        TokString, TokChar, TokReturn, TokIf, TokElse, TokWhile, TokFor}
    ensures IsWord(Spelling(t)) && KeywordToken(Spelling(t)) == Some(t)
  {
  }

  /** lex() on a word followed by a blank reads back its keyword token, or
      the identifier when the word is not reserved. */
  lemma LexWord(s: seq<char>, i: nat, w: string, t: Token)
    requires Terminated(s) && IsWord(w) && SpelledAt(s, i, w) && s[i + |w|] == ' '
    requires KeywordToken(w) == Some(t) || (KeywordToken(w).None? && t == Token(TokIdentifier, StrVal(w)))
    ensures Lex(s, i) == Success(Lexed(t, i + |w|))
  {
    SpelledChars(s, i, w);
    RunEndAt(s, i, IsWordChar, i + |w|);
  }

  /** lex() on the decimal text of `n` followed by a blank reads back the
      int literal `n`. */
  lemma LexInt(s: seq<char>, i: nat, n: nat)
    requires Terminated(s) && SpelledAt(s, i, DecimalText(n)) && s[i + |DecimalText(n)|] == ' '
    ensures Lex(s, i) == Success(Lexed(Token(TokIntLiteral, IntVal(n)), i + |DecimalText(n)|))
  {
    var w := DecimalText(n);
    SpelledChars(s, i, w);
    RunEndAt(s, i, IsDigit, i + |w|);
    DecimalRoundTrip(n);
  }

  /** lex() on a digit run followed by `.` and a second digit run reads one
      float literal holding the first run's value and the second run's
      text. */
  lemma LexDigitsDotDigits(s: seq<char>, i: nat, j: nat, k: nat)
    requires Terminated(s) && i < j < k < |s| && s[j] == '.'
    requires forall m :: i <= m < j ==> IsDigit(s[m])
    requires forall m :: j < m < k ==> IsDigit(s[m])
    requires !IsDigit(s[k])
    ensures Lex(s, i) == Success(Lexed(Token(TokFloatLiteral, FloatVal(ValueOf(s[i..j]), s[j + 1..k])), k))
  {
    RunEndAt(s, i, IsDigit, j);
    RunEndAt(s, j + 1, IsDigit, k);
    var r := LexNumber(s, i);
    assert r.token == Token(TokFloatLiteral, FloatVal(ValueOf(s[i..j]), s[j + 1..k]));
  }

  /** Where the parts of `whole.fraction` lie when it is spelled at `i`
      and followed by a blank. */
  lemma FloatLayout(s: seq<char>, i: nat, whole: nat, f: string) returns (j: nat, k: nat)
    requires Terminated(s) && AllDigits(f)
    requires var w := DecimalText(whole) + "." + f; SpelledAt(s, i, w) && s[i + |w|] == ' '
    ensures j == i + |DecimalText(whole)| && k == j + 1 + |f| && i < j < k < |s|
    ensures s[j] == '.' && !IsDigit(s[k])
    ensures forall m :: i <= m < j ==> IsDigit(s[m])
    ensures forall m :: j < m < k ==> IsDigit(s[m])
    ensures s[i..j] == DecimalText(whole) && s[j + 1..k] == f
  {
    var d := DecimalText(whole);
    j := i + |d|;
    k := j + 1 + |f|;
    SpelledSplit(s, i, d, "." + f);
    SpelledSplit(s, j, ".", f);
    SpelledChars(s, i, d);
    SpelledChars(s, j + 1, f);
    SpelledChars(s, j, ".");
  }

  /** lex() on `whole.fraction` followed by a blank reads back the float
      literal. */
  lemma LexFloat(s: seq<char>, i: nat, whole: nat, f: string)
    requires Terminated(s) && AllDigits(f)
    requires var w := DecimalText(whole) + "." + f; SpelledAt(s, i, w) && s[i + |w|] == ' '
    ensures var w := DecimalText(whole) + "." + f;
      Lex(s, i) == Success(Lexed(Token(TokFloatLiteral, FloatVal(whole, f)), i + |w|))
  {
    var j, k := FloatLayout(s, i, whole, f);
    LexDigitsDotDigits(s, i, j, k);
    DecimalRoundTrip(whole);
  }

  /** lex() sends a double quote to lex_string. */
  lemma LexAtQuote(s: seq<char>, i: nat)
    requires Terminated(s) && i < |s| && s[i] == '"'
    ensures Lex(s, i) == LexString(s, i)
  {
  }

  /** lex() sends a single quote to lex_char. */
  lemma LexAtApostrophe(s: seq<char>, i: nat)
    requires Terminated(s) && i < |s| && s[i] == '\''
    ensures Lex(s, i) == LexChar(s, i)
  {
  }

  /** lex() on a quoted string body followed by a blank reads back the
      string literal. */
  lemma LexStringLiteral(s: seq<char>, i: nat, body: string)
    requires Terminated(s) && '"' !in body && '\0' !in body
    requires var w := "\"" + body + "\""; SpelledAt(s, i, w) && s[i + |w|] == ' '
    ensures Lex(s, i) == Success(Lexed(Token(TokStringLiteral, StrVal(body)), i + |body| + 2))
  {
    SpelledSplit(s, i, "\"" + body, "\"");
    SpelledSplit(s, i, "\"", body);
    SpelledChars(s, i + 1, body);
    assert s[i] == '"' && s[i + 1 + |body|] == '"';
    RunEndAt(s, i + 1, InStringBody, i + 1 + |body|);
    LexAtQuote(s, i);
  }

  /** lex() on a quoted char followed by a blank reads back the char
      literal. */
  lemma LexCharLiteral(s: seq<char>, i: nat, c: char)
    requires Terminated(s) && c != '\0' && SpelledAt(s, i, ['\'', c, '\'']) && s[i + 3] == ' '
    ensures Lex(s, i) == Success(Lexed(Token(TokCharLiteral, CharVal(c)), i + 3))
  {
    SpelledChars(s, i, ['\'', c, '\'']);
    LexAtApostrophe(s, i);
  }

  /** The shape of every operator lexeme: one or two characters, the first
      of which sends lex() to lex_operator, and no lexeme of the table is a
      one-character one followed by a blank. */
  lemma OperatorSpellingShape(op: Operator)
    ensures var w := OpToString(op);
      && 1 <= |w| <= 2
      && !IsAlpha(w[0]) && w[0] != '_' && !IsDigit(w[0]) && !IsSpace(w[0]) && w[0] != '\0'
      && !IsSeparator(w[0]) && w[0] != '"' && w[0] != '\'' && w[0] != '#'
      && (|w| == 1 ==> [w[0], ' '] !in OpTable)
  {
  }

  /** lex() on an operator lexeme followed by a blank reads back the
      operator, or the arrow token for `->`: longest match never takes the
      blank along. */
  lemma LexOperatorSpelling(s: seq<char>, i: nat, op: Operator)
    requires Terminated(s) && SpelledAt(s, i, OpToString(op)) && s[i + |OpToString(op)|] == ' '
    ensures var t := if op == Arrow then Token(TokArrow, OpVal(Arrow)) else Token(TokOperator, OpVal(op));
      Lex(s, i) == Success(Lexed(t, i + |OpToString(op)|))
  {
    var w := OpToString(op);
    OperatorSpellingShape(op);
    SpelledChars(s, i, w);
    if |w| == 2 {
      assert s[i..i + 2] == w;
    } else {
      assert s[i..i + 2] == [w[0], ' '];
      assert [s[i]] == w;
    }
  }

  /** lex() dispatches a punctuation character to its one-character token. */
  lemma LexAtSeparator(s: seq<char>, i: nat)
    requires Terminated(s) && i < |s| && IsSeparator(s[i])
    ensures Lex(s, i) == Success(Lexed(Token(SeparatorKind(s[i]), NoValue), i + 1))
  {
  }

  /** lex() on a punctuation character reads back its token. */
  lemma LexSeparatorSpelling(s: seq<char>, i: nat, c: char)
    requires Terminated(s) && IsSeparator(c) && SpelledAt(s, i, [c])
    ensures Lex(s, i) == Success(Lexed(Token(SeparatorKind(c), NoValue), i + 1))
  {
    SpelledChars(s, i, [c]);
    LexAtSeparator(s, i);
  }

  predicate IsKeywordKind(k: Kind) {
    k in {TokDef, TokExtern, TokInt, TokFloat, TokBool, TokBoolLiteral,
          TokString, TokChar, TokReturn, TokIf, TokElse, TokWhile, TokFor}
  }

  predicate IsSeparatorKind(k: Kind) {
    k in {TokComma, TokSemicolon, TokLParen, TokRParen, TokLBrace, TokRBrace, TokLBracket, TokRBracket}
  }

  /** The punctuation case of `LexSpelled`. */
  lemma LexSpelledSeparator(s: seq<char>, i: nat, t: Token, w: string)
    requires Terminated(s) && Spellable(t) && IsSeparatorKind(t.kind)
    requires Lexeme(t) == Some(w) && SpelledAt(s, i, w)
    ensures Lex(s, i) == Success(Lexed(t, i + |w|))
  {
    var c := w[0];
    assert w == [c];
    LexSeparatorSpelling(s, i, c);
  }

  /** The literal and operator cases of `LexSpelled`. */
  lemma LexSpelledValue(s: seq<char>, i: nat, t: Token, w: string)
    requires Terminated(s) && Spellable(t)
    requires t.kind in {TokIdentifier, TokIntLiteral, TokFloatLiteral, TokStringLiteral,
                        TokCharLiteral, TokOperator, TokArrow}
    requires Lexeme(t) == Some(w) && SpelledAt(s, i, w) && s[i + |w|] == ' '
    ensures Lex(s, i) == Success(Lexed(t, i + |w|))
  {
    if t.kind == TokIdentifier {
      LexWord(s, i, w, t);
    } else if t.kind == TokIntLiteral {
      LexInt(s, i, t.value.i);
    } else if t.kind == TokFloatLiteral {
      LexFloat(s, i, t.value.whole, t.value.fraction);
    } else if t.kind == TokStringLiteral {
      LexStringLiteral(s, i, t.value.s);
    } else if t.kind == TokCharLiteral {
      LexCharLiteral(s, i, t.value.c);
    } else {
      LexOperatorSpelling(s, i, t.value.op);
    }
  }

  /** lex() on the spelling `w` of any spellable token, followed by a blank,
      reads back exactly that token and stops at the blank. */
  lemma LexSpelled(s: seq<char>, i: nat, t: Token, w: string)
    requires Terminated(s) && Spellable(t)
    requires Lexeme(t) == Some(w) && SpelledAt(s, i, w) && s[i + |w|] == ' '
    ensures Lex(s, i) == Success(Lexed(t, i + |w|))
  {
    if IsKeywordKind(t.kind) {
      KeywordSpelling(t);
      LexWord(s, i, w, t);
    } else if IsSeparatorKind(t.kind) {
      LexSpelledSeparator(s, i, t, w);
    } else {
      LexSpelledValue(s, i, t, w);
    }
  }

  /** White space (blank, tab, newline, carriage return) is skipped: the
      buffer from it is the buffer from the next character. */
  lemma TokenizeSpace(s: seq<char>, j: nat)
    requires Terminated(s) && j + 1 < |s| && IsSpace(s[j])
    ensures Tokenize(s, j) == Tokenize(s, j + 1)
  {
    assert Lex(s, j) == Lex(s, j + 1);
  }

  /** A `#` comment, up to its newline or the end of the text, yields no
      token: the buffer from it is the buffer from where it stops. */
  lemma TokenizeComment(s: seq<char>, j: nat)
    requires Terminated(s) && j < |s| && s[j] == '#'
    ensures Tokenize(s, j) == Tokenize(s, RunEnd(s, j, InComment))
    ensures s[RunEnd(s, j, InComment)] == '\n' || s[RunEnd(s, j, InComment)] == '\0'
  {
    assert Lex(s, j) == Lex(s, RunEnd(s, j, InComment));
  }

  /** One non-EOF token, then the buffer of the text after it. */
  lemma TokenizeAfterToken(s: seq<char>, i: nat, t: Token, j: nat, tail: seq<Token>)
    requires Terminated(s) && i < |s| && Lex(s, i) == Success(Lexed(t, j)) && t.kind != TokEof
    requires j < |s| && Tokenize(s, j) == Success(tail)
    ensures Tokenize(s, i) == Success([t] + tail)
  {
  }

  /** The token buffer from `i`: `Tokenize` under a non-recursive name, so
      that the spelling proofs below hand it from lemma to lemma as a plain
      value. */
  function TokensFrom(s: seq<char>, i: nat): Result<seq<Token>>
    requires Terminated(s) && i < |s|
  {
    Tokenize(s, i)
  }

  /** A token other than EOF, then a blank, then text whose buffer is
      `tail`: the buffer is the token followed by `tail`. */
  lemma TokenizeTokenBlank(s: seq<char>, i: nat, t: Token, j: nat, tail: seq<Token>)
    requires Terminated(s) && i < |s| && Lex(s, i) == Success(Lexed(t, j)) && t.kind != TokEof
    requires j + 1 < |s| && s[j] == ' ' && TokensFrom(s, j + 1) == Success(tail)
    ensures TokensFrom(s, i) == Success([t] + tail)
  {
    TokenizeSpace(s, j);
    TokenizeAfterToken(s, i, t, j, tail);
  }

  /** At the NUL the buffer is just EOF. */
  lemma TokenizeAtNul(s: seq<char>, i: nat)
    requires Terminated(s) && i < |s| && s[i] == '\0'
    ensures TokensFrom(s, i) == Success([EofToken])
  {
    assert Lex(s, i) == Success(Lexed(EofToken, i));
  }

  /** The spelling of a non-empty sequence: its head's text, a blank, and
      the spelling of its tail. */
  lemma UnlexCons(ts: seq<Token>)
    requires |ts| > 0 && AllSpellable(ts)
    ensures Spellable(ts[0]) && AllSpellable(ts[1..])
    ensures Unlex(ts) == (Spelling(ts[0]) + " ") + Unlex(ts[1..])
  {
  }

  /** From `i`, `s` holds each token of `ts` spelled and followed by a
      blank, and then NUL. */
  predicate SpellsFrom(s: seq<char>, i: nat, ts: seq<Token>)
    decreases |ts|
  {
    if |ts| == 0 then i < |s| && s[i] == '\0'
    else
      && Spellable(ts[0])
      && SpelledAt(s, i, Spelling(ts[0]))
      && s[i + |Spelling(ts[0])|] == ' '
      && SpellsFrom(s, i + |Spelling(ts[0])| + 1, ts[1..])
  }

  /** The text `Unlex` builds, followed by NUL, is laid out as SpellsFrom
      describes. */
  lemma {:induction false} UnlexSpells(s: seq<char>, i: nat, ts: seq<Token>)
    requires AllSpellable(ts) && SpelledAt(s, i, Unlex(ts)) && s[i + |Unlex(ts)|] == '\0'
    ensures SpellsFrom(s, i, ts)
    decreases |ts|
  {
    if |ts| > 0 {
      UnlexCons(ts);
      var w, rest := Spelling(ts[0]), Unlex(ts[1..]);
      SpelledSplit(s, i, w + " ", rest);
      SpelledSplit(s, i, w, " ");
      assert s[i + |w|] == s[i + |w|..i + |w| + 1][0] == ' ';
      assert i + |w| + 1 + |rest| == i + |Unlex(ts)|;
      UnlexSpells(s, i + |w| + 1, ts[1..]);
    }
  }

  /** From `i`, the lexer reads the tokens of `ts` one by one, each
      followed by a blank, and then finds NUL. */
  predicate LexedAs(s: seq<char>, i: nat, ts: seq<Token>)
    decreases |ts|
  {
    && Terminated(s) && i < |s|
    && if |ts| == 0 then s[i] == '\0'
       else
         && Lex(s, i).Success?
         && Lex(s, i).value.token == ts[0] && ts[0].kind != TokEof
         && Lex(s, i).value.next + 1 < |s|
         && s[Lex(s, i).value.next] == ' '
         && LexedAs(s, Lex(s, i).value.next + 1, ts[1..])
  }

  /** A spelled sequence is read back token by token. */
  lemma {:induction false} SpellsLexed(s: seq<char>, i: nat, ts: seq<Token>)
    requires Terminated(s) && SpellsFrom(s, i, ts)
    ensures LexedAs(s, i, ts)
    decreases |ts|
  {
    if |ts| > 0 {
      var w := Spelling(ts[0]);
      LexSpelled(s, i, ts[0], w);
      SpellsLexed(s, i + |w| + 1, ts[1..]);
    }
  }

  /** The head of a `LexedAs` layout: where its first token ends. */
  lemma LexedAsHead(s: seq<char>, i: nat, ts: seq<Token>) returns (j: nat)
    requires LexedAs(s, i, ts) && |ts| > 0
    ensures Terminated(s) && i < |s| && Lex(s, i) == Success(Lexed(ts[0], j)) && ts[0].kind != TokEof
    ensures j + 1 < |s| && s[j] == ' ' && LexedAs(s, j + 1, ts[1..])
  {
    j := Lex(s, i).value.next;
  }

  /** Appending EOF commutes with splitting off the head. */
  lemma AppendEofCons(ts: seq<Token>)
    requires |ts| > 0
    ensures ts + [EofToken] == [ts[0]] + (ts[1..] + [EofToken])
  {
  }

  /** Tokenizing text the lexer reads as `ts` token by token yields `ts`
      and then EOF. */
  lemma {:induction false} TokenizeSpelled(s: seq<char>, i: nat, ts: seq<Token>)
    requires LexedAs(s, i, ts)
    ensures Terminated(s) && i < |s| && TokensFrom(s, i) == Success(ts + [EofToken])
    decreases |ts|
  {
    if |ts| == 0 {
      TokenizeSpelledNil(s, i, ts);
    } else {
      var j := LexedAsHead(s, i, ts);
      assert LexedAs(s, j + 1, ts[1..]);
      TokenizeSpelled(s, j + 1, ts[1..]);
      TokenizeSpelledStep(s, i, ts, j);
    }
  }

  /** One step of TokenizeSpelled: the head token, a blank, and the buffer
      of the tail followed by EOF. */
  lemma TokenizeSpelledStep(s: seq<char>, i: nat, ts: seq<Token>, j: nat)
    requires |ts| > 0 && Terminated(s) && i < |s| && Lex(s, i) == Success(Lexed(ts[0], j)) && ts[0].kind != TokEof
    requires j + 1 < |s| && s[j] == ' ' && TokensFrom(s, j + 1) == Success(ts[1..] + [EofToken])
    ensures TokensFrom(s, i) == Success(ts + [EofToken])
  {
    TokenizeTokenBlank(s, i, ts[0], j, ts[1..] + [EofToken]);
    AppendEofCons(ts);
  }

  /** The last step of TokenizeSpelled: at the NUL only EOF is left. */
  lemma TokenizeSpelledNil(s: seq<char>, i: nat, ts: seq<Token>)
    requires |ts| == 0 && Terminated(s) && i < |s| && s[i] == '\0'
    ensures TokensFrom(s, i) == Success(ts + [EofToken])
  {
    TokenizeAtNul(s, i);
    assert ts + [EofToken] == [EofToken];
  }

  /** The lexer inverts `Unlex`: the token buffer of the spelled text is
      the sequence itself followed by EOF. */
  lemma TokenizeUnlex(ts: seq<Token>)
    requires AllSpellable(ts)
    ensures Tokenize(Unlex(ts) + ['\0'], 0) == Success(ts + [EofToken])
  {
    var s := Unlex(ts) + ['\0'];
    assert s[0..|Unlex(ts)|] == Unlex(ts);
    UnlexSpells(s, 0, ts);
    SpellsLexed(s, 0, ts);
    TokenizeSpelled(s, 0, ts);
  }

  // ---------------------------------------------------------------------------
  // The cursor

  /** The tokens `n` successive calls of next() return from cursor `c`. */
  function ReadTokens(c: Cursor, n: nat): (ts: seq<Token>)
    requires Valid(c)
    ensures |ts| == n
    decreases n
  {
    if n == 0 then [] else [Next(c).0] + ReadTokens(Next(c).1, n - 1)
  }

  /** next() walks the buffer in order from the cursor, and once past its
      end keeps returning the last token. */
  lemma {:induction false} ReadTokensWalksBuffer(ts: seq<Token>, i: nat, n: nat)
    requires |ts| > 0
    ensures forall k :: 0 <= k < n ==>
      ReadTokens(Cursor(ts, i), n)[k] == if i + k < |ts| then ts[i + k] else ts[|ts| - 1]
    decreases n
  {
    if n > 0 {
      var c := Cursor(ts, i);
      var i' := if i < |ts| then i + 1 else i;
      assert Next(c).1 == Cursor(ts, i');
      ReadTokensWalksBuffer(ts, i', n - 1);
    }
  }

  /** On a buffer the constructor built, every read past the buffer is EOF. */
  lemma ReadPastEndIsEof(ts: seq<Token>, i: nat, n: nat)
    requires EofTerminated(ts)
    ensures forall k :: 0 <= k < n && i + k >= |ts| - 1 ==> ReadTokens(Cursor(ts, i), n)[k].kind == TokEof
  {
    ReadTokensWalksBuffer(ts, i, n);
  }
}

=== FILE: parser.dfy ===
/** The recursive-descent parser of parser/parser.cpp over the token buffer
    the lexer built. The cursor is an index into that buffer; since the parser
    only ever advances over tokens other than EOF, the index never runs past
    the final EOF, so `current()` is simply `toks[pos]`. Every fatal
    `error()` is a `Failure` carrying its message. */
module Parser {
  import opened Wrappers
  import opened Tokens
  import opened Ast
  import opened ParserHelper

  /** Error messages the statement parsers pass on to the parsers they call. */
  const DeclNameMsg := "Expected identifier"
  const ForInitNameMsg := "Expected identifier in for init"
  const IfBraceMsg := "Expected '{' after if condition"
  const ElseBraceMsg := "Expected '{' after 'else'"
  const WhileBraceMsg := "Expected '{' after while condition"
  const ForBraceMsg := "Expected '{' after for header"

  /** A parsed value and the cursor after it. */
  datatype Parsed<T> = Parsed(value: T, next: nat)

  /** A buffer the parser can run on: EOF last, every payload of the shape
      its kind expects (what `std::get` relies on). */
  predicate Stream(toks: seq<Token>) {
    && |toks| > 0
    && toks[|toks| - 1].kind == TokEof
    && forall k {:trigger PayloadFits(toks[k])} :: 0 <= k < |toks| ==> PayloadFits(toks[k])
  }

  /** A successful parse consumed at least one token. */
  predicate Advanced<T>(toks: seq<Token>, pos: nat, r: Result<Parsed<T>>) {
    r.Success? ==> pos < r.value.next < |toks|
  }

  /** A successful parse left the cursor where it was or further on. */
  predicate Stayed<T>(toks: seq<Token>, pos: nat, r: Result<Parsed<T>>) {
    r.Success? ==> pos <= r.value.next < |toks|
  }

  /** The token is the operator `op` (`kind == tok_operator` and its
      payload is `op`). */
  predicate IsOp(t: Token, op: Operator) {
    t.kind == TokOperator && t.value == OpVal(op)
  }

  /** `lexer.next()`: one position on, except at the final EOF, where the
      source's cursor reads the same EOF forever. */
  function Advance(toks: seq<Token>, pos: nat): (q: nat)
    requires pos < |toks|
    ensures q < |toks|
    ensures toks[pos].kind != TokEof && Stream(toks) ==> q == pos + 1
  {
    if pos + 1 < |toks| then pos + 1 else pos
  }

  /** consume(k, msg): the current token when it has kind `k`, and advance;
      otherwise fail with `msg`. */
  function Consume(toks: seq<Token>, pos: nat, k: Kind, msg: string): (r: Result<Parsed<Token>>)
    requires Stream(toks) && pos < |toks|
    ensures r.Success? <==> toks[pos].kind == k
    ensures r.Success? ==> r.value.value == toks[pos] && r.value.next < |toks|
    ensures r.Success? && k != TokEof ==> r.value.next == pos + 1
    ensures r.Failure? ==> r.error == msg
  {
    if toks[pos].kind != k then Failure(msg)
    else Success(Parsed(toks[pos], Advance(toks, pos)))
  }

  // ---------------------------------------------------------------------------
  // Expressions, loosest to tightest

  /** The binary precedence levels, loosest first: `||`, `&&`, equality,
      comparison, additive, multiplicative. */
  const MaxLevel := 5

  function LevelOps(level: nat): set<Operator>
    requires level <= MaxLevel
  {
    match level
    case 0 => {OrOr}
    case 1 => {AndAnd}
    case 2 => {EqualEqual, NotEqual}
    case 3 => {Less, Greater, LessEqual, GreaterEqual}
    case 4 => {Plus, Minus}
    case _ => {Multiply, Divide}
  }

  /** The 32-bit `int` the source narrows an int64 literal to
      (`static_cast<int>`, two's complement). */
  function NarrowToInt(v: int): (r: int)
    ensures -0x8000_0000 <= r < 0x8000_0000
    ensures (r - v) % 0x1_0000_0000 == 0
    ensures -0x8000_0000 <= v < 0x8000_0000 ==> r == v
  {
    var m := v % 0x1_0000_0000;
    if m >= 0x8000_0000 then m - 0x1_0000_0000 else m
  }

  function ParseExpression(toks: seq<Token>, pos: nat): (r: Result<Parsed<Expr>>)
    requires Stream(toks) && pos < |toks|
    ensures Advanced(toks, pos, r)
    decreases |toks| - pos, 22
  {
    ParseAssignment(toks, pos)
  }

  /** Assignment: the right-hand side is parsed first (right-associative),
      then the left side must be a bare identifier. */
  function ParseAssignment(toks: seq<Token>, pos: nat): (r: Result<Parsed<Expr>>)
    requires Stream(toks) && pos < |toks|
    ensures Advanced(toks, pos, r)
    decreases |toks| - pos, 21
  {
    var left :- ParseBinary(toks, pos, 0);
    if IsOp(toks[left.next], Equal) then
      var right :- ParseAssignment(toks, left.next + 1);
      if left.value.Identifier? then Success(Parsed(Assign(left.value.name, right.value), right.next))
      else Failure("Left side of assignment must be a variable")
    else
      Success(left)
  }

  /** One binary level: an operand, then any number of `op operand` pairs
      folded to the left. */
  function ParseBinary(toks: seq<Token>, pos: nat, level: nat): (r: Result<Parsed<Expr>>)
    requires Stream(toks) && pos < |toks| && level <= MaxLevel
    ensures Advanced(toks, pos, r)
    decreases |toks| - pos, 20 - 2 * level
  {
    var left :- ParseOperand(toks, pos, level);
    ParseBinaryRest(toks, level, left.value, left.next)
  }

  /** The operand of a binary level: the next tighter level, or a unary
      expression below the multiplicative level. */
  function ParseOperand(toks: seq<Token>, pos: nat, level: nat): (r: Result<Parsed<Expr>>)
    requires Stream(toks) && pos < |toks| && level <= MaxLevel
    ensures Advanced(toks, pos, r)
    decreases |toks| - pos, 19 - 2 * level
  {
    if level < MaxLevel then ParseBinary(toks, pos, level + 1) else ParseUnary(toks, pos)
  }

  /** The loop of a binary level, with `left` the tree built so far. */
  function ParseBinaryRest(toks: seq<Token>, level: nat, left: Expr, pos: nat): (r: Result<Parsed<Expr>>)
    requires Stream(toks) && pos < |toks| && level <= MaxLevel
    ensures Stayed(toks, pos, r)
    decreases |toks| - pos, 0
  {
    var t := toks[pos];
    assert PayloadFits(t);
    if t.kind == TokOperator && t.value.op in LevelOps(level) then
      var right :- ParseOperand(toks, pos + 1, level);
      ParseBinaryRest(toks, level, Binary(t.value.op, left, right.value), right.next)
    else
      Success(Parsed(left, pos))
  }

  /** Prefix `!` and `-`, nesting to any depth. */
  function ParseUnary(toks: seq<Token>, pos: nat): (r: Result<Parsed<Expr>>)
    requires Stream(toks) && pos < |toks|
    ensures Advanced(toks, pos, r)
    decreases |toks| - pos, 8
  {
    var t := toks[pos];
    assert PayloadFits(t);
    if t.kind == TokOperator && (t.value.op == Not || t.value.op == Minus) then
      var operand :- ParseUnary(toks, pos + 1);
      Success(Parsed(Unary(t.value.op, operand.value), operand.next))
    else
      ParsePostfix(toks, pos)
  }

  function ParsePostfix(toks: seq<Token>, pos: nat): (r: Result<Parsed<Expr>>)
    requires Stream(toks) && pos < |toks|
    ensures Advanced(toks, pos, r)
    decreases |toks| - pos, 7
  {
    var primary :- ParsePrimary(toks, pos);
    ParsePostfixRest(toks, primary.value, primary.next)
  }

  /** The call-suffix loop: each `( args )` turns an identifier into a call;
      any other callee is fatal once its arguments have been read. */
  function ParsePostfixRest(toks: seq<Token>, callee: Expr, pos: nat): (r: Result<Parsed<Expr>>)
    requires Stream(toks) && pos < |toks|
    ensures Stayed(toks, pos, r)
    decreases |toks| - pos, 0
  {
    if toks[pos].kind != TokLParen then
      Success(Parsed(callee, pos))
    else
      var args :- ParseArgs(toks, pos + 1, []);
      // consume(')') cannot fail: the argument loop stops only at ')'
      if callee.Identifier? then ParsePostfixRest(toks, Call(callee.name, args.value), args.next + 1)
      else Failure("Can only call identifiers")
  }

  /** The argument loop: expressions separated by commas up to `)`, which is
      left for the caller; a comma right before `)` is accepted. */
  function ParseArgs(toks: seq<Token>, pos: nat, acc: seq<Expr>): (r: Result<Parsed<seq<Expr>>>)
    requires Stream(toks) && pos < |toks|
    ensures Stayed(toks, pos, r)
    ensures r.Success? ==> toks[r.value.next].kind == TokRParen
    decreases |toks| - pos, 23
  {
    if toks[pos].kind == TokRParen then
      Success(Parsed(acc, pos))
    else
      var arg :- ParseExpression(toks, pos);
      var t := toks[arg.next];
      if t.kind == TokComma then ParseArgs(toks, arg.next + 1, acc + [arg.value])
      else if t.kind != TokRParen then Failure("Expected ',' or ')' in function call")
      else Success(Parsed(acc + [arg.value], arg.next))
  }

  /** Identifiers, literals and parenthesised expressions; the parentheses
      leave no node behind. */
  function ParsePrimary(toks: seq<Token>, pos: nat): (r: Result<Parsed<Expr>>)
    requires Stream(toks) && pos < |toks|
    ensures Advanced(toks, pos, r)
    decreases |toks| - pos, 6
  {
    var t := toks[pos];
    assert PayloadFits(t);
    match t.kind
    case TokIdentifier => Success(Parsed(Identifier(t.value.s), pos + 1))
    case TokIntLiteral => Success(Parsed(IntLit(NarrowToInt(t.value.i)), pos + 1))
    case TokFloatLiteral => Success(Parsed(FloatLit(t.value.whole, t.value.fraction), pos + 1))
    case TokBoolLiteral => Success(Parsed(BoolLit(t.value.b), pos + 1))
    case TokCharLiteral => Success(Parsed(CharLit(t.value.c), pos + 1))
    case TokStringLiteral => Success(Parsed(StringLit(t.value.s), pos + 1))
    case TokLParen =>
      var inner :- ParseExpression(toks, pos + 1);
      var rparen :- Consume(toks, inner.next, TokRParen, "Expected ')' after expression");
      Success(Parsed(inner.value, rparen.next))
    case _ => Failure("Unexpected token in expression")
  }

  // ---------------------------------------------------------------------------
  // Statements

  /** Statements up to the closing `}`, which is left for the caller. */
  function ParseBlock(toks: seq<Token>, pos: nat, acc: seq<Stmt>): (r: Result<Parsed<seq<Stmt>>>)
    requires Stream(toks) && pos < |toks|
    ensures Stayed(toks, pos, r)
    ensures r.Success? ==> toks[r.value.next].kind == TokRBrace
    decreases |toks| - pos, 32
  {
    if toks[pos].kind == TokRBrace then
      Success(Parsed(acc, pos))
    else
      BlockItem(toks, pos, acc)
  }

  /** One turn of the block loop: a statement, then the rest of the block. */
  function BlockItem(toks: seq<Token>, pos: nat, acc: seq<Stmt>): (r: Result<Parsed<seq<Stmt>>>)
    requires Stream(toks) && pos < |toks|
    ensures Stayed(toks, pos, r)
    ensures r.Success? ==> toks[r.value.next].kind == TokRBrace
    decreases |toks| - pos, 31
  {
    var stmt :- ParseStatement(toks, pos);
    ParseBlock(toks, stmt.next, acc + [stmt.value])
  }

  /** `{ block }`: `consume('{')` failing with `msg`, the block, and the
      closing `}`, whose `consume` cannot fail because the block loop stops
      only at `}`. */
  function ParseBraced(toks: seq<Token>, pos: nat, msg: string): (r: Result<Parsed<seq<Stmt>>>)
    requires Stream(toks) && pos < |toks|
    ensures Advanced(toks, pos, r)
    decreases |toks| - pos, 32
  {
    var lbrace :- Consume(toks, pos, TokLBrace, msg);
    var body :- ParseBlock(toks, lbrace.next, []);
    Success(Parsed(body.value, body.next + 1))
  }

  /** Statement dispatch on the first token. */
  function ParseStatement(toks: seq<Token>, pos: nat): (r: Result<Parsed<Stmt>>)
    requires Stream(toks) && pos < |toks|
    ensures Advanced(toks, pos, r)
    decreases |toks| - pos, 30
  {
    var k := toks[pos].kind;
    if k == TokIf then ParseIf(toks, pos + 1)
    else if k == TokWhile then ParseWhile(toks, pos + 1)
    else if k == TokFor then ParseFor(toks, pos + 1)
    else if k == TokReturn then ParseReturn(toks, pos + 1)
    else if IsType(k) then ParseDeclStatement(toks, pos)
    else ParseExprStatement(toks, pos)
  }

  /** After `return`: an optional value, then `;`. */
  function ParseReturn(toks: seq<Token>, pos: nat): (r: Result<Parsed<Stmt>>)
    requires Stream(toks) && pos < |toks|
    ensures Advanced(toks, pos, r)
    decreases |toks| - pos, 29
  {
    if toks[pos].kind != TokSemicolon then
      var value :- ParseExpression(toks, pos);
      var semi :- Consume(toks, value.next, TokSemicolon, "Expected ';'");
      Success(Parsed(Return(Some(value.value)), semi.next))
    else
      Success(Parsed(Return(None), pos + 1))
  }

  /** A declaration statement: the declaration and its `;`. */
  function ParseDeclStatement(toks: seq<Token>, pos: nat): (r: Result<Parsed<Stmt>>)
    requires Stream(toks) && pos < |toks| && IsType(toks[pos].kind)
    ensures Advanced(toks, pos, r)
    decreases |toks| - pos, 29
  {
    var decl :- ParseVarDecl(toks, pos, DeclNameMsg);
    var semi :- Consume(toks, decl.next, TokSemicolon, "Expected ';'");
    Success(Parsed(decl.value, semi.next))
  }

  /** An expression statement: the expression and its `;`. */
  function ParseExprStatement(toks: seq<Token>, pos: nat): (r: Result<Parsed<Stmt>>)
    requires Stream(toks) && pos < |toks|
    ensures Advanced(toks, pos, r)
    decreases |toks| - pos, 29
  {
    var expr :- ParseExpression(toks, pos);
    var semi :- Consume(toks, expr.next, TokSemicolon, "Expected ';'");
    Success(Parsed(ExprStmt(expr.value), semi.next))
  }

  /** `type name (= expr)?` without the terminator, shared by declarations
      and the for-initialiser (which differ only in the message). */
  function ParseVarDecl(toks: seq<Token>, pos: nat, msg: string): (r: Result<Parsed<Stmt>>)
    requires Stream(toks) && pos < |toks| && IsType(toks[pos].kind)
    ensures Advanced(toks, pos, r)
    ensures r.Success? ==> r.value.value.VarDecl? && r.value.value.ty == GetTypeKind(toks[pos].kind)
    decreases |toks| - pos, 24
  {
    var ty := GetTypeKind(toks[pos].kind);
    var name :- Consume(toks, pos + 1, TokIdentifier, msg);
    assert PayloadFits(toks[pos + 1]);
    if IsOp(toks[name.next], Equal) then
      var init :- ParseExpression(toks, name.next + 1);
      Success(Parsed(VarDecl(ty, name.value.value.s, Some(init.value)), init.next))
    else
      Success(Parsed(VarDecl(ty, name.value.value.s, None), name.next))
  }

  /** `if` after its keyword: `( cond ) { block }`, optionally `else { block }`.
      Each of the statement parsers below is split into a short chain of
      steps, one function per stretch of the source's straight-line code. */
  function ParseIf(toks: seq<Token>, pos: nat): (r: Result<Parsed<Stmt>>)
    requires Stream(toks) && pos < |toks|
    ensures Advanced(toks, pos, r)
    decreases |toks| - pos, 30
  {
    var lparen :- Consume(toks, pos, TokLParen, "Expected '(' after 'if'");
    var cond :- ParseExpression(toks, lparen.next);
    IfRest(toks, cond.value, cond.next)
  }

  /** The part of `if` after its condition: `) { block }` and the else part. */
  function IfRest(toks: seq<Token>, cond: Expr, pos: nat): (r: Result<Parsed<Stmt>>)
    requires Stream(toks) && pos < |toks|
    ensures Advanced(toks, pos, r)
    decreases |toks| - pos, 30
  {
    var rparen :- Consume(toks, pos, TokRParen, "Expected ')' after if condition");
    var thenBody :- ParseBraced(toks, rparen.next, IfBraceMsg);
    ElsePart(toks, cond, thenBody.value, thenBody.next)
  }

  /** After the then-block's `}`: an optional `else { block }`. */
  function ElsePart(toks: seq<Token>, cond: Expr, thenBody: seq<Stmt>, pos: nat): (r: Result<Parsed<Stmt>>)
    requires Stream(toks) && pos < |toks|
    ensures Stayed(toks, pos, r)
    decreases |toks| - pos, 30
  {
    if toks[pos].kind == TokElse then
      var elseBody :- ParseBraced(toks, pos + 1, ElseBraceMsg);
      Success(Parsed(If(cond, thenBody, Else(elseBody.value)), elseBody.next))
    else
      Success(Parsed(If(cond, thenBody, NoElse), pos))
  }

  /** `while` after its keyword: `( cond ) { block }`. */
  function ParseWhile(toks: seq<Token>, pos: nat): (r: Result<Parsed<Stmt>>)
    requires Stream(toks) && pos < |toks|
    ensures Advanced(toks, pos, r)
    decreases |toks| - pos, 30
  {
    var lparen :- Consume(toks, pos, TokLParen, "Expected '(' after 'while'");
    var cond :- ParseExpression(toks, lparen.next);
    WhileRest(toks, cond.value, cond.next)
  }

  /** The part of `while` after its condition: `) { block }`. */
  function WhileRest(toks: seq<Token>, cond: Expr, pos: nat): (r: Result<Parsed<Stmt>>)
    requires Stream(toks) && pos < |toks|
    ensures Advanced(toks, pos, r)
    decreases |toks| - pos, 30
  {
    var rparen :- Consume(toks, pos, TokRParen, "Expected ')' after while condition");
    var body :- ParseBraced(toks, rparen.next, WhileBraceMsg);
    Success(Parsed(While(cond, body.value), body.next))
  }

  /** The for-initialiser: nothing before `;`, a declaration, or an expression. */
  function ParseForInit(toks: seq<Token>, pos: nat): (r: Result<Parsed<Option<Stmt>>>)
    requires Stream(toks) && pos < |toks|
    ensures Stayed(toks, pos, r)
    decreases |toks| - pos, 25
  {
    if toks[pos].kind == TokSemicolon then
      Success(Parsed(None, pos))
    else if IsType(toks[pos].kind) then
      var decl :- ParseVarDecl(toks, pos, ForInitNameMsg);
      Success(Parsed(Some(decl.value), decl.next))
    else
      var expr :- ParseExpression(toks, pos);
      Success(Parsed(Some(ExprStmt(expr.value)), expr.next))
  }

  /** An expression unless the current token is `stop`. */
  function ParseOptionalExpr(toks: seq<Token>, pos: nat, stop: Kind): (r: Result<Parsed<Option<Expr>>>)
    requires Stream(toks) && pos < |toks|
    ensures Stayed(toks, pos, r)
    decreases |toks| - pos, 25
  {
    if toks[pos].kind == stop then
      Success(Parsed(None, pos))
    else
      var expr :- ParseExpression(toks, pos);
      Success(Parsed(Some(expr.value), expr.next))
  }

  /** `for` after its keyword: `( init ; cond ; incr ) { block }` with all
      three clauses optional. */
  function ParseFor(toks: seq<Token>, pos: nat): (r: Result<Parsed<Stmt>>)
    requires Stream(toks) && pos < |toks|
    ensures Advanced(toks, pos, r)
    decreases |toks| - pos, 30
  {
    var lparen :- Consume(toks, pos, TokLParen, "Expected '(' after 'for'");
    var init :- ParseForInit(toks, lparen.next);
    ForCondition(toks, init.value, init.next)
  }

  /** `; cond` of a for header. */
  function ForCondition(toks: seq<Token>, init: Option<Stmt>, pos: nat): (r: Result<Parsed<Stmt>>)
    requires Stream(toks) && pos < |toks|
    ensures Advanced(toks, pos, r)
    decreases |toks| - pos, 30
  {
    var semi1 :- Consume(toks, pos, TokSemicolon, "Expected ';' after for initializer");
    var cond :- ParseOptionalExpr(toks, semi1.next, TokSemicolon);
    ForIncrement(toks, init, cond.value, cond.next)
  }

  /** `; incr` of a for header. */
  function ForIncrement(toks: seq<Token>, init: Option<Stmt>, cond: Option<Expr>, pos: nat): (r: Result<Parsed<Stmt>>)
    requires Stream(toks) && pos < |toks|
    ensures Advanced(toks, pos, r)
    decreases |toks| - pos, 30
  {
    var semi2 :- Consume(toks, pos, TokSemicolon, "Expected ';' after for condition");
    var incr :- ParseOptionalExpr(toks, semi2.next, TokRParen);
    ForRest(toks, init, cond, incr.value, incr.next)
  }

  /** `) { block }` closing a for statement. */
  function ForRest(toks: seq<Token>, init: Option<Stmt>, cond: Option<Expr>, incr: Option<Expr>, pos: nat): (r: Result<Parsed<Stmt>>)
    requires Stream(toks) && pos < |toks|
    ensures Advanced(toks, pos, r)
    decreases |toks| - pos, 30
  {
    var rparen :- Consume(toks, pos, TokRParen, "Expected ')' after for clauses");
    var body :- ParseBraced(toks, rparen.next, ForBraceMsg);
    Success(Parsed(For(init, cond, incr, body.value), body.next))
  }

  // ---------------------------------------------------------------------------
  // Items

  /** The parameter loop of parseFunction and parseExtern (`what` is
      "function" or "extern" in the messages): `type name` pairs separated by
      commas up to `)`, which is left for the caller. */
  function ParseParams(toks: seq<Token>, pos: nat, what: string, acc: seq<Param>): (r: Result<Parsed<seq<Param>>>)
    requires Stream(toks) && pos < |toks|
    ensures Stayed(toks, pos, r)
    ensures r.Success? ==> toks[r.value.next].kind == TokRParen
    decreases |toks| - pos
  {
    var t := toks[pos];
    if t.kind == TokRParen then
      Success(Parsed(acc, pos))
    else if IsType(t.kind) then
      var name := toks[pos + 1];
      if name.kind != TokIdentifier then
        Failure("Expected identifier after type in " + what + " parameter")
      else
        assert PayloadFits(name);
        var params := acc + [Param(GetTypeKind(t.kind), name.value.s)];
        var after := toks[pos + 2];
        if after.kind == TokComma then
          assert pos + 2 != |toks| - 1;
          ParseParams(toks, pos + 3, what, params)
        else if after.kind != TokRParen then Failure("Expected ',' or ')' after parameter")
        else Success(Parsed(params, pos + 2))
    else
      Failure("Expected type in " + what + " parameter")
  }

  /** The optional `-> type` of a definition; VOID when absent. */
  function ParseReturnType(toks: seq<Token>, pos: nat): (r: Result<Parsed<TypeKind>>)
    requires Stream(toks) && pos < |toks|
    ensures Stayed(toks, pos, r)
    ensures toks[pos].kind != TokArrow ==> r == Success(Parsed(VOID, pos))
    ensures toks[pos].kind == TokArrow ==>
      && (r.Success? <==> IsType(toks[pos + 1].kind))
      && (r.Success? ==> r.value == Parsed(GetTypeKind(toks[pos + 1].kind), pos + 2))
      && (r.Failure? ==> r.error == "Expected type after '->' in function return type")
  {
    if toks[pos].kind == TokArrow then
      if !IsType(toks[pos + 1].kind) then Failure("Expected type after '->' in function return type")
      else Success(Parsed(GetTypeKind(toks[pos + 1].kind), pos + 2))
    else
      Success(Parsed(VOID, pos))
  }

  /** `def` after its keyword. */
  function ParseFunction(toks: seq<Token>, pos: nat): (r: Result<Parsed<FunctionDef>>)
    requires Stream(toks) && pos < |toks|
    ensures Advanced(toks, pos, r)
  {
    var name :- Consume(toks, pos, TokIdentifier, "Expected identifier after def");
    assert PayloadFits(toks[pos]);
    var lparen :- Consume(toks, name.next, TokLParen, "Expected '(' after function name");
    var sig :- FunctionSignature(toks, lparen.next);
    FunctionRest(toks, name.value.value.s, sig.value.0, sig.value.1, sig.next)
  }

  /** The parameters, `)` and the optional return type of a definition. */
  function FunctionSignature(toks: seq<Token>, pos: nat): (r: Result<Parsed<(seq<Param>, TypeKind)>>)
    requires Stream(toks) && pos < |toks|
    ensures Advanced(toks, pos, r)
  {
    var params :- ParseParams(toks, pos, "function", []);
    // consume(')') cannot fail: the parameter loop stops only at ')'
    var ret :- ParseReturnType(toks, params.next + 1);
    Success(Parsed((params.value, ret.value), ret.next))
  }

  /** `{ block }` closing a definition. */
  function FunctionRest(toks: seq<Token>, name: string, params: seq<Param>, ret: TypeKind, pos: nat): (r: Result<Parsed<FunctionDef>>)
    requires Stream(toks) && pos < |toks|
    ensures Advanced(toks, pos, r)
    decreases |toks| - pos, 30
  {
    var body :- ParseBraced(toks, pos, "Expected '{' after function parameters");
    Success(Parsed(FunctionDef(name, params, body.value, ret), body.next))
  }

  /** `extern` after its keyword: an optional leading return type (VOID when
      absent), the name, the parameters and `;`. */
  function ParseExtern(toks: seq<Token>, pos: nat): (r: Result<Parsed<ExternDecl>>)
    requires Stream(toks) && pos < |toks|
    ensures Advanced(toks, pos, r)
  {
    if IsType(toks[pos].kind) then ParseExternSignature(toks, pos + 1, GetTypeKind(toks[pos].kind))
    else ParseExternSignature(toks, pos, VOID)
  }

  /** The rest of an extern after its optional return type. */
  function ParseExternSignature(toks: seq<Token>, pos: nat, returnType: TypeKind): (r: Result<Parsed<ExternDecl>>)
    requires Stream(toks) && pos < |toks|
    ensures Advanced(toks, pos, r)
  {
    var name :- Consume(toks, pos, TokIdentifier, "Expected identifier after extern");
    assert PayloadFits(toks[pos]);
    var lparen :- Consume(toks, name.next, TokLParen, "Expected '(' after extern identifier");
    ExternParams(toks, name.value.value.s, lparen.next, returnType)
  }

  /** The parameters, `)` and `;` of an extern. */
  function ExternParams(toks: seq<Token>, name: string, pos: nat, returnType: TypeKind): (r: Result<Parsed<ExternDecl>>)
    requires Stream(toks) && pos < |toks|
    ensures Advanced(toks, pos, r)
  {
    var params :- ParseParams(toks, pos, "extern", []);
    // consume(')') cannot fail: the parameter loop stops only at ')'
    var semi :- Consume(toks, params.next + 1, TokSemicolon, "Expected ';' after extern declaration");
    Success(Parsed(ExternDecl(name, params.value, returnType), semi.next))
  }

  /** parseItem: `def`, `extern`, or any statement. */
  function ParseItem(toks: seq<Token>, pos: nat): (r: Result<Parsed<Item>>)
    requires Stream(toks) && pos < |toks|
    ensures Advanced(toks, pos, r)
  {
    var k := toks[pos].kind;
    if k == TokDef then
      var def :- ParseFunction(toks, pos + 1);
      Success(Parsed(FunctionItem(def.value), def.next))
    else if k == TokExtern then
      var ext :- ParseExtern(toks, pos + 1);
      Success(Parsed(ExternItem(ext.value), ext.next))
    else
      var stmt :- ParseStatement(toks, pos);
      Success(Parsed(StmtItem(stmt.value), stmt.next))
  }

  /** parseProgram from cursor `pos`: items until EOF. */
  function ParseItems(toks: seq<Token>, pos: nat, acc: Program): (r: Result<Program>)
    requires Stream(toks) && pos < |toks|
    ensures toks[pos].kind == TokEof ==> r == Success(acc)
    ensures r.Success? ==> acc <= r.value && |r.value| + pos < |acc| + |toks|
    decreases |toks| - pos
  {
    if toks[pos].kind == TokEof then
      Success(acc)
    else
      var item :- ParseItem(toks, pos);
      ParseItems(toks, item.next, acc + [item.value])
  }

  function ParseProgram(toks: seq<Token>): (r: Result<Program>)
    requires Stream(toks)
    ensures toks[0].kind == TokEof ==> r == Success([])
    ensures r.Success? ==> |r.value| < |toks|
    ensures toks[0].kind != TokEof && r.Success? ==>
      ParseItem(toks, 0).Success? && |r.value| > 0 && r.value[0] == ParseItem(toks, 0).value.value
    ensures toks[0].kind != TokEof && ParseItem(toks, 0).Failure? ==> r == Failure(ParseItem(toks, 0).error)
  {
    ParseItems(toks, 0, [])
  }
}

=== FILE: parser_helper.dfy ===
/** The token classifications of parser/parser_helper.h. */
module ParserHelper {
  import opened Wrappers
  import opened Tokens
  import Lexer

  /** isOperator: the four arithmetic operators, those the lexer spells
      `+`, `-`, `*` and `/`. */
  predicate IsOperator(op: Operator)
    ensures IsOperator(op) <==> Lexer.OpToString(op) in {"+", "-", "*", "/"}
  {
    op == Plus || op == Minus || op == Multiply || op == Divide
  }

  /** isType: the five type keywords, the kinds spelled by the five type
      names. */
  predicate IsType(k: Kind)
    ensures IsType(k) <==> Lexer.Lexeme(Token(k, NoValue)) in {Some("int"), Some("float"), Some("bool"), Some("char"), Some("string")}
  {
    k == TokInt || k == TokFloat || k == TokBool || k == TokChar || k == TokString
  }

  /** getTypeKind: the type a type keyword names; VOID for every other kind. */
  function GetTypeKind(k: Kind): (t: TypeKind)
    ensures t != VOID <==> IsType(k)
  {
    if k == TokInt then INT
    else if k == TokFloat then FLOAT
    else if k == TokBool then BOOL
    else if k == TokChar then CHAR
    else if k == TokString then STRING
    else VOID
  }

  /** isLiteral: the literal kinds with a scalar payload; the string literal
      is not among them. These are exactly the kinds whose payload is
      neither absent, nor text, nor an operator. */
  predicate IsLiteral(k: Kind)
    ensures IsLiteral(k) <==>
      !PayloadFits(Token(k, NoValue)) && !PayloadFits(Token(k, StrVal(""))) && !PayloadFits(Token(k, OpVal(Arrow)))
  {
    k == TokIntLiteral || k == TokFloatLiteral || k == TokBoolLiteral || k == TokCharLiteral
  }

  /** type_to_string: the name of each type. A non-VOID name is the reserved
      word that lexes to the keyword of that very type; "void" is not
      reserved and lexes as an identifier. */
  function TypeToString(t: TypeKind): (r: string)
    ensures t != VOID ==>
      && Lexer.KeywordToken(r).Some?
      && IsType(Lexer.KeywordToken(r).value.kind)
    ensures t == VOID ==> !Lexer.IsReserved(r)
  {
    match t
    case INT => "int"
    case FLOAT => "float"
    case BOOL => "bool"
    case CHAR => "char"
    case VOID => "void"
    case STRING => "string"
  }

  /** type_to_string and getTypeKind agree on the type keywords: the name of
      the type a keyword denotes is that keyword's own text, and lexing a
      type's name gives back a keyword denoting that type. */
  lemma TypeNamesRoundTrip()
    ensures forall k :: IsType(k) ==>
      Lexer.Lexeme(Token(k, NoValue)) == Some(TypeToString(GetTypeKind(k)))
    ensures forall t :: t != VOID ==>
      GetTypeKind(Lexer.KeywordToken(TypeToString(t)).value.kind) == t
  {
    forall t | t != VOID
      ensures GetTypeKind(Lexer.KeywordToken(TypeToString(t)).value.kind) == t
    {
      var tok := Lexer.KeywordToken(TypeToString(t)).value;
      assert Lexer.Lexeme(Token(tok.kind, NoValue)) == Lexer.Lexeme(tok);
      TypeToStringInjective();
    }
  }

  /** The six names are pairwise distinct. */
  lemma TypeToStringInjective()
    ensures forall a, b :: TypeToString(a) == TypeToString(b) ==> a == b
  {
  }
}

=== FILE: parser_properties.dfy ===
/** The parser's inverse: a printer that writes an expression tree back as a
    fully parenthesised token sequence, and the proof that parsing the printed
    tokens rebuilds the tree. Every compound node other than a call is
    wrapped in its own parentheses, so precedence and associativity never
    decide the shape of the result; they are pinned down separately by the
    grouping lemmas at the end, next to the parser's expression errors. */
module ParserProperties {
  import opened Wrappers
  import opened Tokens
  import opened Ast
  import opened ParserHelper
  import opened Parser

  function Punct(k: Kind): Token {
    Token(k, NoValue)
  }

  function OpTok(op: Operator): Token {
    Token(TokOperator, OpVal(op))
  }

  function IdentTok(name: string): Token {
    Token(TokIdentifier, StrVal(name))
  }

  /** The binary level an operator belongs to, or -1 for operators no
      binary level accepts. */
  function BinaryLevel(op: Operator): (l: int)
    ensures -1 <= l <= MaxLevel
    ensures forall level :: 0 <= level <= MaxLevel ==> (op in LevelOps(level) <==> l == level)
  {
    match op
    case OrOr => 0
    case AndAnd => 1
    case EqualEqual => 2
    case NotEqual => 2
    case Less => 3
    case Greater => 3
    case LessEqual => 3
    case GreaterEqual => 3
    case Plus => 4
    case Minus => 4
    case Multiply => 5
    case Divide => 5
    case _ => -1
  }

  // ---------------------------------------------------------------------------
  // The printer

  /** Trees the printer can write so that the parser reads them back: unary
      nodes use a prefix operator the parser knows, binary nodes an operator
      of some level, and integer literals already fit the 32-bit `int` the
      parser narrows to. */
  predicate Printable(e: Expr)
    decreases e, 1
  {
    match e
    case IntLit(i) => -0x8000_0000 <= i < 0x8000_0000
    case Unary(op, x) => (op == Not || op == Minus) && Printable(x)
    case Binary(op, l, r) => BinaryLevel(op) >= 0 && Printable(l) && Printable(r)
    case Call(_, args) => AllPrintable(args)
    case Assign(_, v) => Printable(v)
    case _ => true
  }

  predicate AllPrintable(args: seq<Expr>)
    decreases args, 0
  {
    |args| == 0 || (Printable(args[0]) && AllPrintable(args[1..]))
  }

  /** Nodes the printer wraps in parentheses. */
  predicate Compound(e: Expr) {
    e.Unary? || e.Binary? || e.Assign?
  }

  function Print(e: Expr): seq<Token>
    decreases e, 2
  {
    match e
    case Identifier(n) => [IdentTok(n)]
    case IntLit(i) => [Token(TokIntLiteral, IntVal(i))]
    case FloatLit(w, f) => [Token(TokFloatLiteral, FloatVal(w, f))]
    case BoolLit(b) => [Token(TokBoolLiteral, BoolVal(b))]
    case CharLit(c) => [Token(TokCharLiteral, CharVal(c))]
    case StringLit(s) => [Token(TokStringLiteral, StrVal(s))]
    case Call(f, args) => [IdentTok(f), Punct(TokLParen)] + PrintArgs(args) + [Punct(TokRParen)]
    case Unary(_, _) => [Punct(TokLParen)] + Content(e) + [Punct(TokRParen)]
    case Binary(_, _, _) => [Punct(TokLParen)] + Content(e) + [Punct(TokRParen)]
    case Assign(_, _) => [Punct(TokLParen)] + Content(e) + [Punct(TokRParen)]
  }

  /** What goes between the parentheses of a compound node. */
  function Content(e: Expr): seq<Token>
    requires Compound(e)
    decreases e, 1
  {
    match e
    case Unary(op, x) => [OpTok(op)] + Print(x)
    case Binary(op, l, r) => Print(l) + [OpTok(op)] + Print(r)
    case Assign(n, v) => [IdentTok(n), OpTok(Equal)] + Print(v)
  }

  /** Arguments separated by commas, without a trailing comma. */
  function PrintArgs(args: seq<Expr>): seq<Token>
    decreases args, 0
  {
    if |args| == 0 then []
    else if |args| == 1 then Print(args[0])
    else Print(args[0]) + [Punct(TokComma)] + PrintArgs(args[1..])
  }

  // ---------------------------------------------------------------------------
  // Token positions

  /** The token `i` places after `pos`. The quantifier of PrintedAt is
      triggered by this term alone, so it is instantiated where a proof names
      a position and nowhere else. */
  function At(toks: seq<Token>, pos: nat, i: nat): Token
    requires pos + i < |toks|
  {
    toks[pos + i]
  }

  /** `ts` occurs in `toks` at `pos`, and some token follows it. */
  ghost predicate PrintedAt(toks: seq<Token>, pos: nat, ts: seq<Token>) {
    pos + |ts| < |toks| && forall i {:trigger At(toks, pos, i)} :: 0 <= i < |ts| ==> At(toks, pos, i) == ts[i]
  }

  lemma PrintedSplit(toks: seq<Token>, pos: nat, a: seq<Token>, b: seq<Token>)
    requires PrintedAt(toks, pos, a + b)
    ensures PrintedAt(toks, pos, a) && PrintedAt(toks, pos + |a|, b)
  {
    forall i | 0 <= i < |a| ensures At(toks, pos, i) == a[i] {
      assert (a + b)[i] == a[i];
    }
    forall i | 0 <= i < |b| ensures At(toks, pos + |a|, i) == b[i] {
      assert At(toks, pos + |a|, i) == At(toks, pos, |a| + i);
      assert (a + b)[|a| + i] == b[i];
    }
  }

  lemma PrintedToken(toks: seq<Token>, pos: nat, t: Token)
    requires PrintedAt(toks, pos, [t])
    ensures toks[pos] == t
  {
    assert At(toks, pos, 0) == [t][0];
  }

  lemma PrintedIndex(toks: seq<Token>, pos: nat, ts: seq<Token>, i: nat)
    requires PrintedAt(toks, pos, ts) && i < |ts|
    ensures toks[pos + i] == ts[i]
  {
    assert At(toks, pos, i) == ts[i];
  }

  lemma PrintedAround(toks: seq<Token>, pos: nat, a: seq<Token>, t: Token, b: seq<Token>)
    requires PrintedAt(toks, pos, a + [t] + b)
    ensures PrintedAt(toks, pos, a) && toks[pos + |a|] == t && PrintedAt(toks, pos + |a| + 1, b)
  {
    PrintedSplit(toks, pos, a + [t], b);
    PrintedSplit(toks, pos, a, [t]);
    PrintedToken(toks, pos + |a|, t);
  }

  /** The parts of a call's tokens: name, `(`, arguments, `)`. */
  lemma PrintedCall(toks: seq<Token>, pos: nat, f: string, args: seq<Expr>)
    requires PrintedAt(toks, pos, Print(Call(f, args)))
    ensures toks[pos] == IdentTok(f) && toks[pos + 1] == Punct(TokLParen)
    ensures PrintedAt(toks, pos + 2, PrintArgs(args))
    ensures toks[pos + 2 + |PrintArgs(args)|] == Punct(TokRParen)
  {
    var a := [IdentTok(f), Punct(TokLParen)];
    PrintedSplit(toks, pos, a + PrintArgs(args), [Punct(TokRParen)]);
    PrintedSplit(toks, pos, a, PrintArgs(args));
    PrintedIndex(toks, pos, a, 0);
    PrintedIndex(toks, pos, a, 1);
    PrintedToken(toks, pos + 2 + |PrintArgs(args)|, Punct(TokRParen));
  }

  /** The parts of a compound node's tokens: `(`, content, `)`. */
  lemma PrintedWrapped(toks: seq<Token>, pos: nat, e: Expr)
    requires Compound(e) && PrintedAt(toks, pos, Print(e))
    ensures toks[pos] == Punct(TokLParen)
    ensures PrintedAt(toks, pos + 1, Content(e))
    ensures toks[pos + 1 + |Content(e)|] == Punct(TokRParen)
    ensures |Print(e)| == |Content(e)| + 2
  {
    var a := [Punct(TokLParen)];
    assert Print(e) == a + Content(e) + [Punct(TokRParen)];
    PrintedSplit(toks, pos, a + Content(e), [Punct(TokRParen)]);
    PrintedSplit(toks, pos, a, Content(e));
    PrintedToken(toks, pos, Punct(TokLParen));
    PrintedToken(toks, pos + 1 + |Content(e)|, Punct(TokRParen));
  }

  /** The kinds a printed expression can start with. */
  predicate ExprStart(k: Kind) {
    || k == TokIdentifier || k == TokLParen || k == TokIntLiteral || k == TokFloatLiteral
    || k == TokBoolLiteral || k == TokCharLiteral || k == TokStringLiteral
  }

  /** A printed expression starts with a name, a literal or `(`. */
  lemma PrintStart(e: Expr)
    ensures |Print(e)| > 0 && ExprStart(Print(e)[0].kind)
  {
  }

  // ---------------------------------------------------------------------------
  // Lifting through the precedence levels

  /** The token ends an operand of binary level `k`: it opens no call and is
      no binary operator of level `k` or tighter. */
  predicate EndsLevel(t: Token, k: int) {
    t.kind != TokLParen && !(t.kind == TokOperator && t.value.OpVal? && BinaryLevel(t.value.op) >= k)
  }

  /** The token ends a whole expression: it also is not `=`. */
  predicate EndsExpr(t: Token) {
    EndsLevel(t, 0) && !IsOp(t, Equal)
  }

  /** A binary loop facing a token it does not accept returns its left side. */
  lemma RestStops(toks: seq<Token>, level: nat, left: Expr, pos: nat)
    requires Stream(toks) && pos < |toks| && level <= MaxLevel
    requires EndsLevel(toks[pos], level)
    ensures ParseBinaryRest(toks, level, left, pos) == Success(Parsed(left, pos))
  {
    assert PayloadFits(toks[pos]);
  }

  /** What a tighter binary level parsed, a looser one returns unchanged
      when the token after it belongs to neither. */
  lemma {:induction false} LiftBinary(toks: seq<Token>, pos: nat, e: Expr, end: nat, from: nat, k: nat)
    requires Stream(toks) && pos < |toks| && k <= from <= MaxLevel
    requires ParseBinary(toks, pos, from) == Success(Parsed(e, end))
    requires EndsLevel(toks[end], k)
    ensures ParseBinary(toks, pos, k) == Success(Parsed(e, end))
    decreases from - k
  {
    if k < from {
      LiftBinary(toks, pos, e, end, from, k + 1);
      RestStops(toks, k, e, end);
    }
  }

  /** A unary expression is the operand of every binary level it ends. */
  lemma LiftOperand(toks: seq<Token>, pos: nat, e: Expr, end: nat, level: nat)
    requires Stream(toks) && pos < |toks| && level <= MaxLevel
    requires ParseUnary(toks, pos) == Success(Parsed(e, end))
    requires EndsLevel(toks[end], level + 1)
    ensures ParseOperand(toks, pos, level) == Success(Parsed(e, end))
  {
    if level < MaxLevel {
      RestStops(toks, MaxLevel, e, end);
      assert ParseBinary(toks, pos, MaxLevel) == Success(Parsed(e, end));
      LiftBinary(toks, pos, e, end, MaxLevel, level + 1);
    }
  }

  /** A unary expression followed by a token that ends expressions is a
      whole expression. */
  lemma LiftExpression(toks: seq<Token>, pos: nat, e: Expr, end: nat)
    requires Stream(toks) && pos < |toks|
    requires ParseUnary(toks, pos) == Success(Parsed(e, end))
    requires EndsExpr(toks[end])
    ensures ParseExpression(toks, pos) == Success(Parsed(e, end))
  {
    LiftOperand(toks, pos, e, end, 0);
    RestStops(toks, 0, e, end);
    assert ParseBinary(toks, pos, 0) == Success(Parsed(e, end));
    assert ParseAssignment(toks, pos) == Success(Parsed(e, end));
  }

  /** A primary that is not followed by `(` is a whole unary expression. */
  lemma LiftPrimary(toks: seq<Token>, pos: nat, e: Expr, end: nat)
    requires Stream(toks) && pos < |toks| && toks[pos].kind != TokOperator
    requires ParsePrimary(toks, pos) == Success(Parsed(e, end))
    requires toks[end].kind != TokLParen
    ensures ParseUnary(toks, pos) == Success(Parsed(e, end))
  {
    assert ParsePostfixRest(toks, e, end) == Success(Parsed(e, end));
    assert ParsePostfix(toks, pos) == Success(Parsed(e, end));
  }

  /** `( inner )` not followed by `(` is a whole unary expression. */
  lemma ParenthesisedUnary(toks: seq<Token>, pos: nat, e: Expr, close: nat)
    requires Stream(toks) && pos + 1 < |toks| && toks[pos] == Punct(TokLParen)
    requires ParseExpression(toks, pos + 1) == Success(Parsed(e, close))
    requires toks[close] == Punct(TokRParen) && toks[close + 1].kind != TokLParen
    ensures ParseUnary(toks, pos) == Success(Parsed(e, close + 1))
  {
    assert ParsePrimary(toks, pos) == Success(Parsed(e, close + 1));
    LiftPrimary(toks, pos, e, close + 1);
  }

  /** `f ( args )` not followed by `(` is a whole unary expression. */
  lemma CallUnary(toks: seq<Token>, pos: nat, f: string, args: seq<Expr>, close: nat)
    requires Stream(toks) && pos + 2 < |toks|
    requires toks[pos] == IdentTok(f) && toks[pos + 1] == Punct(TokLParen)
    requires ParseArgs(toks, pos + 2, []) == Success(Parsed(args, close))
    requires toks[close + 1].kind != TokLParen
    ensures ParseUnary(toks, pos) == Success(Parsed(Call(f, args), close + 1))
  {
    assert ParsePrimary(toks, pos) == Success(Parsed(Identifier(f), pos + 1));
    assert ParsePostfixRest(toks, Call(f, args), close + 1) == Success(Parsed(Call(f, args), close + 1));
    assert ParsePostfixRest(toks, Identifier(f), pos + 1) == Success(Parsed(Call(f, args), close + 1));
    assert ParsePostfix(toks, pos) == Success(Parsed(Call(f, args), close + 1));
  }

  /** A literal or identifier token not followed by `(` is a whole unary
      expression. */
  lemma AtomUnary(toks: seq<Token>, pos: nat, e: Expr)
    requires Stream(toks) && Printable(e) && !Compound(e) && !e.Call?
    requires PrintedAt(toks, pos, Print(e)) && toks[pos + 1].kind != TokLParen
    ensures |Print(e)| == 1
    ensures ParseUnary(toks, pos) == Success(Parsed(e, pos + 1))
  {
    PrintedToken(toks, pos, Print(e)[0]);
    assert ParsePrimary(toks, pos) == Success(Parsed(e, pos + 1));
    LiftPrimary(toks, pos, e, pos + 1);
  }

  /** `op x` closed by `)`, for a prefix operator, is a whole expression. */
  lemma PrefixExpression(toks: seq<Token>, q: nat, op: Operator, x: Expr, end: nat)
    requires Stream(toks) && q + 1 < |toks| && (op == Not || op == Minus)
    requires toks[q] == OpTok(op) && ParseUnary(toks, q + 1) == Success(Parsed(x, end))
    requires toks[end] == Punct(TokRParen)
    ensures ParseExpression(toks, q) == Success(Parsed(Unary(op, x), end))
  {
    assert ParseUnary(toks, q) == Success(Parsed(Unary(op, x), end));
    LiftExpression(toks, q, Unary(op, x), end);
  }

  /** `n = v` closed by `)` is a whole expression. */
  lemma AssignExpression(toks: seq<Token>, q: nat, n: string, v: Expr, end: nat)
    requires Stream(toks) && q + 2 < |toks|
    requires toks[q] == IdentTok(n) && toks[q + 1] == OpTok(Equal)
    requires ParseExpression(toks, q + 2) == Success(Parsed(v, end))
    ensures ParseExpression(toks, q) == Success(Parsed(Assign(n, v), end))
  {
    assert ParsePrimary(toks, q) == Success(Parsed(Identifier(n), q + 1));
    LiftPrimary(toks, q, Identifier(n), q + 1);
    LiftOperand(toks, q, Identifier(n), q + 1, 0);
    RestStops(toks, 0, Identifier(n), q + 1);
    assert ParseBinary(toks, q, 0) == Success(Parsed(Identifier(n), q + 1));
    assert ParseAssignment(toks, q + 2) == Success(Parsed(v, end));
  }

  /** `l op r` closed by `)` is, at the level of `op`, the binary node. */
  lemma BinaryAtLevel(toks: seq<Token>, q: nat, op: Operator, l: Expr, mid: nat, r: Expr, end: nat)
    requires Stream(toks) && q < mid && mid + 1 < |toks| && BinaryLevel(op) >= 0
    requires ParseUnary(toks, q) == Success(Parsed(l, mid)) && toks[mid] == OpTok(op)
    requires ParseUnary(toks, mid + 1) == Success(Parsed(r, end)) && toks[end] == Punct(TokRParen)
    ensures ParseBinary(toks, q, BinaryLevel(op)) == Success(Parsed(Binary(op, l, r), end))
  {
    var level := BinaryLevel(op);
    LiftOperand(toks, q, l, mid, level);
    LiftOperand(toks, mid + 1, r, end, level);
    RestStops(toks, level, Binary(op, l, r), end);
    assert ParseBinaryRest(toks, level, l, mid) == Success(Parsed(Binary(op, l, r), end));
  }

  lemma BinaryExpression(toks: seq<Token>, q: nat, op: Operator, l: Expr, mid: nat, r: Expr, end: nat)
    requires Stream(toks) && q < mid && mid + 1 < |toks| && BinaryLevel(op) >= 0
    requires ParseUnary(toks, q) == Success(Parsed(l, mid)) && toks[mid] == OpTok(op)
    requires ParseUnary(toks, mid + 1) == Success(Parsed(r, end)) && toks[end] == Punct(TokRParen)
    ensures ParseExpression(toks, q) == Success(Parsed(Binary(op, l, r), end))
  {
    BinaryAtLevel(toks, q, op, l, mid, r, end);
    ClosedExpression(toks, q, Binary(op, l, r), end, BinaryLevel(op));
  }

  /** What a binary level parsed up to `)` is a whole expression. */
  lemma ClosedExpression(toks: seq<Token>, q: nat, e: Expr, end: nat, level: nat)
    requires Stream(toks) && q < |toks| && level <= MaxLevel
    requires ParseBinary(toks, q, level) == Success(Parsed(e, end)) && toks[end] == Punct(TokRParen)
    ensures ParseExpression(toks, q) == Success(Parsed(e, end))
  {
    LiftBinary(toks, q, e, end, level, 0);
    assert ParseAssignment(toks, q) == Success(Parsed(e, end));
  }

  // ---------------------------------------------------------------------------
  // The round trip

  /** Printed tokens parse back, at the unary level, to the tree that was
      printed, whatever follows them except `(`. */
  lemma {:induction false} UnaryOnPrinted(toks: seq<Token>, pos: nat, e: Expr)
    requires Stream(toks) && Printable(e) && PrintedAt(toks, pos, Print(e))
    requires toks[pos + |Print(e)|].kind != TokLParen
    ensures ParseUnary(toks, pos) == Success(Parsed(e, pos + |Print(e)|))
    decreases e, 3
  {
    if Compound(e) {
      WrappedOnPrinted(toks, pos, e);
    } else if e.Call? {
      CallOnPrinted(toks, pos, e.callee, e.args);
    } else {
      AtomUnary(toks, pos, e);
    }
  }

  lemma {:induction false} WrappedOnPrinted(toks: seq<Token>, pos: nat, e: Expr)
    requires Stream(toks) && Compound(e) && Printable(e) && PrintedAt(toks, pos, Print(e))
    requires toks[pos + |Print(e)|].kind != TokLParen
    ensures ParseUnary(toks, pos) == Success(Parsed(e, pos + |Print(e)|))
    decreases e, 2
  {
    PrintedWrapped(toks, pos, e);
    InnerOnPrinted(toks, pos + 1, e);
    ParenthesisedUnary(toks, pos, e, pos + 1 + |Content(e)|);
  }

  lemma {:induction false} CallOnPrinted(toks: seq<Token>, pos: nat, f: string, args: seq<Expr>)
    requires Stream(toks) && Printable(Call(f, args)) && PrintedAt(toks, pos, Print(Call(f, args)))
    requires toks[pos + |Print(Call(f, args))|].kind != TokLParen
    ensures ParseUnary(toks, pos) == Success(Parsed(Call(f, args), pos + |Print(Call(f, args))|))
    decreases Call(f, args), 2
  {
    PrintedCall(toks, pos, f, args);
    ArgsOnPrinted(toks, pos + 2, args, [], pos + 2 + |PrintArgs(args)|);
    assert [] + args == args;
    CallUnary(toks, pos, f, args, pos + 2 + |PrintArgs(args)|);
  }

  /** The content of a compound node, closed by `)`, parses back to the
      node as a whole expression. */
  lemma {:induction false} InnerOnPrinted(toks: seq<Token>, q: nat, e: Expr)
    requires Stream(toks) && Compound(e) && Printable(e) && PrintedAt(toks, q, Content(e))
    requires toks[q + |Content(e)|] == Punct(TokRParen)
    ensures ParseExpression(toks, q) == Success(Parsed(e, q + |Content(e)|))
    decreases e, 1
  {
    match e
    case Unary(op, x) => InnerUnary(toks, q, op, x);
    case Binary(op, l, r) => InnerBinary(toks, q, op, l, r);
    case Assign(n, v) => InnerAssign(toks, q, n, v);
  }

  lemma {:induction false} InnerUnary(toks: seq<Token>, q: nat, op: Operator, x: Expr)
    requires Stream(toks) && Printable(Unary(op, x)) && PrintedAt(toks, q, [OpTok(op)] + Print(x))
    requires toks[q + 1 + |Print(x)|] == Punct(TokRParen)
    ensures ParseExpression(toks, q) == Success(Parsed(Unary(op, x), q + 1 + |Print(x)|))
    decreases Unary(op, x), 0
  {
    PrintedSplit(toks, q, [OpTok(op)], Print(x));
    PrintedToken(toks, q, OpTok(op));
    UnaryOnPrinted(toks, q + 1, x);
    PrefixExpression(toks, q, op, x, q + 1 + |Print(x)|);
  }

  lemma {:induction false} InnerBinary(toks: seq<Token>, q: nat, op: Operator, l: Expr, r: Expr)
    requires Stream(toks) && Printable(Binary(op, l, r))
    requires PrintedAt(toks, q, Print(l) + [OpTok(op)] + Print(r))
    requires toks[q + |Print(l)| + 1 + |Print(r)|] == Punct(TokRParen)
    ensures ParseExpression(toks, q) == Success(Parsed(Binary(op, l, r), q + |Print(l)| + 1 + |Print(r)|))
    decreases Binary(op, l, r), 0
  {
    PrintedAround(toks, q, Print(l), OpTok(op), Print(r));
    var mid := q + |Print(l)|;
    var end := mid + 1 + |Print(r)|;
    assert Printable(l) && Printable(r);
    assert toks[mid].kind != TokLParen && toks[end].kind != TokLParen;
    UnaryOnPrinted(toks, q, l);
    UnaryOnPrinted(toks, mid + 1, r);
    BinaryExpression(toks, q, op, l, mid, r, end);
  }

  lemma {:induction false} InnerAssign(toks: seq<Token>, q: nat, n: string, v: Expr)
    requires Stream(toks) && Printable(Assign(n, v))
    requires PrintedAt(toks, q, [IdentTok(n), OpTok(Equal)] + Print(v))
    requires toks[q + 2 + |Print(v)|] == Punct(TokRParen)
    ensures ParseExpression(toks, q) == Success(Parsed(Assign(n, v), q + 2 + |Print(v)|))
    decreases Assign(n, v), 0
  {
    PrintedSplit(toks, q, [IdentTok(n), OpTok(Equal)], Print(v));
    PrintedIndex(toks, q, [IdentTok(n), OpTok(Equal)], 0);
    PrintedIndex(toks, q, [IdentTok(n), OpTok(Equal)], 1);
    ExprOnPrinted(toks, q + 2, v);
    AssignExpression(toks, q, n, v, q + 2 + |Print(v)|);
  }

  /** A printed expression followed by a token that ends expressions parses
      back to itself. */
  lemma {:induction false} ExprOnPrinted(toks: seq<Token>, pos: nat, e: Expr)
    requires Stream(toks) && Printable(e) && PrintedAt(toks, pos, Print(e))
    requires EndsExpr(toks[pos + |Print(e)|])
    ensures ParseExpression(toks, pos) == Success(Parsed(e, pos + |Print(e)|))
    decreases e, 4
  {
    UnaryOnPrinted(toks, pos, e);
    LiftExpression(toks, pos, e, pos + |Print(e)|);
  }

  /** Printed arguments closed by `)` parse back to the argument list. */
  lemma {:induction false} ArgsOnPrinted(toks: seq<Token>, pos: nat, args: seq<Expr>, acc: seq<Expr>, end: nat)
    requires Stream(toks) && AllPrintable(args) && PrintedAt(toks, pos, PrintArgs(args))
    requires end == pos + |PrintArgs(args)| && toks[end] == Punct(TokRParen)
    ensures ParseArgs(toks, pos, acc) == Success(Parsed(acc + args, end))
    decreases args, 1
  {
    if |args| == 0 {
      assert acc + args == acc;
    } else if |args| == 1 {
      SingleArgOnPrinted(toks, pos, args, acc, end);
    } else {
      ManyArgsOnPrinted(toks, pos, args, acc, end);
    }
  }

  lemma {:induction false} SingleArgOnPrinted(toks: seq<Token>, pos: nat, args: seq<Expr>, acc: seq<Expr>, end: nat)
    requires Stream(toks) && |args| == 1 && AllPrintable(args) && PrintedAt(toks, pos, PrintArgs(args))
    requires end == pos + |PrintArgs(args)| && toks[end] == Punct(TokRParen)
    ensures ParseArgs(toks, pos, acc) == Success(Parsed(acc + args, end))
    decreases args, 0
  {
    var a := args[0];
    assert PrintArgs(args) == Print(a);
    PrintStart(a);
    PrintedIndex(toks, pos, Print(a), 0);
    ExprOnPrinted(toks, pos, a);
    LastArgument(toks, pos, a, acc, end);
    assert acc + args == acc + [a];
  }

  lemma {:induction false} ManyArgsOnPrinted(toks: seq<Token>, pos: nat, args: seq<Expr>, acc: seq<Expr>, end: nat)
    requires Stream(toks) && |args| > 1 && AllPrintable(args) && PrintedAt(toks, pos, PrintArgs(args))
    requires end == pos + |PrintArgs(args)| && toks[end] == Punct(TokRParen)
    ensures ParseArgs(toks, pos, acc) == Success(Parsed(acc + args, end))
    decreases args, 0
  {
    var a, rest := args[0], args[1..];
    var comma := ArgsLayout(toks, pos, args, end);
    FirstArgument(toks, pos, a, acc, comma);
    ArgsOnPrinted(toks, comma + 1, rest, acc + [a], end);
    assert acc + [a] + rest == acc + args;
  }

  /** A printed argument followed by `,` hands the rest of the list to the
      next round. */
  lemma {:induction false} FirstArgument(toks: seq<Token>, pos: nat, a: Expr, acc: seq<Expr>, comma: nat)
    requires Stream(toks) && Printable(a) && PrintedAt(toks, pos, Print(a))
    requires pos < |toks| && toks[pos].kind != TokRParen
    requires comma == pos + |Print(a)| && toks[comma] == Punct(TokComma)
    ensures ParseArgs(toks, pos, acc) == ParseArgs(toks, comma + 1, acc + [a])
    decreases a, 5
  {
    ExprOnPrinted(toks, pos, a);
    NextArgument(toks, pos, a, acc, comma);
  }

  /** Where the first of several printed arguments ends: at the comma
      before the printed rest. */
  lemma ArgsLayout(toks: seq<Token>, pos: nat, args: seq<Expr>, end: nat) returns (comma: nat)
    requires |args| > 1 && AllPrintable(args) && PrintedAt(toks, pos, PrintArgs(args))
    requires end == pos + |PrintArgs(args)|
    ensures comma == pos + |Print(args[0])| && toks[comma] == Punct(TokComma)
    ensures Printable(args[0]) && PrintedAt(toks, pos, Print(args[0]))
    ensures pos < |toks| && toks[pos].kind != TokRParen
    ensures AllPrintable(args[1..]) && PrintedAt(toks, comma + 1, PrintArgs(args[1..]))
    ensures end == comma + 1 + |PrintArgs(args[1..])|
  {
    var a, rest := args[0], args[1..];
    assert PrintArgs(args) == Print(a) + [Punct(TokComma)] + PrintArgs(rest);
    PrintedAround(toks, pos, Print(a), Punct(TokComma), PrintArgs(rest));
    PrintStart(a);
    PrintedIndex(toks, pos, Print(a), 0);
    comma := pos + |Print(a)|;
  }

  /** An argument followed by `)` ends the argument list. */
  lemma LastArgument(toks: seq<Token>, pos: nat, a: Expr, acc: seq<Expr>, end: nat)
    requires Stream(toks) && pos < |toks| && toks[pos].kind != TokRParen
    requires ParseExpression(toks, pos) == Success(Parsed(a, end)) && toks[end] == Punct(TokRParen)
    ensures ParseArgs(toks, pos, acc) == Success(Parsed(acc + [a], end))
  {
  }

  /** An argument followed by `,` hands the rest to the next round. */
  lemma NextArgument(toks: seq<Token>, pos: nat, a: Expr, acc: seq<Expr>, end: nat)
    requires Stream(toks) && pos < |toks| && toks[pos].kind != TokRParen
    requires ParseExpression(toks, pos) == Success(Parsed(a, end)) && toks[end] == Punct(TokComma)
    ensures ParseArgs(toks, pos, acc) == ParseArgs(toks, end + 1, acc + [a])
  {
  }

  // ---------------------------------------------------------------------------
  // Whole token buffers

  /** Every token carries the payload its kind calls for. */
  ghost predicate AllFit(ts: seq<Token>) {
    forall k :: 0 <= k < |ts| ==> PayloadFits(ts[k])
  }

  lemma FitsConcat(a: seq<Token>, b: seq<Token>)
    requires AllFit(a) && AllFit(b)
    ensures AllFit(a + b)
  {
    forall k | 0 <= k < |a + b| ensures PayloadFits((a + b)[k]) {
      if k < |a| { assert (a + b)[k] == a[k]; } else { assert (a + b)[k] == b[k - |a|]; }
    }
  }

  /** The printer only writes tokens the lexer could have built. */
  lemma {:induction false} PrintFits(e: Expr)
    ensures AllFit(Print(e))
    decreases e, 1
  {
    var lp, rp := [Punct(TokLParen)], [Punct(TokRParen)];
    match e
    case Call(f, args) =>
      ArgsFit(args);
      FitsConcat([IdentTok(f), Punct(TokLParen)], PrintArgs(args));
      FitsConcat([IdentTok(f), Punct(TokLParen)] + PrintArgs(args), rp);
    case Unary(op, x) =>
      PrintFits(x);
      FitsConcat([OpTok(op)], Print(x));
      FitsConcat(lp, Content(e));
      FitsConcat(lp + Content(e), rp);
    case Binary(op, l, r) =>
      PrintFits(l);
      PrintFits(r);
      FitsConcat(Print(l), [OpTok(op)]);
      FitsConcat(Print(l) + [OpTok(op)], Print(r));
      FitsConcat(lp, Content(e));
      FitsConcat(lp + Content(e), rp);
    case Assign(n, v) =>
      PrintFits(v);
      FitsConcat([IdentTok(n), OpTok(Equal)], Print(v));
      FitsConcat(lp, Content(e));
      FitsConcat(lp + Content(e), rp);
    case _ =>
  }

  lemma {:induction false} ArgsFit(args: seq<Expr>)
    ensures AllFit(PrintArgs(args))
    decreases args, 0
  {
    if |args| == 1 {
      PrintFits(args[0]);
    } else if |args| > 1 {
      PrintFits(args[0]);
      ArgsFit(args[1..]);
      FitsConcat(Print(args[0]), [Punct(TokComma)]);
      FitsConcat(Print(args[0]) + [Punct(TokComma)], PrintArgs(args[1..]));
    }
  }

  /** Printed tokens in front of a buffer keep it a buffer the parser can
      run on. */
  lemma StreamPrefix(ts: seq<Token>, rest: seq<Token>)
    requires AllFit(ts) && Stream(rest)
    ensures Stream(ts + rest)
    ensures PrintedAt(ts + rest, 0, ts)
  {
    assert AllFit(rest);
    FitsConcat(ts, rest);
    forall i | 0 <= i < |ts| ensures (ts + rest)[0 + i] == ts[i] {
    }
  }

  /** The parser is the printer's inverse on expressions: printed tokens in
      front of any buffer whose first token cannot continue an expression
      parse back to the printed tree, and the cursor stops right after them. */
  lemma ExpressionRoundTrip(e: Expr, rest: seq<Token>)
    requires Printable(e) && Stream(rest) && EndsExpr(rest[0])
    ensures Stream(Print(e) + rest)
    ensures ParseExpression(Print(e) + rest, 0) == Success(Parsed(e, |Print(e)|))
  {
    PrintFits(e);
    StreamPrefix(Print(e), rest);
    ExprOnPrinted(Print(e) + rest, 0, e);
  }
  // ---------------------------------------------------------------------------
  // Grouping and expression errors

  /** What a binary level parsed, followed by a token that ends
      expressions, is a whole expression. */
  lemma WholeExpression(toks: seq<Token>, q: nat, x: Expr, end: nat, level: nat)
    requires Stream(toks) && q < |toks| && level <= MaxLevel
    requires ParseBinary(toks, q, level) == Success(Parsed(x, end)) && EndsExpr(toks[end])
    ensures ParseExpression(toks, q) == Success(Parsed(x, end))
  {
    LiftBinary(toks, q, x, end, level, 0);
    assert ParseAssignment(toks, q) == Success(Parsed(x, end));
  }

  /** Operators of one level fold to the left: `a op1 b op2 c` is
      `(a op1 b) op2 c`, as for `a - b - c`. */
  lemma LeftAssociative(toks: seq<Token>, q: nat, op1: Operator, op2: Operator,
                        a: Expr, m1: nat, b: Expr, m2: nat, c: Expr, e: nat)
    requires Stream(toks) && q < |toks| && BinaryLevel(op1) >= 0 && BinaryLevel(op2) == BinaryLevel(op1)
    requires ParseUnary(toks, q) == Success(Parsed(a, m1)) && toks[m1] == OpTok(op1) && m1 + 1 < |toks|
    requires ParseUnary(toks, m1 + 1) == Success(Parsed(b, m2)) && toks[m2] == OpTok(op2) && m2 + 1 < |toks|
    requires ParseUnary(toks, m2 + 1) == Success(Parsed(c, e)) && EndsExpr(toks[e])
    ensures ParseExpression(toks, q) == Success(Parsed(Binary(op2, Binary(op1, a, b), c), e))
  {
    var level := BinaryLevel(op1);
    var x := Binary(op2, Binary(op1, a, b), c);
    LiftOperand(toks, q, a, m1, level);
    LiftOperand(toks, m1 + 1, b, m2, level);
    LiftOperand(toks, m2 + 1, c, e, level);
    RestStops(toks, level, x, e);
    assert ParseBinaryRest(toks, level, Binary(op1, a, b), m2) == Success(Parsed(x, e));
    assert ParseBinaryRest(toks, level, a, m1) == Success(Parsed(x, e));
    WholeExpression(toks, q, x, e, level);
  }

  /** A tighter operator second binds first: `a op1 b op2 c` is
      `a op1 (b op2 c)` when `op2` binds tighter, as for `a + b * c`. */
  lemma TighterSecond(toks: seq<Token>, q: nat, op1: Operator, op2: Operator,
                      a: Expr, m1: nat, b: Expr, m2: nat, c: Expr, e: nat)
    requires Stream(toks) && q < |toks| && 0 <= BinaryLevel(op1) < BinaryLevel(op2)
    requires ParseUnary(toks, q) == Success(Parsed(a, m1)) && toks[m1] == OpTok(op1) && m1 + 1 < |toks|
    requires ParseUnary(toks, m1 + 1) == Success(Parsed(b, m2)) && toks[m2] == OpTok(op2) && m2 + 1 < |toks|
    requires ParseUnary(toks, m2 + 1) == Success(Parsed(c, e)) && EndsExpr(toks[e])
    ensures ParseExpression(toks, q) == Success(Parsed(Binary(op1, a, Binary(op2, b, c)), e))
  {
    var outer := BinaryLevel(op1);
    var inner := BinaryLevel(op2);
    var right := Binary(op2, b, c);
    var x := Binary(op1, a, right);
    LiftOperand(toks, m1 + 1, b, m2, inner);
    LiftOperand(toks, m2 + 1, c, e, inner);
    RestStops(toks, inner, right, e);
    assert ParseBinaryRest(toks, inner, b, m2) == Success(Parsed(right, e));
    assert ParseBinary(toks, m1 + 1, inner) == Success(Parsed(right, e));
    LiftBinary(toks, m1 + 1, right, e, inner, outer + 1);
    assert ParseOperand(toks, m1 + 1, outer) == Success(Parsed(right, e));
    LiftOperand(toks, q, a, m1, outer);
    RestStops(toks, outer, x, e);
    assert ParseBinaryRest(toks, outer, a, m1) == Success(Parsed(x, e));
    WholeExpression(toks, q, x, e, outer);
  }

  /** A tighter operator first binds first: `a op1 b op2 c` is
      `(a op1 b) op2 c` when `op1` binds tighter, as for `a * b + c`. */
  lemma TighterFirst(toks: seq<Token>, q: nat, op1: Operator, op2: Operator,
                     a: Expr, m1: nat, b: Expr, m2: nat, c: Expr, e: nat)
    requires Stream(toks) && q < |toks| && 0 <= BinaryLevel(op2) < BinaryLevel(op1)
    requires ParseUnary(toks, q) == Success(Parsed(a, m1)) && toks[m1] == OpTok(op1) && m1 + 1 < |toks|
    requires ParseUnary(toks, m1 + 1) == Success(Parsed(b, m2)) && toks[m2] == OpTok(op2) && m2 + 1 < |toks|
    requires ParseUnary(toks, m2 + 1) == Success(Parsed(c, e)) && EndsExpr(toks[e])
    ensures ParseExpression(toks, q) == Success(Parsed(Binary(op2, Binary(op1, a, b), c), e))
  {
    var inner := BinaryLevel(op1);
    var outer := BinaryLevel(op2);
    var left := Binary(op1, a, b);
    var x := Binary(op2, left, c);
    LiftOperand(toks, q, a, m1, inner);
    LiftOperand(toks, m1 + 1, b, m2, inner);
    RestStops(toks, inner, left, m2);
    assert ParseBinaryRest(toks, inner, a, m1) == Success(Parsed(left, m2));
    assert ParseBinary(toks, q, inner) == Success(Parsed(left, m2));
    LiftBinary(toks, q, left, m2, inner, outer + 1);
    assert ParseOperand(toks, q, outer) == Success(Parsed(left, m2));
    LiftOperand(toks, m2 + 1, c, e, outer);
    RestStops(toks, outer, x, e);
    assert ParseBinaryRest(toks, outer, left, m2) == Success(Parsed(x, e));
    WholeExpression(toks, q, x, e, outer);
  }

  /** Assignment nests to the right: `x = y = v` is `x = (y = v)`. */
  lemma AssignRightAssociative(toks: seq<Token>, q: nat, x: string, y: string, v: Expr, e: nat)
    requires Stream(toks) && q + 4 < |toks|
    requires toks[q] == IdentTok(x) && toks[q + 1] == OpTok(Equal)
    requires toks[q + 2] == IdentTok(y) && toks[q + 3] == OpTok(Equal)
    requires ParseExpression(toks, q + 4) == Success(Parsed(v, e))
    ensures ParseExpression(toks, q) == Success(Parsed(Assign(x, Assign(y, v)), e))
  {
    AssignExpression(toks, q + 2, y, v, e);
    AssignExpression(toks, q, x, Assign(y, v), e);
  }

  /** An assignment whose left side is anything but a name fails, once its
      right side has been parsed. */
  lemma AssignToNonVariable(toks: seq<Token>, q: nat, l: Expr, m: nat, v: Expr, e: nat)
    requires Stream(toks) && q < |toks| && !l.Identifier?
    requires ParseUnary(toks, q) == Success(Parsed(l, m)) && toks[m] == OpTok(Equal) && m + 1 < |toks|
    requires ParseExpression(toks, m + 1) == Success(Parsed(v, e))
    ensures ParseExpression(toks, q) == Failure("Left side of assignment must be a variable")
  {
    LiftOperand(toks, q, l, m, 0);
    RestStops(toks, 0, l, m);
    assert ParseBinary(toks, q, 0) == Success(Parsed(l, m));
    assert IsOp(toks[m], Equal);
    assert ParseAssignment(toks, m + 1) == Success(Parsed(v, e));
  }

  /** Only a name can be called: `f()()` fails at its second argument list. */
  lemma CallOfCall(toks: seq<Token>, q: nat, f: string)
    requires Stream(toks) && q + 4 < |toks| && toks[q] == IdentTok(f)
    requires toks[q + 1] == Punct(TokLParen) && toks[q + 2] == Punct(TokRParen)
    requires toks[q + 3] == Punct(TokLParen) && toks[q + 4] == Punct(TokRParen)
    ensures ParseExpression(toks, q) == Failure("Can only call identifiers")
  {
    assert ParsePrimary(toks, q) == Success(Parsed(Identifier(f), q + 1));
    assert ParseArgs(toks, q + 2, []) == Success(Parsed([], q + 2));
    assert ParseArgs(toks, q + 4, []) == Success(Parsed([], q + 4));
    assert ParsePostfixRest(toks, Call(f, []), q + 3) == Failure("Can only call identifiers");
    assert ParsePostfixRest(toks, Identifier(f), q + 1) == Failure("Can only call identifiers");
    assert ParseUnary(toks, q) == Failure("Can only call identifiers");
    UnaryFailureLifts(toks, q, "Can only call identifiers", 0);
  }

  /** An expression cannot start with a token that opens no primary and is
      no prefix operator. */
  lemma UnexpectedToken(toks: seq<Token>, q: nat)
    requires Stream(toks) && q < |toks| && !ExprStart(toks[q].kind)
    requires !(toks[q].kind == TokOperator && (toks[q].value == OpVal(Not) || toks[q].value == OpVal(Minus)))
    ensures ParseExpression(toks, q) == Failure("Unexpected token in expression")
  {
    assert PayloadFits(toks[q]);
    assert ParsePrimary(toks, q) == Failure("Unexpected token in expression");
    assert ParsePostfix(toks, q) == Failure("Unexpected token in expression");
    assert ParseUnary(toks, q) == Failure("Unexpected token in expression");
    UnaryFailureLifts(toks, q, "Unexpected token in expression", 0);
  }

  /** A failure of the unary level is the failure of every binary level
      and of the whole expression. */
  lemma {:induction false} UnaryFailureLifts(toks: seq<Token>, q: nat, msg: string, level: nat)
    requires Stream(toks) && q < |toks| && level <= MaxLevel
    requires ParseUnary(toks, q) == Failure(msg)
    ensures ParseBinary(toks, q, level) == Failure(msg)
    ensures level == 0 ==> ParseExpression(toks, q) == Failure(msg)
    decreases MaxLevel - level
  {
    if level < MaxLevel {
      UnaryFailureLifts(toks, q, msg, level + 1);
    }
    assert ParseOperand(toks, q, level) == Failure(msg);
    if level == 0 {
      assert ParseAssignment(toks, q) == Failure(msg);
    }
  }
  /** The classifications of parser_helper.h that the parser never calls:
      isOperator picks out the operators of the additive and multiplicative
      levels, and isLiteral the scalar literal kinds, each of which starts an
      expression. */
  lemma HelperClasses()
    ensures forall op :: IsOperator(op) <==> BinaryLevel(op) >= 4
    ensures forall k :: IsLiteral(k) ==> ExprStart(k) && k != TokStringLiteral
  {
  }

  /** The parameter loop stops at `)` even right after a comma, so a
      parameter list with a trailing comma, `(int a,)`, is accepted. */
  lemma TrailingCommaAccepted(toks: seq<Token>, pos: nat, what: string, n: string)
    requires Stream(toks) && pos + 3 < |toks| && IsType(toks[pos].kind)
    requires toks[pos + 1] == IdentTok(n) && toks[pos + 2].kind == TokComma && toks[pos + 3].kind == TokRParen
    ensures ParseParams(toks, pos, what, []) == Success(Parsed([Param(GetTypeKind(toks[pos].kind), n)], pos + 3))
  {
    var params := [Param(GetTypeKind(toks[pos].kind), n)];
    assert [] + params == params;
    assert ParseParams(toks, pos + 3, what, params) == Success(Parsed(params, pos + 3));
    assert toks[pos + 1].value.s == n;
  }

  // ---------------------------------------------------------------------------
  // Statement and item errors

  /** `else` must be followed directly by `{`. */
  lemma ElseWithoutBrace(toks: seq<Token>, cond: Expr, thenBody: seq<Stmt>, pos: nat)
    requires Stream(toks) && pos + 1 < |toks| && toks[pos].kind == TokElse && toks[pos + 1].kind != TokLBrace
    ensures ElsePart(toks, cond, thenBody, pos) == Failure("Expected '{' after 'else'")
  {
  }

  /** A parameter must start with a type keyword unless the list closes. */
  lemma ParamWithoutType(toks: seq<Token>, pos: nat, what: string, acc: seq<Param>)
    requires Stream(toks) && pos < |toks| && toks[pos].kind != TokRParen && !IsType(toks[pos].kind)
    ensures ParseParams(toks, pos, what, acc) == Failure("Expected type in " + what + " parameter")
  {
  }

  /** The type of a parameter must be followed by its name. */
  lemma ParamWithoutName(toks: seq<Token>, pos: nat, what: string, acc: seq<Param>)
    requires Stream(toks) && pos + 1 < |toks| && IsType(toks[pos].kind) && toks[pos + 1].kind != TokIdentifier
    ensures ParseParams(toks, pos, what, acc) == Failure("Expected identifier after type in " + what + " parameter")
  {
  }

  /** A statement cannot start with `{`: a nested block is parsed as an
      expression statement and fails. The same holds at EOF, which is how an
      unclosed block ends. */
  lemma NoStatementAt(toks: seq<Token>, pos: nat)
    requires Stream(toks) && pos < |toks| && (toks[pos].kind == TokLBrace || toks[pos].kind == TokEof)
    ensures ParseStatement(toks, pos) == Failure("Unexpected token in expression")
  {
    UnexpectedToken(toks, pos);
  }
}

=== FILE: program_round_trip.dfy ===
/** The printer extended to statements, items and whole programs, and the
    proof that the parser reads every printable program back. Printed
    statements use the concrete syntax the parser accepts: a declaration is
    `type name (= expr)? ;`, blocks are braced, and the clauses of `for` are
    separated by `;`. */
module ProgramRoundTrip {
  import opened Wrappers
  import opened Tokens
  import opened Ast
  import opened ParserHelper
  import opened Parser
  import opened ParserProperties

  /** The keyword of a type. VOID has none. */
  function TypeKeyword(t: TypeKind): (k: Kind)
    requires t != VOID
    ensures IsType(k) && GetTypeKind(k) == t
  {
    match t
    case INT => TokInt
    case FLOAT => TokFloat
    case BOOL => TokBool
    case CHAR => TokChar
    case STRING => TokString
  }

  /** The token a type is written with; VOID is written as the identifier
      `void`, which no declaration accepts. */
  function TypeTok(t: TypeKind): Token {
    if t == VOID then IdentTok("void") else Punct(TypeKeyword(t))
  }

  // ---------------------------------------------------------------------------
  // The printer

  function PrintOpt(e: Option<Expr>): seq<Token> {
    if e.Some? then Print(e.value) else []
  }

  /** `type name` and, with an initialiser, `= expr`. */
  function PrintDecl(ty: TypeKind, name: string, init: Option<Expr>): seq<Token> {
    [TypeTok(ty), IdentTok(name)] + (if init.Some? then [OpTok(Equal)] + Print(init.value) else [])
  }

  /** `kw ( cond )` of `if` and `while`. */
  function Header(kw: Kind, cond: Expr): seq<Token> {
    [Punct(kw), Punct(TokLParen)] + Print(cond) + [Punct(TokRParen)]
  }

  /** `for ( init ; cond ; incr )`. */
  function ForHeader(init: Option<Stmt>, cond: Option<Expr>, incr: Option<Expr>): seq<Token> {
    [Punct(TokFor), Punct(TokLParen)] + PrintInit(init) + [Punct(TokSemicolon)]
      + PrintOpt(cond) + [Punct(TokSemicolon)] + PrintOpt(incr) + [Punct(TokRParen)]
  }

  function PrintStmt(s: Stmt): seq<Token>
    decreases s, 2
  {
    match s
    case ExprStmt(e) => Print(e) + [Punct(TokSemicolon)]
    case VarDecl(ty, n, init) => PrintDecl(ty, n, init) + [Punct(TokSemicolon)]
    case Block(ss) => Braced(ss)
    case Return(v) => [Punct(TokReturn)] + PrintOpt(v) + [Punct(TokSemicolon)]
    case If(c, th, NoElse) => Header(TokIf, c) + Braced(th)
    case If(c, th, Else(eb)) => Header(TokIf, c) + Braced(th) + [Punct(TokElse)] + Braced(eb)
    case While(c, b) => Header(TokWhile, c) + Braced(b)
    case For(init, cond, incr, b) => ForHeader(init, cond, incr) + Braced(b)
  }

  /** The initialiser of `for`: a declaration or an expression, without
      the `;` that follows it. The parser builds no other initialiser, so
      other statements print as nothing. */
  function PrintInit(init: Option<Stmt>): seq<Token> {
    if init.None? then []
    else match init.value
      case VarDecl(ty, n, v) => PrintDecl(ty, n, v)
      case ExprStmt(e) => Print(e)
      case _ => []
  }

  function Braced(ss: seq<Stmt>): seq<Token>
    decreases ss, 1
  {
    [Punct(TokLBrace)] + PrintBlock(ss) + [Punct(TokRBrace)]
  }

  function PrintBlock(ss: seq<Stmt>): seq<Token>
    decreases ss, 0
  {
    if |ss| == 0 then [] else PrintStmt(ss[0]) + PrintBlock(ss[1..])
  }

  /** `type name` pairs separated by commas. */
  function PrintParams(ps: seq<Param>): seq<Token> {
    if |ps| == 0 then []
    else if |ps| == 1 then [TypeTok(ps[0].ty), IdentTok(ps[0].name)]
    else [TypeTok(ps[0].ty), IdentTok(ps[0].name), Punct(TokComma)] + PrintParams(ps[1..])
  }

  /** `-> type`, left out for VOID. */
  function PrintReturnType(t: TypeKind): seq<Token> {
    if t == VOID then [] else [Token(TokArrow, OpVal(Arrow)), TypeTok(t)]
  }

  /** The return type an extern is printed with: none for VOID. */
  function ExternType(t: TypeKind): seq<Token> {
    if t == VOID then [] else [TypeTok(t)]
  }

  function PrintItem(it: Item): seq<Token> {
    match it
    case FunctionItem(f) =>
      [Punct(TokDef), IdentTok(f.name), Punct(TokLParen)] + PrintParams(f.params) + [Punct(TokRParen)]
        + PrintReturnType(f.returnType) + Braced(f.body)
    case ExternItem(x) =>
      [Punct(TokExtern)] + ExternType(x.returnType)
        + [IdentTok(x.name), Punct(TokLParen)] + PrintParams(x.params) + [Punct(TokRParen), Punct(TokSemicolon)]
    case StmtItem(s) => PrintStmt(s)
  }

  function PrintProgram(p: Program): seq<Token> {
    if |p| == 0 then [] else PrintItem(p[0]) + PrintProgram(p[1..])
  }

  // ---------------------------------------------------------------------------
  // What the parser can build

  predicate OptPrintable(e: Option<Expr>) {
    e.None? || Printable(e.value)
  }

  /** A declaration names a real type. */
  predicate DeclPrintable(ty: TypeKind, init: Option<Expr>) {
    ty != VOID && OptPrintable(init)
  }

  /** The parser builds only declarations and expression statements as the
      initialiser of `for`. */
  predicate InitPrintable(init: Option<Stmt>) {
    || init.None?
    || (init.value.VarDecl? && DeclPrintable(init.value.ty, init.value.init))
    || (init.value.ExprStmt? && Printable(init.value.expr))
  }

  /** Statements the parser can build: no nested block statement, which the
      parser never produces, and printable parts. */
  predicate StmtPrintable(s: Stmt)
    decreases s, 1
  {
    match s
    case ExprStmt(e) => Printable(e)
    case VarDecl(ty, _, init) => DeclPrintable(ty, init)
    case Block(_) => false
    case Return(v) => OptPrintable(v)
    case If(c, th, NoElse) => Printable(c) && BlockPrintable(th)
    case If(c, th, Else(eb)) => Printable(c) && BlockPrintable(th) && BlockPrintable(eb)
    case While(c, b) => Printable(c) && BlockPrintable(b)
    case For(init, cond, incr, b) => InitPrintable(init) && OptPrintable(cond) && OptPrintable(incr) && BlockPrintable(b)
  }

  predicate BlockPrintable(ss: seq<Stmt>)
    decreases ss, 0
  {
    |ss| == 0 || (StmtPrintable(ss[0]) && BlockPrintable(ss[1..]))
  }

  predicate ParamsPrintable(ps: seq<Param>) {
    forall k :: 0 <= k < |ps| ==> ps[k].ty != VOID
  }

  predicate ItemPrintable(it: Item) {
    match it
    case FunctionItem(f) => ParamsPrintable(f.params) && BlockPrintable(f.body)
    case ExternItem(x) => ParamsPrintable(x.params)
    case StmtItem(s) => StmtPrintable(s)
  }

  predicate ProgramPrintable(p: Program) {
    forall k :: 0 <= k < |p| ==> ItemPrintable(p[k])
  }

  // ---------------------------------------------------------------------------
  // Parsing statements from their parts

  lemma BlockEnds(toks: seq<Token>, pos: nat, acc: seq<Stmt>)
    requires Stream(toks) && pos < |toks| && toks[pos] == Punct(TokRBrace)
    ensures ParseBlock(toks, pos, acc) == Success(Parsed(acc, pos))
  {
  }

  lemma BlockNext(toks: seq<Token>, pos: nat, acc: seq<Stmt>, s: Stmt, end: nat)
    requires Stream(toks) && pos < |toks| && toks[pos].kind != TokRBrace
    requires ParseStatement(toks, pos) == Success(Parsed(s, end))
    ensures ParseBlock(toks, pos, acc) == ParseBlock(toks, end, acc + [s])
  {
  }

  /** The first token of an expression statement: none the statement
      dispatch tests for. */
  predicate PlainStart(k: Kind) {
    k != TokIf && k != TokWhile && k != TokFor && k != TokReturn && !IsType(k)
  }

  lemma VarDeclParsed(toks: seq<Token>, pos: nat, ty: TypeKind, n: string, init: Option<Expr>, end: nat, msg: string)
    requires Stream(toks) && pos + 2 < |toks| && ty != VOID
    requires toks[pos] == TypeTok(ty) && toks[pos + 1] == IdentTok(n)
    requires init.None? ==> toks[pos + 2] == Punct(TokSemicolon) && end == pos + 2
    requires init.Some? ==> toks[pos + 2] == OpTok(Equal) && ParseExpression(toks, pos + 3) == Success(Parsed(init.value, end))
    ensures IsType(toks[pos].kind)
    ensures ParseVarDecl(toks, pos, msg) == Success(Parsed(VarDecl(ty, n, init), end))
  {
  }

  lemma ExprStmtParsed(toks: seq<Token>, pos: nat, e: Expr, end: nat)
    requires Stream(toks) && pos < |toks|
    requires ParseExpression(toks, pos) == Success(Parsed(e, end)) && toks[end] == Punct(TokSemicolon)
    ensures ParseExprStatement(toks, pos) == Success(Parsed(ExprStmt(e), end + 1))
  {
  }

  lemma DeclStmtParsed(toks: seq<Token>, pos: nat, d: Stmt, end: nat)
    requires Stream(toks) && pos < |toks| && IsType(toks[pos].kind)
    requires ParseVarDecl(toks, pos, DeclNameMsg) == Success(Parsed(d, end))
    requires toks[end] == Punct(TokSemicolon)
    ensures ParseDeclStatement(toks, pos) == Success(Parsed(d, end + 1))
  {
  }

  /** `q` is the position after `return`. */
  lemma ReturnParsed(toks: seq<Token>, q: nat, v: Option<Expr>, end: nat)
    requires Stream(toks) && q < |toks|
    requires v.None? ==> end == q
    requires v.Some? ==> toks[q].kind != TokSemicolon && ParseExpression(toks, q) == Success(Parsed(v.value, end))
    requires end < |toks| && toks[end] == Punct(TokSemicolon)
    ensures ParseReturn(toks, q) == Success(Parsed(Return(v), end + 1))
  {
  }

  /** The statement dispatch, stated for any result of the parser it picks. */
  lemma IfDispatch(toks: seq<Token>, pos: nat, x: Result<Parsed<Stmt>>)
    requires Stream(toks) && pos + 1 < |toks| && toks[pos].kind == TokIf
    requires ParseIf(toks, pos + 1) == x
    ensures ParseStatement(toks, pos) == x
  {
  }

  lemma WhileDispatch(toks: seq<Token>, pos: nat, x: Result<Parsed<Stmt>>)
    requires Stream(toks) && pos + 1 < |toks| && toks[pos].kind == TokWhile
    requires ParseWhile(toks, pos + 1) == x
    ensures ParseStatement(toks, pos) == x
  {
  }

  lemma ForDispatch(toks: seq<Token>, pos: nat, x: Result<Parsed<Stmt>>)
    requires Stream(toks) && pos + 1 < |toks| && toks[pos].kind == TokFor
    requires ParseFor(toks, pos + 1) == x
    ensures ParseStatement(toks, pos) == x
  {
  }

  lemma ReturnDispatch(toks: seq<Token>, pos: nat, x: Result<Parsed<Stmt>>)
    requires Stream(toks) && pos + 1 < |toks| && toks[pos].kind == TokReturn
    requires ParseReturn(toks, pos + 1) == x
    ensures ParseStatement(toks, pos) == x
  {
  }

  lemma DeclDispatch(toks: seq<Token>, pos: nat, x: Result<Parsed<Stmt>>)
    requires Stream(toks) && pos < |toks| && IsType(toks[pos].kind)
    requires ParseDeclStatement(toks, pos) == x
    ensures ParseStatement(toks, pos) == x
  {
  }

  lemma ExprDispatch(toks: seq<Token>, pos: nat, x: Result<Parsed<Stmt>>)
    requires Stream(toks) && pos < |toks| && PlainStart(toks[pos].kind)
    requires ParseExprStatement(toks, pos) == x
    ensures ParseStatement(toks, pos) == x
  {
  }

  // Each step of a statement parser, with the parts before it fixed

  lemma WhileHead(toks: seq<Token>, q: nat, c: Expr, m: nat)
    requires Stream(toks) && q < |toks| && toks[q] == Punct(TokLParen)
    requires ParseExpression(toks, q + 1) == Success(Parsed(c, m))
    ensures ParseWhile(toks, q) == WhileRest(toks, c, m)
  {
  }

  lemma BracedStep(toks: seq<Token>, pos: nat, msg: string)
    requires Stream(toks) && pos + 1 < |toks| && toks[pos] == Punct(TokLBrace)
    ensures var r := ParseBlock(toks, pos + 1, []);
      r.Success? ==> ParseBraced(toks, pos, msg) == Success(Parsed(r.value.value, r.value.next + 1))
  {
  }

  lemma WhileRestStep(toks: seq<Token>, c: Expr, m: nat)
    requires Stream(toks) && m + 1 < |toks| && toks[m] == Punct(TokRParen)
    ensures var r := ParseBraced(toks, m + 1, WhileBraceMsg);
      r.Success? ==> WhileRest(toks, c, m) == Success(Parsed(While(c, r.value.value), r.value.next))
  {
  }

  lemma IfHead(toks: seq<Token>, q: nat, c: Expr, m: nat)
    requires Stream(toks) && q < |toks| && toks[q] == Punct(TokLParen)
    requires ParseExpression(toks, q + 1) == Success(Parsed(c, m))
    ensures ParseIf(toks, q) == IfRest(toks, c, m)
  {
  }

  lemma IfRestStep(toks: seq<Token>, c: Expr, m: nat)
    requires Stream(toks) && m + 1 < |toks| && toks[m] == Punct(TokRParen)
    ensures var r := ParseBraced(toks, m + 1, IfBraceMsg);
      r.Success? ==> IfRest(toks, c, m) == ElsePart(toks, c, r.value.value, r.value.next)
  {
  }

  lemma NoElseStep(toks: seq<Token>, c: Expr, th: seq<Stmt>, pos: nat)
    requires Stream(toks) && pos < |toks| && toks[pos].kind != TokElse
    ensures ElsePart(toks, c, th, pos) == Success(Parsed(If(c, th, NoElse), pos))
  {
  }

  lemma ElseStep(toks: seq<Token>, c: Expr, th: seq<Stmt>, pos: nat)
    requires Stream(toks) && pos + 1 < |toks| && toks[pos] == Punct(TokElse)
    ensures var r := ParseBraced(toks, pos + 1, ElseBraceMsg);
      r.Success? ==> ElsePart(toks, c, th, pos) == Success(Parsed(If(c, th, Else(r.value.value)), r.value.next))
  {
  }

  lemma ForHead(toks: seq<Token>, q: nat, init: Option<Stmt>, i: nat)
    requires Stream(toks) && q < |toks| && toks[q] == Punct(TokLParen)
    requires ParseForInit(toks, q + 1) == Success(Parsed(init, i))
    ensures ParseFor(toks, q) == ForCondition(toks, init, i)
  {
  }

  lemma ForConditionStep(toks: seq<Token>, init: Option<Stmt>, i: nat, cond: Option<Expr>, j: nat)
    requires Stream(toks) && i + 1 < |toks| && toks[i] == Punct(TokSemicolon)
    requires ParseOptionalExpr(toks, i + 1, TokSemicolon) == Success(Parsed(cond, j))
    ensures ForCondition(toks, init, i) == ForIncrement(toks, init, cond, j)
  {
  }

  lemma ForIncrementStep(toks: seq<Token>, init: Option<Stmt>, cond: Option<Expr>, j: nat, incr: Option<Expr>, k: nat)
    requires Stream(toks) && j + 1 < |toks| && toks[j] == Punct(TokSemicolon)
    requires ParseOptionalExpr(toks, j + 1, TokRParen) == Success(Parsed(incr, k))
    ensures ForIncrement(toks, init, cond, j) == ForRest(toks, init, cond, incr, k)
  {
  }

  lemma ForRestStep(toks: seq<Token>, init: Option<Stmt>, cond: Option<Expr>, incr: Option<Expr>, k: nat)
    requires Stream(toks) && k + 1 < |toks| && toks[k] == Punct(TokRParen)
    ensures var r := ParseBraced(toks, k + 1, ForBraceMsg);
      r.Success? ==> ForRest(toks, init, cond, incr, k) == Success(Parsed(For(init, cond, incr, r.value.value), r.value.next))
  {
  }

  // The optional parts of a for header

  lemma ForInitParsed(toks: seq<Token>, pos: nat, init: Option<Stmt>, end: nat)
    requires Stream(toks) && pos < |toks|
    requires init.None? ==> toks[pos] == Punct(TokSemicolon) && end == pos
    requires init.Some? && init.value.VarDecl? ==>
      IsType(toks[pos].kind) && ParseVarDecl(toks, pos, ForInitNameMsg) == Success(Parsed(init.value, end))
    requires init.Some? && init.value.ExprStmt? ==>
      ExprStart(toks[pos].kind) && ParseExpression(toks, pos) == Success(Parsed(init.value.expr, end))
    requires init.Some? ==> init.value.VarDecl? || init.value.ExprStmt?
    ensures ParseForInit(toks, pos) == Success(Parsed(init, end))
  {
  }

  lemma OptionalParsed(toks: seq<Token>, pos: nat, stop: Kind, e: Option<Expr>, end: nat)
    requires Stream(toks) && pos < |toks|
    requires e.None? ==> toks[pos].kind == stop && end == pos
    requires e.Some? ==> toks[pos].kind != stop && ParseExpression(toks, pos) == Success(Parsed(e.value, end))
    ensures ParseOptionalExpr(toks, pos, stop) == Success(Parsed(e, end))
  {
  }

  // ---------------------------------------------------------------------------
  // Where the parts of a printed statement lie

  lemma PrintedLast(toks: seq<Token>, pos: nat, a: seq<Token>, t: Token)
    requires PrintedAt(toks, pos, a + [t])
    ensures PrintedAt(toks, pos, a) && toks[pos + |a|] == t
    ensures |a + [t]| == |a| + 1
  {
    PrintedSplit(toks, pos, a, [t]);
    PrintedToken(toks, pos + |a|, t);
  }

  lemma PrintedHeader(toks: seq<Token>, pos: nat, kw: Kind, c: Expr, tail: seq<Token>)
    requires PrintedAt(toks, pos, Header(kw, c) + tail)
    ensures toks[pos] == Punct(kw) && toks[pos + 1] == Punct(TokLParen)
    ensures PrintedAt(toks, pos + 2, Print(c))
    ensures toks[pos + 2 + |Print(c)|] == Punct(TokRParen)
    ensures PrintedAt(toks, pos + 3 + |Print(c)|, tail)
    ensures |Header(kw, c)| == |Print(c)| + 3 && |Header(kw, c) + tail| == |Print(c)| + 3 + |tail|
  {
    var a := [Punct(kw), Punct(TokLParen)];
    assert Header(kw, c) + tail == a + Print(c) + [Punct(TokRParen)] + tail;
    PrintedAround(toks, pos, a + Print(c), Punct(TokRParen), tail);
    PrintedSplit(toks, pos, a, Print(c));
    PrintedIndex(toks, pos, a, 0);
    PrintedIndex(toks, pos, a, 1);
  }

  lemma PrintedBraced(toks: seq<Token>, pos: nat, ss: seq<Stmt>)
    requires PrintedAt(toks, pos, Braced(ss))
    ensures toks[pos] == Punct(TokLBrace)
    ensures PrintedAt(toks, pos + 1, PrintBlock(ss))
    ensures toks[pos + 1 + |PrintBlock(ss)|] == Punct(TokRBrace)
    ensures |Braced(ss)| == |PrintBlock(ss)| + 2
  {
    var a := [Punct(TokLBrace)];
    PrintedLast(toks, pos, a + PrintBlock(ss), Punct(TokRBrace));
    PrintedSplit(toks, pos, a, PrintBlock(ss));
    PrintedToken(toks, pos, Punct(TokLBrace));
  }

  lemma PrintedDecl(toks: seq<Token>, pos: nat, ty: TypeKind, n: string, init: Option<Expr>)
    requires PrintedAt(toks, pos, PrintDecl(ty, n, init))
    ensures toks[pos] == TypeTok(ty) && toks[pos + 1] == IdentTok(n)
    ensures init.None? ==> |PrintDecl(ty, n, init)| == 2
    ensures init.Some? ==> && toks[pos + 2] == OpTok(Equal) && PrintedAt(toks, pos + 3, Print(init.value))
                           && |PrintDecl(ty, n, init)| == |Print(init.value)| + 3
  {
    var d := PrintDecl(ty, n, init);
    PrintedIndex(toks, pos, d, 0);
    PrintedIndex(toks, pos, d, 1);
    if init.Some? {
      var a := [TypeTok(ty), IdentTok(n), OpTok(Equal)];
      assert d == a + Print(init.value);
      PrintedSplit(toks, pos, a, Print(init.value));
      PrintedIndex(toks, pos, a, 2);
    }
  }

  lemma PrintedReturn(toks: seq<Token>, pos: nat, v: Option<Expr>)
    requires PrintedAt(toks, pos, [Punct(TokReturn)] + PrintOpt(v) + [Punct(TokSemicolon)])
    ensures toks[pos] == Punct(TokReturn)
    ensures PrintedAt(toks, pos + 1, PrintOpt(v))
    ensures toks[pos + 1 + |PrintOpt(v)|] == Punct(TokSemicolon)
    ensures |[Punct(TokReturn)] + PrintOpt(v) + [Punct(TokSemicolon)]| == |PrintOpt(v)| + 2
  {
    var a := [Punct(TokReturn)];
    PrintedLast(toks, pos, a + PrintOpt(v), Punct(TokSemicolon));
    PrintedSplit(toks, pos, a, PrintOpt(v));
    PrintedToken(toks, pos, Punct(TokReturn));
  }

  /** The positions of the parts of a printed `for`: the initialiser at
      `pos + 2`, then `;` at `i`, the condition, `;` at `j`, the increment,
      `)` at `k`, and the braced body. */
  lemma PrintedFor(toks: seq<Token>, pos: nat, init: Option<Stmt>, cond: Option<Expr>, incr: Option<Expr>, b: seq<Stmt>,
                   i: nat, j: nat, k: nat)
    requires PrintedAt(toks, pos, ForHeader(init, cond, incr) + Braced(b))
    requires i == pos + 2 + |PrintInit(init)| && j == i + 1 + |PrintOpt(cond)| && k == j + 1 + |PrintOpt(incr)|
    ensures |ForHeader(init, cond, incr) + Braced(b)| == k + 1 + |Braced(b)| - pos
    ensures toks[pos] == Punct(TokFor) && toks[pos + 1] == Punct(TokLParen)
    ensures PrintedAt(toks, pos + 2, PrintInit(init))
    ensures toks[i] == Punct(TokSemicolon) && PrintedAt(toks, i + 1, PrintOpt(cond))
    ensures toks[j] == Punct(TokSemicolon) && PrintedAt(toks, j + 1, PrintOpt(incr))
    ensures toks[k] == Punct(TokRParen) && PrintedAt(toks, k + 1, Braced(b))
  {
    ForLayout(toks, pos, ForHeader(init, cond, incr) + Braced(b), PrintInit(init), PrintOpt(cond), PrintOpt(incr), Braced(b), i, j, k);
  }

  /** PrintedFor over the four variable parts as plain sequences. */
  lemma ForLayout(toks: seq<Token>, pos: nat, w: seq<Token>, a: seq<Token>, b: seq<Token>, c: seq<Token>, d: seq<Token>,
                  i: nat, j: nat, k: nat)
    requires w == [Punct(TokFor), Punct(TokLParen)] + a + [Punct(TokSemicolon)] + b
                  + [Punct(TokSemicolon)] + c + [Punct(TokRParen)] + d
    requires PrintedAt(toks, pos, w)
    requires i == pos + 2 + |a| && j == i + 1 + |b| && k == j + 1 + |c|
    ensures |w| == k + 1 + |d| - pos
    ensures toks[pos] == Punct(TokFor) && toks[pos + 1] == Punct(TokLParen) && PrintedAt(toks, pos + 2, a)
    ensures toks[i] == Punct(TokSemicolon) && PrintedAt(toks, i + 1, b)
    ensures toks[j] == Punct(TokSemicolon) && PrintedAt(toks, j + 1, c)
    ensures toks[k] == Punct(TokRParen) && PrintedAt(toks, k + 1, d)
  {
    var t0 := [Punct(TokFor), Punct(TokLParen)];
    var semi := Punct(TokSemicolon);
    var x1 := t0 + a;
    var x2 := x1 + [semi] + b;
    var x3 := x2 + [semi] + c;
    PrintedAround(toks, pos, x3, Punct(TokRParen), d);
    PrintedSplit(toks, pos, x2 + [semi], c);
    PrintedLast(toks, pos, x2, semi);
    PrintedSplit(toks, pos, x1 + [semi], b);
    PrintedLast(toks, pos, x1, semi);
    PrintedSplit(toks, pos, t0, a);
    PrintedIndex(toks, pos, t0, 0);
    PrintedIndex(toks, pos, t0, 1);
  }

  /** The first token of a printed statement: never one that ends a block
      or a program, `else`, `def` or `extern`. */
  predicate StmtLead(k: Kind) {
    k != TokElse && k != TokRBrace && k != TokEof && k != TokDef && k != TokExtern
  }

  lemma StmtStart(s: Stmt)
    requires StmtPrintable(s)
    ensures |PrintStmt(s)| > 0 && StmtLead(PrintStmt(s)[0].kind)
  {
    if s.ExprStmt? {
      PrintStart(s.expr);
    }
  }

  lemma BlockStart(ss: seq<Stmt>)
    requires |ss| > 0 && StmtPrintable(ss[0])
    ensures |PrintBlock(ss)| > 0 && StmtLead(PrintBlock(ss)[0].kind)
  {
    StmtStart(ss[0]);
    assert PrintBlock(ss)[0] == PrintStmt(ss[0])[0];
  }

  // ---------------------------------------------------------------------------
  // Printed statements parse back

  /** A printed declaration followed by `;` is read back by the declaration
      parser, whatever its message for a missing name. */
  lemma DeclOnPrinted(toks: seq<Token>, pos: nat, ty: TypeKind, n: string, init: Option<Expr>, end: nat, msg: string)
    requires Stream(toks) && DeclPrintable(ty, init) && PrintedAt(toks, pos, PrintDecl(ty, n, init))
    requires end == pos + |PrintDecl(ty, n, init)| && toks[end] == Punct(TokSemicolon)
    ensures IsType(toks[pos].kind)
    ensures ParseVarDecl(toks, pos, msg) == Success(Parsed(VarDecl(ty, n, init), end))
  {
    PrintedDecl(toks, pos, ty, n, init);
    if init.Some? {
      ExprOnPrinted(toks, pos + 3, init.value);
    }
    VarDeclParsed(toks, pos, ty, n, init, end, msg);
  }

  // Each kind of printed statement, given by its parts, read back by the
  // statement dispatch

  lemma ExprStmtOnPrinted(toks: seq<Token>, pos: nat, e: Expr, end: nat)
    requires Stream(toks) && Printable(e) && PrintedAt(toks, pos, Print(e) + [Punct(TokSemicolon)])
    requires end == pos + |Print(e)| + 1
    ensures ParseStatement(toks, pos) == Success(Parsed(ExprStmt(e), end))
  {
    var semi := ExprStmtLayout(toks, pos, e, end);
    ExprOnPrinted(toks, pos, e);
    ExprStmtFromParts(toks, pos, e, semi, end);
  }

  /** The parts of a printed expression statement. */
  lemma ExprStmtLayout(toks: seq<Token>, pos: nat, e: Expr, end: nat) returns (semi: nat)
    requires PrintedAt(toks, pos, Print(e) + [Punct(TokSemicolon)]) && end == pos + |Print(e)| + 1
    ensures semi == pos + |Print(e)| && semi + 1 == end && semi < |toks| && toks[semi] == Punct(TokSemicolon)
    ensures PrintedAt(toks, pos, Print(e)) && PlainStart(toks[pos].kind)
  {
    semi := pos + |Print(e)|;
    PrintedLast(toks, pos, Print(e), Punct(TokSemicolon));
    PrintStart(e);
    PrintedIndex(toks, pos, Print(e), 0);
  }

  /** An expression followed by `;`, read by the statement dispatch. */
  lemma ExprStmtFromParts(toks: seq<Token>, pos: nat, e: Expr, semi: nat, end: nat)
    requires Stream(toks) && pos < |toks| && PlainStart(toks[pos].kind)
    requires ParseExpression(toks, pos) == Success(Parsed(e, semi)) && toks[semi] == Punct(TokSemicolon)
    requires end == semi + 1
    ensures ParseStatement(toks, pos) == Success(Parsed(ExprStmt(e), end))
  {
    ExprStmtParsed(toks, pos, e, semi);
    ExprDispatch(toks, pos, Success(Parsed(ExprStmt(e), end)));
  }

  lemma DeclStmtOnPrinted(toks: seq<Token>, pos: nat, ty: TypeKind, n: string, init: Option<Expr>, end: nat)
    requires Stream(toks) && DeclPrintable(ty, init) && PrintedAt(toks, pos, PrintDecl(ty, n, init) + [Punct(TokSemicolon)])
    requires end == pos + |PrintDecl(ty, n, init)| + 1
    ensures ParseStatement(toks, pos) == Success(Parsed(VarDecl(ty, n, init), end))
  {
    var d := PrintDecl(ty, n, init);
    var semi := pos + |d|;
    PrintedLast(toks, pos, d, Punct(TokSemicolon));
    DeclOnPrinted(toks, pos, ty, n, init, semi, DeclNameMsg);
    DeclStmtParsed(toks, pos, VarDecl(ty, n, init), semi);
    DeclDispatch(toks, pos, Success(Parsed(VarDecl(ty, n, init), end)));
  }

  lemma ReturnOnPrinted(toks: seq<Token>, pos: nat, v: Option<Expr>, end: nat)
    requires Stream(toks) && OptPrintable(v) && PrintedAt(toks, pos, [Punct(TokReturn)] + PrintOpt(v) + [Punct(TokSemicolon)])
    requires end == pos + 1 + |PrintOpt(v)| + 1
    ensures ParseStatement(toks, pos) == Success(Parsed(Return(v), end))
  {
    PrintedReturn(toks, pos, v);
    ReturnFromParts(toks, pos + 1, v, end);
    ReturnDispatch(toks, pos, Success(Parsed(Return(v), end)));
  }

  /** `value ;` printed after `return` parses back. */
  lemma ReturnFromParts(toks: seq<Token>, q: nat, v: Option<Expr>, end: nat)
    requires Stream(toks) && OptPrintable(v) && PrintedAt(toks, q, PrintOpt(v))
    requires toks[q + |PrintOpt(v)|] == Punct(TokSemicolon) && end == q + |PrintOpt(v)| + 1
    ensures ParseReturn(toks, q) == Success(Parsed(Return(v), end))
  {
    if v.Some? {
      PrintStart(v.value);
      PrintedIndex(toks, q, Print(v.value), 0);
      ExprOnPrinted(toks, q, v.value);
    }
    ReturnParsed(toks, q, v, q + |PrintOpt(v)|);
  }

  lemma {:induction false} WhileOnPrinted(toks: seq<Token>, pos: nat, c: Expr, b: seq<Stmt>, end: nat)
    requires Stream(toks) && Printable(c) && BlockPrintable(b) && PrintedAt(toks, pos, Header(TokWhile, c) + Braced(b))
    requires end == pos + 2 + |Print(c)| + 1 + |Braced(b)|
    ensures ParseStatement(toks, pos) == Success(Parsed(While(c, b), end))
    decreases b, 5
  {
    PrintedHeader(toks, pos, TokWhile, c, Braced(b));
    var m := pos + 2 + |Print(c)|;
    WhileFromParts(toks, pos + 1, c, m, b, end);
    WhileDispatch(toks, pos, Success(Parsed(While(c, b), end)));
  }

  /** `( cond ) { body }` printed after `while` parses back. */
  lemma {:induction false} WhileFromParts(toks: seq<Token>, q: nat, c: Expr, m: nat, b: seq<Stmt>, end: nat)
    requires Stream(toks) && Printable(c) && BlockPrintable(b)
    requires q < |toks| && toks[q] == Punct(TokLParen) && PrintedAt(toks, q + 1, Print(c))
    requires m == q + 1 + |Print(c)| && toks[m] == Punct(TokRParen) && PrintedAt(toks, m + 1, Braced(b))
    requires end == m + 1 + |Braced(b)|
    ensures ParseWhile(toks, q) == Success(Parsed(While(c, b), end))
    decreases b, 4
  {
    WhileCondPart(toks, q, c, m);
    WhileBodyPart(toks, c, m, b, end);
  }

  /** `( cond )`: the while parser moves on to the body. */
  lemma WhileCondPart(toks: seq<Token>, q: nat, c: Expr, m: nat)
    requires Stream(toks) && Printable(c)
    requires q < |toks| && toks[q] == Punct(TokLParen) && PrintedAt(toks, q + 1, Print(c))
    requires m == q + 1 + |Print(c)| && toks[m] == Punct(TokRParen)
    ensures ParseWhile(toks, q) == WhileRest(toks, c, m)
  {
    ExprOnPrinted(toks, q + 1, c);
    WhileHead(toks, q, c, m);
  }

  /** `{ body }` after the condition's `)`. */
  lemma {:induction false} WhileBodyPart(toks: seq<Token>, c: Expr, m: nat, b: seq<Stmt>, end: nat)
    requires Stream(toks) && BlockPrintable(b)
    requires m < |toks| && toks[m] == Punct(TokRParen) && PrintedAt(toks, m + 1, Braced(b))
    requires end == m + 1 + |Braced(b)|
    ensures WhileRest(toks, c, m) == Success(Parsed(While(c, b), end))
    decreases b, 3
  {
    BracedOnPrinted(toks, m + 1, b, WhileBraceMsg, end);
    WhileRestStep(toks, c, m);
  }

  lemma {:induction false} IfOnPrinted(toks: seq<Token>, pos: nat, c: Expr, th: seq<Stmt>, end: nat)
    requires Stream(toks) && Printable(c) && BlockPrintable(th) && PrintedAt(toks, pos, Header(TokIf, c) + Braced(th))
    requires end == pos + 2 + |Print(c)| + 1 + |Braced(th)| && toks[end].kind != TokElse
    ensures ParseStatement(toks, pos) == Success(Parsed(If(c, th, NoElse), end))
    decreases th, 5
  {
    PrintedHeader(toks, pos, TokIf, c, Braced(th));
    var m := pos + 2 + |Print(c)|;
    IfFromParts(toks, pos + 1, c, m, th, end);
    IfDispatch(toks, pos, Success(Parsed(If(c, th, NoElse), end)));
  }

  /** `( cond ) { then }` printed after `if`, and no `else` next, parses back. */
  lemma {:induction false} IfFromParts(toks: seq<Token>, q: nat, c: Expr, m: nat, th: seq<Stmt>, end: nat)
    requires Stream(toks) && Printable(c) && BlockPrintable(th)
    requires q < |toks| && toks[q] == Punct(TokLParen) && PrintedAt(toks, q + 1, Print(c))
    requires m == q + 1 + |Print(c)| && toks[m] == Punct(TokRParen) && PrintedAt(toks, m + 1, Braced(th))
    requires end == m + 1 + |Braced(th)| && toks[end].kind != TokElse
    ensures ParseIf(toks, q) == Success(Parsed(If(c, th, NoElse), end))
    decreases th, 4
  {
    IfCondPart(toks, q, c, m);
    IfThenPart(toks, c, m, th, end);
    NoElseStep(toks, c, th, end);
  }

  /** `( cond )`: the if parser moves on to the then-block. */
  lemma IfCondPart(toks: seq<Token>, q: nat, c: Expr, m: nat)
    requires Stream(toks) && Printable(c)
    requires q < |toks| && toks[q] == Punct(TokLParen) && PrintedAt(toks, q + 1, Print(c))
    requires m == q + 1 + |Print(c)| && toks[m] == Punct(TokRParen)
    ensures ParseIf(toks, q) == IfRest(toks, c, m)
  {
    ExprOnPrinted(toks, q + 1, c);
    IfHead(toks, q, c, m);
  }

  /** `{ then }` after the condition's `)`: the if parser moves on to the
      optional else part. */
  lemma {:induction false} IfThenPart(toks: seq<Token>, c: Expr, m: nat, th: seq<Stmt>, n: nat)
    requires Stream(toks) && BlockPrintable(th)
    requires m < |toks| && toks[m] == Punct(TokRParen) && PrintedAt(toks, m + 1, Braced(th))
    requires n == m + 1 + |Braced(th)|
    ensures IfRest(toks, c, m) == ElsePart(toks, c, th, n)
    decreases th, 3
  {
    BracedOnPrinted(toks, m + 1, th, IfBraceMsg, n);
    IfRestStep(toks, c, m);
  }

  /** `else { body }` after the then-block. */
  lemma {:induction false} ElseBodyPart(toks: seq<Token>, c: Expr, th: seq<Stmt>, n: nat, el: seq<Stmt>, end: nat)
    requires Stream(toks) && BlockPrintable(el)
    requires n < |toks| && toks[n] == Punct(TokElse) && PrintedAt(toks, n + 1, Braced(el))
    requires end == n + 1 + |Braced(el)|
    ensures ElsePart(toks, c, th, n) == Success(Parsed(If(c, th, Else(el)), end))
    decreases el, 3
  {
    BracedOnPrinted(toks, n + 1, el, ElseBraceMsg, end);
    ElseStep(toks, c, th, n);
  }

  lemma {:induction false} IfElseOnPrinted(toks: seq<Token>, pos: nat, c: Expr, th: seq<Stmt>, el: seq<Stmt>, end: nat)
    requires Stream(toks) && Printable(c) && BlockPrintable(th) && BlockPrintable(el)
    requires PrintedAt(toks, pos, Header(TokIf, c) + (Braced(th) + [Punct(TokElse)] + Braced(el)))
    requires end == pos + 2 + |Print(c)| + 1 + |Braced(th)| + 1 + |Braced(el)|
    ensures ParseStatement(toks, pos) == Success(Parsed(If(c, th, Else(el)), end))
    decreases If(c, th, Else(el)), 4
  {
    var tail := Braced(th) + [Punct(TokElse)] + Braced(el);
    PrintedHeader(toks, pos, TokIf, c, tail);
    var m := pos + 2 + |Print(c)|;
    PrintedAround(toks, m + 1, Braced(th), Punct(TokElse), Braced(el));
    var n := m + 1 + |Braced(th)|;
    IfElseFromParts(toks, pos + 1, c, m, th, n, el, end);
    IfDispatch(toks, pos, Success(Parsed(If(c, th, Else(el)), end)));
  }

  /** `( cond ) { then } else { else }` printed after `if` parses back. */
  lemma {:induction false} IfElseFromParts(toks: seq<Token>, q: nat, c: Expr, m: nat, th: seq<Stmt>, n: nat, el: seq<Stmt>, end: nat)
    requires Stream(toks) && Printable(c) && BlockPrintable(th) && BlockPrintable(el)
    requires q < |toks| && toks[q] == Punct(TokLParen) && PrintedAt(toks, q + 1, Print(c))
    requires m == q + 1 + |Print(c)| && toks[m] == Punct(TokRParen) && PrintedAt(toks, m + 1, Braced(th))
    requires n == m + 1 + |Braced(th)| && toks[n] == Punct(TokElse) && PrintedAt(toks, n + 1, Braced(el))
    requires end == n + 1 + |Braced(el)|
    ensures ParseIf(toks, q) == Success(Parsed(If(c, th, Else(el)), end))
    decreases If(c, th, Else(el)), 3
  {
    IfCondPart(toks, q, c, m);
    IfThenPart(toks, c, m, th, n);
    ElseBodyPart(toks, c, th, n, el, end);
  }

  lemma ForInitOnPrinted(toks: seq<Token>, pos: nat, init: Option<Stmt>, end: nat)
    requires Stream(toks) && InitPrintable(init) && PrintedAt(toks, pos, PrintInit(init))
    requires end == pos + |PrintInit(init)| && toks[end] == Punct(TokSemicolon)
    ensures ParseForInit(toks, pos) == Success(Parsed(init, end))
  {
    if init.Some? {
      var st := init.value;
      if st.VarDecl? {
        DeclOnPrinted(toks, pos, st.ty, st.name, st.init, end, ForInitNameMsg);
      } else {
        PrintStart(st.expr);
        PrintedIndex(toks, pos, Print(st.expr), 0);
        ExprOnPrinted(toks, pos, st.expr);
      }
    }
    ForInitParsed(toks, pos, init, end);
  }

  lemma OptOnPrinted(toks: seq<Token>, pos: nat, e: Option<Expr>, stop: Kind, end: nat)
    requires Stream(toks) && OptPrintable(e) && PrintedAt(toks, pos, PrintOpt(e))
    requires stop == TokSemicolon || stop == TokRParen
    requires end == pos + |PrintOpt(e)| && toks[end] == Punct(stop)
    ensures ParseOptionalExpr(toks, pos, stop) == Success(Parsed(e, end))
  {
    if e.Some? {
      PrintStart(e.value);
      PrintedIndex(toks, pos, Print(e.value), 0);
      ExprOnPrinted(toks, pos, e.value);
    }
    OptionalParsed(toks, pos, stop, e, end);
  }

  lemma {:induction false} ForOnPrinted(toks: seq<Token>, pos: nat, init: Option<Stmt>, cond: Option<Expr>, incr: Option<Expr>, b: seq<Stmt>,
                                        end: nat)
    requires Stream(toks) && InitPrintable(init) && OptPrintable(cond) && OptPrintable(incr) && BlockPrintable(b)
    requires PrintedAt(toks, pos, ForHeader(init, cond, incr) + Braced(b))
    requires end == pos + 2 + |PrintInit(init)| + 1 + |PrintOpt(cond)| + 1 + |PrintOpt(incr)| + 1 + |Braced(b)|
    ensures ParseStatement(toks, pos) == Success(Parsed(For(init, cond, incr, b), end))
    decreases b, 5
  {
    var i := pos + 2 + |PrintInit(init)|;
    var j := i + 1 + |PrintOpt(cond)|;
    var k := j + 1 + |PrintOpt(incr)|;
    PrintedFor(toks, pos, init, cond, incr, b, i, j, k);
    ForFromParts(toks, pos + 1, init, i, cond, j, incr, k, b, end);
    ForDispatch(toks, pos, Success(Parsed(For(init, cond, incr, b), end)));
  }

  /** `( init ; cond ; incr ) { body }` printed after `for` parses back. */
  lemma {:induction false} ForFromParts(toks: seq<Token>, q: nat, init: Option<Stmt>, i: nat, cond: Option<Expr>, j: nat,
                                        incr: Option<Expr>, k: nat, b: seq<Stmt>, end: nat)
    requires Stream(toks) && InitPrintable(init) && OptPrintable(cond) && OptPrintable(incr) && BlockPrintable(b)
    requires q < |toks| && toks[q] == Punct(TokLParen) && PrintedAt(toks, q + 1, PrintInit(init))
    requires i == q + 1 + |PrintInit(init)| && toks[i] == Punct(TokSemicolon) && PrintedAt(toks, i + 1, PrintOpt(cond))
    requires j == i + 1 + |PrintOpt(cond)| && toks[j] == Punct(TokSemicolon) && PrintedAt(toks, j + 1, PrintOpt(incr))
    requires k == j + 1 + |PrintOpt(incr)| && toks[k] == Punct(TokRParen) && PrintedAt(toks, k + 1, Braced(b))
    requires end == k + 1 + |Braced(b)|
    ensures ParseFor(toks, q) == Success(Parsed(For(init, cond, incr, b), end))
    decreases b, 4
  {
    ForInitPart(toks, q, init, i);
    ForCondPart(toks, init, i, cond, j);
    ForIncrPart(toks, init, cond, j, incr, k);
    ForBodyPart(toks, init, cond, incr, k, b, end);
  }

  /** `( init`: the for parser moves on to the first `;`. */
  lemma ForInitPart(toks: seq<Token>, q: nat, init: Option<Stmt>, i: nat)
    requires Stream(toks) && InitPrintable(init)
    requires q < |toks| && toks[q] == Punct(TokLParen) && PrintedAt(toks, q + 1, PrintInit(init))
    requires i == q + 1 + |PrintInit(init)| && toks[i] == Punct(TokSemicolon)
    ensures ParseFor(toks, q) == ForCondition(toks, init, i)
  {
    ForInitOnPrinted(toks, q + 1, init, i);
    ForHead(toks, q, init, i);
  }

  /** `; cond`: the for parser moves on to the second `;`. */
  lemma ForCondPart(toks: seq<Token>, init: Option<Stmt>, i: nat, cond: Option<Expr>, j: nat)
    requires Stream(toks) && OptPrintable(cond)
    requires i < |toks| && toks[i] == Punct(TokSemicolon) && PrintedAt(toks, i + 1, PrintOpt(cond))
    requires j == i + 1 + |PrintOpt(cond)| && toks[j] == Punct(TokSemicolon)
    ensures ForCondition(toks, init, i) == ForIncrement(toks, init, cond, j)
  {
    OptOnPrinted(toks, i + 1, cond, TokSemicolon, j);
    ForConditionStep(toks, init, i, cond, j);
  }

  /** `; incr`: the for parser moves on to the `)`. */
  lemma ForIncrPart(toks: seq<Token>, init: Option<Stmt>, cond: Option<Expr>, j: nat, incr: Option<Expr>, k: nat)
    requires Stream(toks) && OptPrintable(incr)
    requires j < |toks| && toks[j] == Punct(TokSemicolon) && PrintedAt(toks, j + 1, PrintOpt(incr))
    requires k == j + 1 + |PrintOpt(incr)| && toks[k] == Punct(TokRParen)
    ensures ForIncrement(toks, init, cond, j) == ForRest(toks, init, cond, incr, k)
  {
    OptOnPrinted(toks, j + 1, incr, TokRParen, k);
    ForIncrementStep(toks, init, cond, j, incr, k);
  }

  /** `) { body }` closing the header. */
  lemma {:induction false} ForBodyPart(toks: seq<Token>, init: Option<Stmt>, cond: Option<Expr>, incr: Option<Expr>, k: nat, b: seq<Stmt>,
                                       end: nat)
    requires Stream(toks) && BlockPrintable(b)
    requires k < |toks| && toks[k] == Punct(TokRParen) && PrintedAt(toks, k + 1, Braced(b))
    requires end == k + 1 + |Braced(b)|
    ensures ForRest(toks, init, cond, incr, k) == Success(Parsed(For(init, cond, incr, b), end))
    decreases b, 3
  {
    BracedOnPrinted(toks, k + 1, b, ForBraceMsg, end);
    ForRestStep(toks, init, cond, incr, k);
  }

  // The printed form of each kind of statement

  lemma ExprStmtShape(s: Stmt)
    requires s.ExprStmt?
    ensures s == ExprStmt(s.expr) && PrintStmt(s) == Print(s.expr) + [Punct(TokSemicolon)]
    ensures |PrintStmt(s)| == |Print(s.expr)| + 1
    ensures StmtPrintable(s) ==> Printable(s.expr)
  {
  }

  lemma DeclShape(s: Stmt)
    requires s.VarDecl?
    ensures s == VarDecl(s.ty, s.name, s.init) && PrintStmt(s) == PrintDecl(s.ty, s.name, s.init) + [Punct(TokSemicolon)]
    ensures |PrintStmt(s)| == |PrintDecl(s.ty, s.name, s.init)| + 1
    ensures StmtPrintable(s) ==> DeclPrintable(s.ty, s.init)
  {
  }

  lemma ReturnShape(s: Stmt)
    requires s.Return?
    ensures s == Return(s.value) && PrintStmt(s) == [Punct(TokReturn)] + PrintOpt(s.value) + [Punct(TokSemicolon)]
    ensures |PrintStmt(s)| == |PrintOpt(s.value)| + 2
    ensures StmtPrintable(s) ==> OptPrintable(s.value)
  {
  }

  lemma WhileShape(s: Stmt)
    requires s.While?
    ensures s == While(s.whileCond, s.body) && PrintStmt(s) == Header(TokWhile, s.whileCond) + Braced(s.body)
    ensures |PrintStmt(s)| == |Print(s.whileCond)| + |Braced(s.body)| + 3
    ensures StmtPrintable(s) ==> Printable(s.whileCond) && BlockPrintable(s.body)
  {
  }

  lemma IfShape(s: Stmt)
    requires s.If? && s.elseBody.NoElse?
    ensures s == If(s.cond, s.thenBody, NoElse) && PrintStmt(s) == Header(TokIf, s.cond) + Braced(s.thenBody)
    ensures |PrintStmt(s)| == |Print(s.cond)| + |Braced(s.thenBody)| + 3
    ensures StmtPrintable(s) ==> Printable(s.cond) && BlockPrintable(s.thenBody)
  {
  }

  lemma IfElseShape(s: Stmt)
    requires s.If? && s.elseBody.Else?
    ensures s == If(s.cond, s.thenBody, Else(s.elseBody.elseStmts))
    ensures PrintStmt(s) == Header(TokIf, s.cond) + (Braced(s.thenBody) + [Punct(TokElse)] + Braced(s.elseBody.elseStmts))
    ensures |PrintStmt(s)| == |Print(s.cond)| + |Braced(s.thenBody)| + |Braced(s.elseBody.elseStmts)| + 4
    ensures StmtPrintable(s) ==> Printable(s.cond) && BlockPrintable(s.thenBody) && BlockPrintable(s.elseBody.elseStmts)
  {
  }

  lemma ForShape(s: Stmt)
    requires s.For?
    ensures s == For(s.forInit, s.forCond, s.forIncr, s.body)
    ensures PrintStmt(s) == ForHeader(s.forInit, s.forCond, s.forIncr) + Braced(s.body)
    ensures |PrintStmt(s)| == |PrintInit(s.forInit)| + |PrintOpt(s.forCond)| + |PrintOpt(s.forIncr)| + |Braced(s.body)| + 5
    ensures StmtPrintable(s) ==> InitPrintable(s.forInit) && OptPrintable(s.forCond) && OptPrintable(s.forIncr) && BlockPrintable(s.body)
  {
  }

  // Each kind of statement through its printed form

  lemma ExprStmtRead(toks: seq<Token>, pos: nat, s: Stmt, end: nat)
    requires Stream(toks) && s.ExprStmt? && StmtPrintable(s) && PrintedAt(toks, pos, PrintStmt(s))
    requires end == pos + |PrintStmt(s)|
    ensures ParseStatement(toks, pos) == Success(Parsed(s, end))
  {
    ExprStmtShape(s);
    ExprStmtOnPrinted(toks, pos, s.expr, end);
  }

  lemma DeclStmtRead(toks: seq<Token>, pos: nat, s: Stmt, end: nat)
    requires Stream(toks) && s.VarDecl? && StmtPrintable(s) && PrintedAt(toks, pos, PrintStmt(s))
    requires end == pos + |PrintStmt(s)|
    ensures ParseStatement(toks, pos) == Success(Parsed(s, end))
  {
    DeclShape(s);
    DeclStmtOnPrinted(toks, pos, s.ty, s.name, s.init, end);
  }

  lemma ReturnRead(toks: seq<Token>, pos: nat, s: Stmt, end: nat)
    requires Stream(toks) && s.Return? && StmtPrintable(s) && PrintedAt(toks, pos, PrintStmt(s))
    requires end == pos + |PrintStmt(s)|
    ensures ParseStatement(toks, pos) == Success(Parsed(s, end))
  {
    ReturnShape(s);
    ReturnOnPrinted(toks, pos, s.value, end);
  }

  lemma {:induction false} WhileRead(toks: seq<Token>, pos: nat, s: Stmt, end: nat)
    requires Stream(toks) && s.While? && StmtPrintable(s) && PrintedAt(toks, pos, PrintStmt(s))
    requires end == pos + |PrintStmt(s)|
    ensures ParseStatement(toks, pos) == Success(Parsed(s, end))
    decreases s, 6
  {
    WhileShape(s);
    WhileOnPrinted(toks, pos, s.whileCond, s.body, end);
  }

  lemma {:induction false} IfRead(toks: seq<Token>, pos: nat, s: Stmt, end: nat)
    requires Stream(toks) && s.If? && s.elseBody.NoElse? && StmtPrintable(s) && PrintedAt(toks, pos, PrintStmt(s))
    requires end == pos + |PrintStmt(s)| && toks[end].kind != TokElse
    ensures ParseStatement(toks, pos) == Success(Parsed(s, end))
    decreases s, 6
  {
    IfShape(s);
    IfOnPrinted(toks, pos, s.cond, s.thenBody, end);
  }

  lemma {:induction false} IfElseRead(toks: seq<Token>, pos: nat, s: Stmt, end: nat)
    requires Stream(toks) && s.If? && s.elseBody.Else? && StmtPrintable(s) && PrintedAt(toks, pos, PrintStmt(s))
    requires end == pos + |PrintStmt(s)|
    ensures ParseStatement(toks, pos) == Success(Parsed(s, end))
    decreases s, 6
  {
    IfElseShape(s);
    IfElseOnPrinted(toks, pos, s.cond, s.thenBody, s.elseBody.elseStmts, end);
  }

  lemma {:induction false} ForRead(toks: seq<Token>, pos: nat, s: Stmt, end: nat)
    requires Stream(toks) && s.For? && StmtPrintable(s) && PrintedAt(toks, pos, PrintStmt(s))
    requires end == pos + |PrintStmt(s)|
    ensures ParseStatement(toks, pos) == Success(Parsed(s, end))
    decreases s, 6
  {
    ForShape(s);
    ForOnPrinted(toks, pos, s.forInit, s.forCond, s.forIncr, s.body, end);
  }

  /** A printed statement parses back to itself, provided the token after
      it is not `else` (which would extend an if without else). */
  lemma {:induction false} StmtOnPrinted(toks: seq<Token>, pos: nat, s: Stmt, end: nat)
    requires Stream(toks) && StmtPrintable(s) && PrintedAt(toks, pos, PrintStmt(s))
    requires end == pos + |PrintStmt(s)| && toks[end].kind != TokElse
    ensures ParseStatement(toks, pos) == Success(Parsed(s, end))
    decreases s, 7
  {
    match s
    case ExprStmt(_) => ExprStmtRead(toks, pos, s, end);
    case VarDecl(_, _, _) => DeclStmtRead(toks, pos, s, end);
    case Return(_) => ReturnRead(toks, pos, s, end);
    case If(_, _, NoElse) => IfRead(toks, pos, s, end);
    case If(_, _, Else(_)) => IfElseRead(toks, pos, s, end);
    case While(_, _) => WhileRead(toks, pos, s, end);
    case For(_, _, _, _) => ForRead(toks, pos, s, end);
  }

  /** A printed braced block parses back to its statements. */
  lemma {:induction false} BracedOnPrinted(toks: seq<Token>, pos: nat, ss: seq<Stmt>, msg: string, end: nat)
    requires Stream(toks) && BlockPrintable(ss) && PrintedAt(toks, pos, Braced(ss))
    requires end == pos + |Braced(ss)|
    ensures ParseBraced(toks, pos, msg) == Success(Parsed(ss, end))
    decreases ss, 2
  {
    PrintedBraced(toks, pos, ss);
    var close := pos + 1 + |PrintBlock(ss)|;
    assert ParseBlock(toks, pos + 1, []) == Success(Parsed(ss, close)) by {
      BlockOnPrinted(toks, pos + 1, ss, [], close);
      assert [] + ss == ss;
    }
    BracedStep(toks, pos, msg);
  }

  /** A printed block split after its first statement: both parts, and
      the tokens the block loop tests at each boundary. */
  lemma BlockLayout(toks: seq<Token>, pos: nat, w: seq<Token>, a: seq<Token>, b: seq<Token>, end: nat) returns (mid: nat)
    requires w == a + b && PrintedAt(toks, pos, w) && end == pos + |w| && toks[end] == Punct(TokRBrace)
    requires |a| > 0 && StmtLead(a[0].kind) && (|b| > 0 ==> StmtLead(b[0].kind))
    ensures mid == pos + |a| && end == mid + |b|
    ensures PrintedAt(toks, pos, a) && PrintedAt(toks, mid, b)
    ensures toks[pos].kind != TokRBrace && toks[mid].kind != TokElse
  {
    mid := pos + |a|;
    PrintedSplit(toks, pos, a, b);
    PrintedIndex(toks, pos, a, 0);
    if |b| > 0 {
      PrintedIndex(toks, mid, b, 0);
    }
  }

  lemma AppendFirst(acc: seq<Stmt>, ss: seq<Stmt>)
    requires |ss| > 0
    ensures acc + [ss[0]] + ss[1..] == acc + ss
  {
  }

  /** The printed block is its first statement followed by the rest. */
  lemma BlockUnfold(ss: seq<Stmt>)
    requires |ss| > 0 && BlockPrintable(ss)
    ensures PrintBlock(ss) == PrintStmt(ss[0]) + PrintBlock(ss[1..])
    ensures StmtPrintable(ss[0]) && BlockPrintable(ss[1..])
  {
  }

  /** A non-empty printed block: its first statement, the rest from `mid`,
      and the tokens the block loop tests at each boundary. */
  lemma BlockHead(toks: seq<Token>, pos: nat, ss: seq<Stmt>, end: nat) returns (mid: nat)
    requires |ss| > 0 && BlockPrintable(ss) && PrintedAt(toks, pos, PrintBlock(ss))
    requires end == pos + |PrintBlock(ss)| && toks[end] == Punct(TokRBrace)
    ensures StmtPrintable(ss[0]) && BlockPrintable(ss[1..])
    ensures PrintedAt(toks, pos, PrintStmt(ss[0])) && PrintedAt(toks, mid, PrintBlock(ss[1..]))
    ensures toks[pos].kind != TokRBrace && toks[mid].kind != TokElse
    ensures mid == pos + |PrintStmt(ss[0])| && end == mid + |PrintBlock(ss[1..])|
  {
    BlockUnfold(ss);
    StmtStart(ss[0]);
    if |ss| > 1 {
      BlockStart(ss[1..]);
    }
    mid := BlockLayout(toks, pos, PrintBlock(ss), PrintStmt(ss[0]), PrintBlock(ss[1..]), end);
  }

  /** One more statement of the block loop: the statement at `pos` is the
      first of `ss`, and the loop from `mid` reads the rest. */
  lemma BlockCons(toks: seq<Token>, pos: nat, acc: seq<Stmt>, ss: seq<Stmt>, mid: nat, end: nat)
    requires Stream(toks) && pos < |toks| && toks[pos].kind != TokRBrace && |ss| > 0
    requires ParseStatement(toks, pos) == Success(Parsed(ss[0], mid))
    requires ParseBlock(toks, mid, acc + [ss[0]]) == Success(Parsed(acc + [ss[0]] + ss[1..], end))
    ensures ParseBlock(toks, pos, acc) == Success(Parsed(acc + ss, end))
  {
    BlockNext(toks, pos, acc, ss[0], mid);
    AppendFirst(acc, ss);
  }

  /** The statements of a printed block, up to its `}`, are appended to
      the accumulator. */
  lemma {:induction false} BlockOnPrinted(toks: seq<Token>, pos: nat, ss: seq<Stmt>, acc: seq<Stmt>, end: nat)
    requires Stream(toks) && BlockPrintable(ss) && PrintedAt(toks, pos, PrintBlock(ss))
    requires end == pos + |PrintBlock(ss)| && toks[end] == Punct(TokRBrace)
    ensures ParseBlock(toks, pos, acc) == Success(Parsed(acc + ss, end))
    decreases ss, 1
  {
    if |ss| == 0 {
      assert acc + ss == acc;
      BlockEnds(toks, pos, acc);
    } else {
      var mid := BlockHead(toks, pos, ss, end);
      StmtOnPrinted(toks, pos, ss[0], mid);
      BlockOnPrinted(toks, mid, ss[1..], acc + [ss[0]], end);
      BlockCons(toks, pos, acc, ss, mid, end);
    }
  }

}

=== FILE: scope.dfy ===
/** The scope chain of semantics/scope.h. A chain of `Scope` objects linked
    by parent pointers becomes a sequence of symbol tables, root first: the
    last table is the current scope and the table before each one is its
    parent. */
module Scope {
  import opened Wrappers
  import opened Tokens

  /** What the analyser records for a declared name. Variables and
      parameters have no parameter list. */
  datatype Symbol = Symbol(name: string, ty: TypeKind, isFunction: bool, params: seq<TypeKind>)

  type Table = map<string, Symbol>

  type Chain = seq<Table>

  /** `Scope()`: a root scope with an empty table and no parent. */
  function Root(): (c: Chain)
    ensures |c| == 1 && c[0] == map[]
  {
    [map[]]
  }

  function Current(c: Chain): Table
    requires |c| > 0
  {
    c[|c| - 1]
  }

  /** The chain of the parent scope. */
  function Parent(c: Chain): (p: Chain)
    requires |c| > 1
    ensures |p| == |c| - 1
  {
    c[..|c| - 1]
  }

  /** `Scope(p)`: a fresh empty scope whose parent is the current one. */
  function Push(c: Chain): (r: Chain)
    requires |c| > 0
    ensures |r| == |c| + 1 && Parent(r) == c && Current(r) == map[]
  {
    c + [map[]]
  }

  /** `insert`: bind `name` in the current table unless that table already
      binds it; the flag says whether the binding was made. Tables further
      up the chain play no part. */
  function Insert(c: Chain, name: string, sym: Symbol): (r: (bool, Chain))
    requires |c| > 0
    ensures r.0 <==> name !in Current(c)
    ensures !r.0 ==> r.1 == c
    ensures r.0 ==> |r.1| == |c| && r.1[..|c| - 1] == c[..|c| - 1]
    ensures r.0 ==> Current(r.1) == Current(c)[name := sym]
  {
    if name in Current(c) then (false, c)
    else (true, c[..|c| - 1] + [Current(c)[name := sym]])
  }

  /** The index of the innermost table that binds `name`, if any. */
  ghost predicate InnermostAt(c: Chain, name: string, i: int) {
    0 <= i < |c| && name in c[i] && forall j :: i < j < |c| ==> name !in c[j]
  }

  /** `lookup`: the binding in the current table, else the parent's lookup,
      else nothing at the root. */
  function Lookup(c: Chain, name: string): (r: Option<Symbol>)
    ensures r.None? <==> forall i :: 0 <= i < |c| ==> name !in c[i]
    ensures r.Some? ==> exists i :: 0 <= i < |c| && name in c[i] && c[i][name] == r.value
    decreases |c|
  {
    if |c| == 0 then None
    else if name in Current(c) then Some(Current(c)[name])
    else
      var parent := c[..|c| - 1];
      assert forall i :: 0 <= i < |parent| ==> parent[i] == c[i];
      Lookup(parent, name)
  }

  /** Lookup finds nothing exactly when no table of the chain binds the
      name, and otherwise the binding of a table no later table overrides. */
  lemma {:induction false} LookupSpec(c: Chain, name: string)
    ensures Lookup(c, name).None? <==> forall i :: 0 <= i < |c| ==> name !in c[i]
    ensures Lookup(c, name).Some? ==> exists i :: InnermostAt(c, name, i) && c[i][name] == Lookup(c, name).value
    decreases |c|
  {
    if |c| == 0 {
    } else if name in Current(c) {
      assert InnermostAt(c, name, |c| - 1);
    } else {
      var parent := c[..|c| - 1];
      LookupSpec(parent, name);
      var r := Lookup(parent, name);
      if r.Some? {
        var i :| InnermostAt(parent, name, i) && parent[i][name] == r.value;
        assert InnermostAt(c, name, i);
      } else {
        forall i | 0 <= i < |c| ensures name !in c[i] {
          if i < |c| - 1 { assert parent[i] == c[i]; }
        }
      }
    }
  }

  /** A binding in the current table shadows every same-named binding
      further up the chain. */
  lemma LookupShadows(c: Chain, name: string, i: nat)
    requires 0 < |c| && name in Current(c) && i < |c| - 1 && name in c[i]
    ensures Lookup(c, name) == Some(Current(c)[name])
    ensures c[i][name] != Current(c)[name] ==> Lookup(c, name) != Some(c[i][name])
  {
  }

  /** Lookup returns exactly the binding of the innermost table that has the
      name: the innermost index is unique. */
  lemma {:induction false} LookupInnermost(c: Chain, name: string, i: int)
    requires InnermostAt(c, name, i)
    ensures Lookup(c, name) == Some(c[i][name])
  {
    LookupSpec(c, name);
    var r := Lookup(c, name);
    assert r.Some?;
    var j :| InnermostAt(c, name, j) && c[j][name] == r.value;
    assert i == j;
  }

  /** A fresh scope binds nothing, so every lookup falls through to the
      enclosing chain. */
  lemma LookupPush(c: Chain, name: string)
    requires |c| > 0
    ensures Lookup(Push(c), name) == Lookup(c, name)
  {
    assert Push(c)[..|Push(c)| - 1] == c;
  }

  /** A successful insert makes the new symbol visible under its name and
      changes the lookup of no other name; a failed one changes nothing. */
  lemma {:induction false} LookupAfterInsert(c: Chain, name: string, sym: Symbol, other: string)
    requires |c| > 0
    ensures Insert(c, name, sym).0 ==> Lookup(Insert(c, name, sym).1, name) == Some(sym)
    ensures other != name ==> Lookup(Insert(c, name, sym).1, other) == Lookup(c, other)
  {
    var (ok, d) := Insert(c, name, sym);
    if ok {
      assert d[..|d| - 1] == c[..|c| - 1];
    }
  }
}

=== FILE: semantics.dfy ===
/** The semantic analyser of semantics/semantic_analyzer.cpp. The analyser's
    two fields, the current scope and the current return type, become a
    `State` value threaded through pure functions; the scope is the chain of
    scope.h, root first. Every fatal `error()` becomes an `Err` naming its
    cause; `Message` gives the text the source prints for it. */
module Semantics {
  import opened Wrappers
  import opened Tokens
  import opened Ast
  import opened Scope

  /** The causes of the analyser's fatal errors. */
  datatype SemanticError =
    | UndefinedVariable(name: string)
    | BinaryTypeMismatch
    | IncDecNotInteger
    | InvalidExpression
    | UndefinedFunction(name: string)
    | CallToNonFunction(name: string)
    | ArgumentCountMismatch
    | VariableRedefinition(name: string)
    | DeclarationTypeMismatch
    | ReturnTypeMismatch
    | ReturnValueExpected
    | ParentScopeNotFound
    | ParameterRedefinition(name: string)
    | ExternNotAtTopLevel
    | ExternRedefinition(name: string)
    | FunctionRedefinition(name: string)

  /** The text `error()` prints (after its "Semantic Error: " prefix). */
  function Message(e: SemanticError): string {
    match e
    case UndefinedVariable(n) => "Undefined variable " + n
    case BinaryTypeMismatch => "Type mismatch in binary expression"
    case IncDecNotInteger => "Operand of increment/decrement must be an integer"
    case InvalidExpression => "Invalid expression"
    case UndefinedFunction(n) => "Undefined function " + n
    case CallToNonFunction(n) => "Call to non-function " + n
    case ArgumentCountMismatch => "Argument count mismatch in function call"
    case VariableRedefinition(n) => "Redefinition of variable " + n
    case DeclarationTypeMismatch => "Type mismatch in variable declaration"
    case ReturnTypeMismatch => "Type mismatch in return statement"
    case ReturnValueExpected => "Return statement expected"
    case ParentScopeNotFound => "Parent scope not found"
    case ParameterRedefinition(n) => "Redefinition of parameter " + n
    case ExternNotAtTopLevel => "External declarations must be at the top level"
    case ExternRedefinition(n) => "Redefinition of external declaration " + n
    case FunctionRedefinition(n) => "Redefinition of function " + n
  }

  /** The errors an expression can raise. */
  predicate IsExprError(e: SemanticError) {
    || e.UndefinedVariable?
    || e.BinaryTypeMismatch?
    || e.IncDecNotInteger?
    || e.InvalidExpression?
    || e.UndefinedFunction?
    || e.CallToNonFunction?
    || e.ArgumentCountMismatch?
  }

  /** The errors a statement can raise. */
  predicate IsStmtError(e: SemanticError) {
    || IsExprError(e)
    || e.VariableRedefinition?
    || e.DeclarationTypeMismatch?
    || e.ReturnTypeMismatch?
    || e.ReturnValueExpected?
  }

  datatype Outcome<+T> = Ok(value: T) | Err(error: SemanticError) {

    predicate IsFailure() {
      Err?
    }

    function PropagateFailure<U>(): Outcome<U>
      requires Err?
    {
      Err(error)
    }

    function Extract(): T
      requires Ok?
    {
      value
    }
  }

  /** The analyser's mutable fields: the scope chain ending in the current
      scope, and the return type of the function being analysed. */
  datatype State = State(scopes: Chain, returnType: TypeKind)

  predicate Valid(st: State) {
    |st.scopes| > 0
  }

  /** Every binding of `a` is still in `b`, unchanged. */
  predicate Extends(a: Table, b: Table) {
    forall n :: n in a ==> n in b && b[n] == a[n]
  }

  /** `b`'s chain is `a`'s after work confined to the current scope: same
      depth, the same enclosing tables, and the current table only gained
      bindings. */
  predicate Confined(a: State, b: State) {
    && Valid(a)
    && |b.scopes| == |a.scopes|
    && b.scopes[..|a.scopes| - 1] == a.scopes[..|a.scopes| - 1]
    && Extends(Current(a.scopes), Current(b.scopes))
  }

  /** Confined work that also kept the return type. */
  predicate Preserves(a: State, b: State) {
    Confined(a, b) && b.returnType == a.returnType
  }

  /** `enterScope`: a fresh, empty current scope whose parent is the old
      one. */
  function EnterScope(st: State): (r: State)
    requires Valid(st)
    ensures Valid(r) && |r.scopes| == |st.scopes| + 1
    ensures Parent(r.scopes) == st.scopes && Current(r.scopes) == map[]
    ensures r.returnType == st.returnType
  {
    st.(scopes := Push(st.scopes))
  }

  /** `leaveScope`: back to the parent scope; the root has none. */
  function LeaveScope(st: State): (r: Outcome<State>)
    requires Valid(st)
    ensures r.Ok? <==> |st.scopes| > 1
    ensures r.Ok? ==> Valid(r.value) && r.value.scopes + [Current(st.scopes)] == st.scopes
    ensures r.Ok? ==> r.value.returnType == st.returnType
    ensures r.Err? ==> r.error == ParentScopeNotFound
  {
    if |st.scopes| == 1 then Err(ParentScopeNotFound)
    else Ok(st.(scopes := Parent(st.scopes)))
  }

  /** Leaving a scope just entered restores the state exactly. */
  lemma LeaveAfterEnter(st: State)
    requires Valid(st)
    ensures LeaveScope(EnterScope(st)) == Ok(st)
  {
  }

  /** `analyzeExpression`: the type of `e` in scope chain `c`. Literals have
      their own type, identifiers the type of their innermost binding, a
      binary expression the type of its left operand once both operand
      types agree (whatever the operator), and a call the type of the callee
      symbol once the argument count matches (argument types are analysed
      but never compared). Unary and assignment expressions fall through to
      "Invalid expression". */
  function AnalyzeExpr(c: Chain, e: Expr): (r: Outcome<TypeKind>)
    ensures r.Err? ==> IsExprError(r.error)
    ensures e.Assign? ==> r == Err(InvalidExpression)
    ensures e.Unary? && AnalyzeExpr(c, e.operand).Err? ==> r == AnalyzeExpr(c, e.operand)
    ensures e.Unary? && AnalyzeExpr(c, e.operand).Ok? ==>
      r == Err(if (e.op == PlusPlus || e.op == MinusMinus) && AnalyzeExpr(c, e.operand).value != INT
               then IncDecNotInteger else InvalidExpression)
    ensures e.Binary? && r.Ok? ==> AnalyzeExpr(c, e.left) == r && AnalyzeExpr(c, e.right) == r
    ensures e.Binary? && AnalyzeExpr(c, e.left).Ok? && AnalyzeExpr(c, e.right).Ok? ==>
      (AnalyzeExpr(c, e.left) != AnalyzeExpr(c, e.right) ==> r == Err(BinaryTypeMismatch))
    ensures e.Binary? && AnalyzeExpr(c, e.left).Err? ==> r == AnalyzeExpr(c, e.left)
    ensures e.Binary? && AnalyzeExpr(c, e.left).Ok? && AnalyzeExpr(c, e.right).Err? ==>
      r == AnalyzeExpr(c, e.right)
    ensures e.Call? && Lookup(c, e.callee).Some? && Lookup(c, e.callee).value.isFunction &&
            |Lookup(c, e.callee).value.params| == |e.args| ==>
      (r.Ok? <==> AnalyzeArgs(c, e.args).Ok?) &&
      (r.Ok? ==> r.value == Lookup(c, e.callee).value.ty) &&
      (r.Err? ==> AnalyzeArgs(c, e.args) == Err(r.error))
    decreases e, 1
  {
    match e
    case IntLit(_) => Ok(INT)
    case FloatLit(_, _) => Ok(FLOAT)
    case BoolLit(_) => Ok(BOOL)
    case StringLit(_) => Ok(STRING)
    case CharLit(_) => Ok(CHAR)
    case Identifier(n) =>
      (match Lookup(c, n)
       case Some(sym) => Ok(sym.ty)
       case None => Err(UndefinedVariable(n)))
    case Binary(_, left, right) =>
      var lt :- AnalyzeExpr(c, left);
      var rt :- AnalyzeExpr(c, right);
      if lt != rt then Err(BinaryTypeMismatch) else Ok(lt)
    case Unary(op, operand) =>
      var t :- AnalyzeExpr(c, operand);
      if (op == PlusPlus || op == MinusMinus) && t != INT then Err(IncDecNotInteger)
      else Err(InvalidExpression)
    case Call(callee, args) =>
      (match Lookup(c, callee)
       case None => Err(UndefinedFunction(callee))
       case Some(f) =>
         if !f.isFunction then Err(CallToNonFunction(callee))
         else if |f.params| != |args| then Err(ArgumentCountMismatch)
         else
           var _ :- AnalyzeArgs(c, args);
           Ok(f.ty))
    case Assign(_, _) => Err(InvalidExpression)
  }

  /** The loop over a call's arguments: each is analysed in order and the
      first failure is fatal. */
  function AnalyzeArgs(c: Chain, args: seq<Expr>): (r: Outcome<seq<TypeKind>>)
    ensures r.Err? ==> IsExprError(r.error)
    ensures r.Ok? ==> |r.value| == |args|
    ensures r.Ok? ==> forall k :: 0 <= k < |args| ==> AnalyzeExpr(c, args[k]) == Ok(r.value[k])
    ensures |args| > 0 && AnalyzeExpr(c, args[0]).Err? ==> r == Err(AnalyzeExpr(c, args[0]).error)
    decreases args, 0
  {
    if |args| == 0 then Ok([])
    else
      var t :- AnalyzeExpr(c, args[0]);
      var ts :- AnalyzeArgs(c, args[1..]);
      assert forall k :: 1 <= k < |args| ==> args[1..][k - 1] == args[k];
      Ok([t] + ts)
  }

  /** The typing judgement the analyser decides, stated on the innermost
      binding of each name rather than through `Lookup`. */
  ghost predicate Typed(c: Chain, e: Expr, t: TypeKind)
    decreases e, 1
  {
    match e
    case IntLit(_) => t == INT
    case FloatLit(_, _) => t == FLOAT
    case BoolLit(_) => t == BOOL
    case StringLit(_) => t == STRING
    case CharLit(_) => t == CHAR
    case Identifier(n) => exists i :: InnermostAt(c, n, i) && c[i][n].ty == t
    case Binary(_, left, right) => Typed(c, left, t) && Typed(c, right, t)
    case Unary(_, _) => false
    case Assign(_, _) => false
    case Call(callee, args) =>
      && (exists i :: InnermostAt(c, callee, i) && c[i][callee].isFunction
                        && |c[i][callee].params| == |args| && c[i][callee].ty == t)
      && AllTyped(c, args)
  }

  /** Every expression of `args` has some type. */
  ghost predicate AllTyped(c: Chain, args: seq<Expr>)
    decreases args, 0
  {
    |args| == 0 || ((exists u :: Typed(c, args[0], u)) && AllTyped(c, args[1..]))
  }

  /** A name's lookup succeeds with a symbol satisfying `P` exactly when
      the innermost table binding the name binds it to such a symbol. */
  lemma LookupMeetsInnermost(c: Chain, n: string, p: Symbol -> bool)
    ensures (Lookup(c, n).Some? && p(Lookup(c, n).value))
            <==> exists i :: InnermostAt(c, n, i) && p(c[i][n])
  {
    if exists i :: InnermostAt(c, n, i) && p(c[i][n]) {
      var i :| InnermostAt(c, n, i) && p(c[i][n]);
      LookupInnermost(c, n, i);
    } else if Lookup(c, n).Some? {
      LookupSpec(c, n);
      var i :| InnermostAt(c, n, i) && c[i][n] == Lookup(c, n).value;
      assert !p(c[i][n]);
    }
  }

  /** The analyser decides the typing judgement: it returns type `t` for
      `e` exactly when `e` has type `t`. */
  lemma {:induction false} AnalyzeExprDecidesTyped(c: Chain, e: Expr, t: TypeKind)
    ensures AnalyzeExpr(c, e) == Ok(t) <==> Typed(c, e, t)
    decreases e, 1
  {
    match e
    case Identifier(n) =>
      LookupMeetsInnermost(c, n, (sym: Symbol) => sym.ty == t);
    case Binary(_, left, right) =>
      AnalyzeExprDecidesTyped(c, left, t);
      AnalyzeExprDecidesTyped(c, right, t);
    case Call(callee, args) =>
      CallDecidesTyped(c, callee, args, t);
    case _ =>
  }

  /** The call case of `AnalyzeExprDecidesTyped`. */
  lemma {:induction false} CallDecidesTyped(c: Chain, callee: string, args: seq<Expr>, t: TypeKind)
    ensures AnalyzeExpr(c, Call(callee, args)) == Ok(t) <==> Typed(c, Call(callee, args), t)
    decreases args, 1
  {
    AnalyzeArgsDecideTyped(c, args);
    LookupMeetsInnermost(c, callee, (sym: Symbol) => sym.isFunction && |sym.params| == |args| && sym.ty == t);
  }

  /** The argument loop succeeds exactly when every argument has some
      type. */
  lemma {:induction false} AnalyzeArgsDecideTyped(c: Chain, args: seq<Expr>)
    ensures AnalyzeArgs(c, args).Ok? <==> AllTyped(c, args)
    decreases args, 0
  {
    if |args| > 0 {
      AnalyzeArgsDecideTyped(c, args[1..]);
      match AnalyzeExpr(c, args[0])
      case Ok(u) =>
        AnalyzeExprDecidesTyped(c, args[0], u);
      case Err(_) =>
        forall u | true
          ensures !Typed(c, args[0], u)
        {
          AnalyzeExprDecidesTyped(c, args[0], u);
        }
    }
  }

  /** A name no table binds is an undefined variable. */
  lemma UnboundIdentifier(c: Chain, n: string)
    requires forall i :: 0 <= i < |c| ==> n !in c[i]
    ensures AnalyzeExpr(c, Identifier(n)) == Err(UndefinedVariable(n))
  {
    LookupSpec(c, n);
  }

  /** A name has the type of its innermost binding, whatever outer tables
      bind it to. */
  lemma BoundIdentifier(c: Chain, n: string, i: int)
    requires InnermostAt(c, n, i)
    ensures AnalyzeExpr(c, Identifier(n)) == Ok(c[i][n].ty)
  {
    LookupInnermost(c, n, i);
  }

  /** A call of a name no table binds is a call of an undefined function. */
  lemma UnboundCallee(c: Chain, f: string, args: seq<Expr>)
    requires forall i :: 0 <= i < |c| ==> f !in c[i]
    ensures AnalyzeExpr(c, Call(f, args)) == Err(UndefinedFunction(f))
  {
    LookupSpec(c, f);
  }

  /** A call of a name whose innermost binding is a variable or parameter
      fails, before any argument is looked at. */
  lemma CallOfVariable(c: Chain, f: string, args: seq<Expr>, i: int)
    requires InnermostAt(c, f, i) && !c[i][f].isFunction
    ensures AnalyzeExpr(c, Call(f, args)) == Err(CallToNonFunction(f))
  {
    LookupInnermost(c, f, i);
  }

  /** A call with more or fewer arguments than the innermost function
      binding has parameters fails, before any argument is looked at. */
  lemma CallArityMismatch(c: Chain, f: string, args: seq<Expr>, i: int)
    requires InnermostAt(c, f, i) && c[i][f].isFunction && |c[i][f].params| != |args|
    ensures AnalyzeExpr(c, Call(f, args)) == Err(ArgumentCountMismatch)
  {
    LookupInnermost(c, f, i);
  }

  /** Argument types are never compared with parameter types: a call of the
      right arity whose arguments all type has the callee's type. */
  lemma CallIgnoresArgumentTypes(c: Chain, f: string, args: seq<Expr>, i: int)
    requires InnermostAt(c, f, i) && c[i][f].isFunction && |c[i][f].params| == |args|
    requires forall k :: 0 <= k < |args| ==> AnalyzeExpr(c, args[k]).Ok?
    ensures AnalyzeExpr(c, Call(f, args)) == Ok(c[i][f].ty)
  {
    LookupInnermost(c, f, i);
    AnalyzeArgsSucceed(c, args);
  }

  /** The argument loop succeeds when every argument does. */
  lemma {:induction false} AnalyzeArgsSucceed(c: Chain, args: seq<Expr>)
    requires forall k :: 0 <= k < |args| ==> AnalyzeExpr(c, args[k]).Ok?
    ensures AnalyzeArgs(c, args).Ok?
    decreases |args|
  {
    if |args| > 0 {
      assert AnalyzeExpr(c, args[0]).Ok?;
      assert forall k :: 0 <= k < |args| - 1 ==> args[1..][k] == args[k + 1];
      AnalyzeArgsSucceed(c, args[1..]);
    }
  }

  /** The symbol a declaration `ty name` binds: a variable or parameter. */
  function VariableSymbol(ty: TypeKind, name: string): Symbol {
    Symbol(name, ty, false, [])
  }

  /** The parameter types of a signature, in order. */
  function ParamTypes(ps: seq<Param>): (ts: seq<TypeKind>)
    ensures |ts| == |ps| && forall k :: 0 <= k < |ps| ==> ts[k] == ps[k].ty
  {
    seq(|ps|, k requires 0 <= k < |ps| => ps[k].ty)
  }

  /** The chain after a declaration `ty name` has been bound in the current
      table (when the table did not bind the name yet). */
  function Declare(c: Chain, ty: TypeKind, name: string): (d: Chain)
    requires |c| > 0
    ensures name !in Current(c) ==> |d| == |c| && d[..|c| - 1] == c[..|c| - 1]
    ensures name !in Current(c) ==> Current(d) == Current(c)[name := VariableSymbol(ty, name)]
  {
    Insert(c, name, VariableSymbol(ty, name)).1
  }

  /** `analyzeStatement`. An expression statement is analysed for its
      errors only; a declaration is bound in the current scope before its
      initializer is analysed, and the initializer must have exactly the
      declared type; a return value must have exactly the current return
      type and a bare return needs VOID; a block runs in a scope of its own;
      `if`, `while` and `for` are not examined at all. */
  function AnalyzeStmt(st: State, s: Stmt): (r: Outcome<State>)
    requires Valid(st)
    ensures r.Ok? ==> Preserves(st, r.value)
    ensures r.Err? ==> IsStmtError(r.error)
    ensures s.ExprStmt? ==> (r.Ok? <==> AnalyzeExpr(st.scopes, s.expr).Ok?) && (r.Ok? ==> r.value == st)
    ensures s.ExprStmt? && r.Err? ==> AnalyzeExpr(st.scopes, s.expr) == Err(r.error)
    ensures s.VarDecl? && s.name in Current(st.scopes) ==> r == Err(VariableRedefinition(s.name))
    ensures s.VarDecl? && s.name !in Current(st.scopes) && s.init.None? ==> r.Ok?
    ensures s.VarDecl? && r.Ok? ==>
      Current(r.value.scopes) == Current(st.scopes)[s.name := VariableSymbol(s.ty, s.name)]
    ensures s.VarDecl? && s.name !in Current(st.scopes) && s.init.Some? ==>
      (r.Ok? <==> AnalyzeExpr(Declare(st.scopes, s.ty, s.name), s.init.value) == Ok(s.ty))
    ensures s.VarDecl? && s.name !in Current(st.scopes) && s.init.Some? && r.Err? ==>
      (AnalyzeExpr(Declare(st.scopes, s.ty, s.name), s.init.value).Ok? ==> r.error == DeclarationTypeMismatch)
    ensures s.VarDecl? && s.name !in Current(st.scopes) && s.init.Some? &&
            AnalyzeExpr(Declare(st.scopes, s.ty, s.name), s.init.value).Err? ==>
      r == Err(AnalyzeExpr(Declare(st.scopes, s.ty, s.name), s.init.value).error)
    ensures s.Return? && s.value.None? ==> (r.Ok? <==> st.returnType == VOID)
    ensures s.Return? && s.value.None? && r.Err? ==> r.error == ReturnValueExpected
    ensures s.Return? && s.value.Some? ==> (r.Ok? <==> AnalyzeExpr(st.scopes, s.value.value) == Ok(st.returnType))
    ensures s.Return? && s.value.Some? && r.Err? && AnalyzeExpr(st.scopes, s.value.value).Ok? ==>
      r.error == ReturnTypeMismatch
    ensures s.Return? && s.value.Some? && AnalyzeExpr(st.scopes, s.value.value).Err? ==>
      r == Err(AnalyzeExpr(st.scopes, s.value.value).error)
    ensures s.Block? && r.Ok? ==> r.value == st
    ensures s.Block? ==> (r.Ok? <==> AnalyzeStmts(EnterScope(st), s.stmts).Ok?)
    ensures s.Block? && r.Err? ==> AnalyzeStmts(EnterScope(st), s.stmts) == Err(r.error)
    ensures s.If? || s.While? || s.For? ==> r == Ok(st)
    decreases s, 1
  {
    match s
    case ExprStmt(e) =>
      var _ :- AnalyzeExpr(st.scopes, e);
      Ok(st)
    case VarDecl(ty, name, init) =>
      if name in Current(st.scopes) then Err(VariableRedefinition(name))
      else
        var scopes := Declare(st.scopes, ty, name);
        var declared := st.(scopes := scopes);
        (match init
         case None => Ok(declared)
         case Some(x) =>
           var t :- AnalyzeExpr(scopes, x);
           if t != ty then Err(DeclarationTypeMismatch) else Ok(declared))
    case Return(value) =>
      (match value
       case Some(x) =>
         var t :- AnalyzeExpr(st.scopes, x);
         if t != st.returnType then Err(ReturnTypeMismatch) else Ok(st)
       case None =>
         if st.returnType != VOID then Err(ReturnValueExpected) else Ok(st))
    case Block(body) =>
      var inner :- AnalyzeStmts(EnterScope(st), body);
      LeaveScope(inner)
    case If(_, _, _) => Ok(st)
    case While(_, _) => Ok(st)
    case For(_, _, _, _) => Ok(st)
  }

  /** A statement list, analysed in order; the first failure is fatal. */
  function AnalyzeStmts(st: State, ss: seq<Stmt>): (r: Outcome<State>)
    requires Valid(st)
    ensures r.Ok? ==> Preserves(st, r.value)
    ensures r.Err? ==> IsStmtError(r.error)
    decreases ss, 0
  {
    if |ss| == 0 then Ok(st)
    else
      var next :- AnalyzeStmt(st, ss[0]);
      AnalyzeStmts(next, ss[1..])
  }

  /** A declaration is bound before its initializer is analysed, so
      `ty x = x;` is accepted for any name the current table does not bind
      yet, even one no table binds at all. */
  lemma SelfInitializedDeclaration(st: State, ty: TypeKind, n: string)
    requires Valid(st) && n !in Current(st.scopes)
    ensures AnalyzeStmt(st, VarDecl(ty, n, Some(Identifier(n)))) == Ok(st.(scopes := Declare(st.scopes, ty, n)))
  {
    LookupAfterInsert(st.scopes, n, VariableSymbol(ty, n), n);
  }

  /** A declaration may reuse a name an enclosing scope binds; afterwards the
      name denotes the new variable. */
  lemma DeclarationShadows(st: State, ty: TypeKind, n: string, other: string)
    requires Valid(st) && n !in Current(st.scopes)
    ensures AnalyzeStmt(st, VarDecl(ty, n, None)).Ok?
    ensures Lookup(AnalyzeStmt(st, VarDecl(ty, n, None)).value.scopes, n) == Some(VariableSymbol(ty, n))
    ensures other != n ==> Lookup(AnalyzeStmt(st, VarDecl(ty, n, None)).value.scopes, other) == Lookup(st.scopes, other)
  {
    LookupAfterInsert(st.scopes, n, VariableSymbol(ty, n), other);
  }

  /** A block runs in a scope of its own: it may redeclare a name the
      current table binds, which the same declaration outside the block may
      not, and the state after it is the state before it. */
  lemma BlockRedeclares(st: State, ty: TypeKind, n: string)
    requires Valid(st) && n in Current(st.scopes)
    ensures AnalyzeStmt(st, VarDecl(ty, n, None)) == Err(VariableRedefinition(n))
    ensures AnalyzeStmt(st, Block([VarDecl(ty, n, None)])) == Ok(st)
  {
    var inner := EnterScope(st);
    var body := [VarDecl(ty, n, None)];
    var after := AnalyzeStmt(inner, body[0]);
    assert after.Ok?;
    assert body[1..] == [];
    assert AnalyzeStmts(inner, body) == Ok(after.value);
  }

  /** Statements see the declarations of the statements before them, not
      those after: using a name no table binds and then declaring it fails,
      declaring it first and then using it succeeds. */
  lemma DeclarationOrder(st: State, ty: TypeKind, n: string)
    requires Valid(st) && forall i :: 0 <= i < |st.scopes| ==> n !in st.scopes[i]
    ensures AnalyzeStmts(st, [ExprStmt(Identifier(n)), VarDecl(ty, n, None)]) == Err(UndefinedVariable(n))
    ensures AnalyzeStmts(st, [VarDecl(ty, n, None), ExprStmt(Identifier(n))]).Ok?
  {
    UnboundIdentifier(st.scopes, n);
    var declared := AnalyzeStmt(st, VarDecl(ty, n, None)).value;
    LookupAfterInsert(st.scopes, n, VariableSymbol(ty, n), n);
    assert AnalyzeStmt(declared, ExprStmt(Identifier(n))) == Ok(declared);
    assert [VarDecl(ty, n, None), ExprStmt(Identifier(n))][1..] == [ExprStmt(Identifier(n))];
    assert AnalyzeStmts(declared, [ExprStmt(Identifier(n))]) == Ok(declared);
  }

  /** No two parameters share a name. */
  predicate DistinctParams(ps: seq<Param>) {
    forall i, j :: 0 <= i < j < |ps| ==> ps[i].name != ps[j].name
  }

  /** The parameter loop of `analyzeFunction`: each parameter is bound in
      the current scope as a variable of its declared type; a name already
      bound there is fatal. */
  function DeclareParams(c: Chain, ps: seq<Param>): (r: Outcome<Chain>)
    requires |c| > 0
    ensures r.Ok? <==> DistinctParams(ps) && forall k :: 0 <= k < |ps| ==> ps[k].name !in Current(c)
    ensures r.Ok? ==> |r.value| == |c| && r.value[..|c| - 1] == c[..|c| - 1]
    ensures r.Ok? ==> Extends(Current(c), Current(r.value))
    ensures r.Ok? ==> forall k :: 0 <= k < |ps| ==>
      ps[k].name in Current(r.value) && Current(r.value)[ps[k].name] == VariableSymbol(ps[k].ty, ps[k].name)
    ensures r.Err? ==> exists k :: 0 <= k < |ps| && r.error == ParameterRedefinition(ps[k].name)
    decreases |ps|
  {
    if |ps| == 0 then Ok(c)
    else
      var (inserted, next) := Insert(c, ps[0].name, VariableSymbol(ps[0].ty, ps[0].name));
      if !inserted then Err(ParameterRedefinition(ps[0].name))
      else
        var r := DeclareParams(next, ps[1..]);
        assert forall k :: 1 <= k < |ps| ==> ps[1..][k - 1] == ps[k];
        r
  }

  /** `analyzeFunction`: parameters and body share one fresh scope, analysed
      with the function's return type; the scope is left afterwards, but the
      return type stays set. */
  function AnalyzeFunction(st: State, f: FunctionDef): (r: Outcome<State>)
    requires Valid(st)
    ensures r.Ok? ==> r.value == st.(returnType := f.returnType)
    ensures r.Ok? ==> DistinctParams(f.params)
    ensures r.Err? ==> IsStmtError(r.error) || r.error.ParameterRedefinition?
  {
    var inner := EnterScope(st).(returnType := f.returnType);
    var scopes :- DeclareParams(inner.scopes, f.params);
    var done :- AnalyzeStmts(inner.(scopes := scopes), f.body);
    LeaveScope(done)
  }

  /** The state a definition's body starts in: a fresh scope under the
      caller's, holding exactly the parameters, and the definition's return
      type. */
  lemma {:induction false} FunctionEntry(st: State, f: FunctionDef) returns (inner: State)
    requires Valid(st) && DistinctParams(f.params)
    ensures Valid(inner) && |inner.scopes| == |st.scopes| + 1 && inner.returnType == f.returnType
    ensures forall k :: 0 <= k < |f.params| ==>
      f.params[k].name in Current(inner.scopes)
      && Current(inner.scopes)[f.params[k].name] == VariableSymbol(f.params[k].ty, f.params[k].name)
    ensures AnalyzeFunction(st, f) == (match AnalyzeStmts(inner, f.body)
                                        case Ok(done) => LeaveScope(done)
                                        case Err(e) => Err(e))
  {
    var entered := EnterScope(st).(returnType := f.returnType);
    var scopes := DeclareParams(entered.scopes, f.params);
    assert scopes.Ok?;
    inner := entered.(scopes := scopes.value);
  }

  /** Parameters and body share one scope: a body whose first statement
      declares a parameter's name fails. */
  lemma ParameterRedeclared(st: State, f: FunctionDef, k: nat, ty: TypeKind, init: Option<Expr>)
    requires Valid(st) && DistinctParams(f.params) && k < |f.params|
    requires |f.body| > 0 && f.body[0] == VarDecl(ty, f.params[k].name, init)
    ensures AnalyzeFunction(st, f) == Err(VariableRedefinition(f.params[k].name))
  {
    var inner := FunctionEntry(st, f);
    assert AnalyzeStmt(inner, f.body[0]) == Err(VariableRedefinition(f.params[k].name));
  }

  /** A parameter is a variable: calling it fails (`def f(int a) { a(); }`). */
  lemma ParameterCalled(st: State, f: FunctionDef, k: nat, args: seq<Expr>)
    requires Valid(st) && DistinctParams(f.params) && k < |f.params|
    requires |f.body| > 0 && f.body[0] == ExprStmt(Call(f.params[k].name, args))
    ensures AnalyzeFunction(st, f) == Err(CallToNonFunction(f.params[k].name))
  {
    var inner := FunctionEntry(st, f);
    var n := f.params[k].name;
    assert InnermostAt(inner.scopes, n, |inner.scopes| - 1);
    CallOfVariable(inner.scopes, n, args, |inner.scopes| - 1);
    assert AnalyzeStmt(inner, f.body[0]) == Err(CallToNonFunction(n));
  }

  /** A body returning one of its parameters, of the declared return type,
      is accepted, whatever enclosing scopes bind under that name. */
  lemma ParameterReturned(st: State, f: FunctionDef, k: nat)
    requires Valid(st) && DistinctParams(f.params) && k < |f.params|
    requires f.body == [Return(Some(Identifier(f.params[k].name)))] && f.params[k].ty == f.returnType
    ensures AnalyzeFunction(st, f) == Ok(st.(returnType := f.returnType))
  {
    var inner := FunctionEntry(st, f);
    var n := f.params[k].name;
    assert InnermostAt(inner.scopes, n, |inner.scopes| - 1);
    BoundIdentifier(inner.scopes, n, |inner.scopes| - 1);
    assert AnalyzeStmt(inner, f.body[0]) == Ok(inner);
    assert AnalyzeStmts(inner, f.body) == Ok(inner);
  }

  /** The symbol an extern declaration binds. */
  function ExternSymbol(x: ExternDecl): Symbol {
    Symbol(x.name, x.returnType, true, ParamTypes(x.params))
  }

  /** `analyzeExtern`: only the root scope may declare an extern, and only
      under a name the root does not bind yet. */
  function AnalyzeExtern(st: State, x: ExternDecl): (r: Outcome<State>)
    requires Valid(st)
    ensures |st.scopes| != 1 ==> r == Err(ExternNotAtTopLevel)
    ensures |st.scopes| == 1 ==> (r.Ok? <==> x.name !in st.scopes[0])
    ensures |st.scopes| == 1 && r.Err? ==> r.error == ExternRedefinition(x.name)
    ensures r.Ok? ==> r.value == st.(scopes := [st.scopes[0][x.name := ExternSymbol(x)]])
  {
    if |st.scopes| != 1 then Err(ExternNotAtTopLevel)
    else
      var (inserted, scopes) := Insert(st.scopes, x.name, ExternSymbol(x));
      if !inserted then Err(ExternRedefinition(x.name))
      else Ok(st.(scopes := scopes))
  }

  /** `analyzeItem`: dispatch on the kind of item. */
  function AnalyzeItem(st: State, item: Item): (r: Outcome<State>)
    requires Valid(st)
    ensures r.Ok? ==> Confined(st, r.value)
    ensures r.Err? && |st.scopes| == 1 ==> r.error != ExternNotAtTopLevel
  {
    match item
    case ExternItem(x) => AnalyzeExtern(st, x)
    case StmtItem(s) => AnalyzeStmt(st, s)
    case FunctionItem(f) => AnalyzeFunction(st, f)
  }

  /** The second loop of `analyzeProgram`: the items in order, each at the
      root scope. */
  function AnalyzeItems(st: State, items: seq<Item>): (r: Outcome<State>)
    requires |st.scopes| == 1
    ensures r.Ok? ==> |r.value.scopes| == 1 && Extends(st.scopes[0], r.value.scopes[0])
    ensures r.Err? ==> r.error != ExternNotAtTopLevel
    decreases |items|
  {
    if |items| == 0 then Ok(st)
    else
      var next :- AnalyzeItem(st, items[0]);
      AnalyzeItems(next, items[1..])
  }

  /** The symbol the first pass of `analyzeProgram` binds for a `def`: a
      function of type INT whatever its declared return type. */
  function DefSymbol(f: FunctionDef): Symbol {
    Symbol(f.name, INT, true, ParamTypes(f.params))
  }

  /** No two `def`s among the items share a name. */
  predicate DistinctDefs(items: seq<Item>) {
    forall i, j :: 0 <= i < j < |items| && items[i].FunctionItem? && items[j].FunctionItem? ==>
      items[i].def.name != items[j].def.name
  }

  /** The first loop of `analyzeProgram`: every `def` is bound in the
      current scope before any item is analysed; a name already bound there
      is fatal. Externs and statements are skipped. */
  function DeclareFunctions(c: Chain, items: seq<Item>): (r: Outcome<Chain>)
    requires |c| > 0
    ensures r.Ok? <==>
      && DistinctDefs(items)
      && forall k :: 0 <= k < |items| && items[k].FunctionItem? ==> items[k].def.name !in Current(c)
    ensures r.Ok? ==> |r.value| == |c| && r.value[..|c| - 1] == c[..|c| - 1]
    ensures r.Ok? ==> Extends(Current(c), Current(r.value))
    ensures r.Ok? ==> forall k :: 0 <= k < |items| && items[k].FunctionItem? ==>
      items[k].def.name in Current(r.value) && Current(r.value)[items[k].def.name] == DefSymbol(items[k].def)
    ensures r.Err? ==> exists k :: 0 <= k < |items| && items[k].FunctionItem? && r.error == FunctionRedefinition(items[k].def.name)
    decreases |items|
  {
    if |items| == 0 then Ok(c)
    else
      var rest := items[1..];
      assert forall k :: 1 <= k < |items| ==> rest[k - 1] == items[k];
      match items[0]
      case FunctionItem(f) =>
        var (inserted, next) := Insert(c, f.name, DefSymbol(f));
        if !inserted then Err(FunctionRedefinition(f.name))
        else DeclareFunctions(next, rest)
      case _ => DeclareFunctions(c, rest)
  }

  /** `analyzeProgram`: declare every `def` at the root, then analyse the
      items in order. `returnType` is the analyser's uninitialised return
      type, which a top-level `return` before any `def` reads. */
  function AnalyzeProgram(p: Program, returnType: TypeKind): (r: Outcome<State>)
    ensures !DistinctDefs(p) ==> r.Err? && r.error.FunctionRedefinition?
    ensures r.Err? ==> r.error != ExternNotAtTopLevel
    ensures r.Ok? ==> |r.value.scopes| == 1
    ensures r.Ok? ==> forall k :: 0 <= k < |p| && p[k].FunctionItem? ==>
      Lookup(r.value.scopes, p[k].def.name) == Some(DefSymbol(p[k].def))
  {
    var root :- DeclareFunctions(Root(), p);
    AnalyzeItems(State(root, returnType), p)
  }
  /** Every `def` is declared before any item is analysed, so a top-level
      call may precede the definition it calls. */
  lemma CallBeforeDefinition(g: FunctionDef, returnType: TypeKind)
    requires g.params == [] && g.body == []
    ensures AnalyzeProgram([StmtItem(ExprStmt(Call(g.name, []))), FunctionItem(g)], returnType).Ok?
  {
    var p := [StmtItem(ExprStmt(Call(g.name, []))), FunctionItem(g)];
    var root := DeclareFunctions(Root(), p);
    assert DistinctDefs(p);
    assert root.Ok?;
    assert p[1].FunctionItem? && p[1].def == g;
    assert Current(root.value)[g.name] == DefSymbol(g);
    var st := State(root.value, returnType);
    assert InnermostAt(st.scopes, g.name, 0);
    CallIgnoresArgumentTypes(st.scopes, g.name, [], 0);
    var first := AnalyzeItem(st, p[0]);
    assert first == Ok(st);
    var inner := FunctionEntry(st, g);
    var second := AnalyzeItem(st, p[1]);
    assert second == Ok(st.(returnType := g.returnType));
    assert p[1..][1..] == [];
    assert AnalyzeItems(second.value, p[1..][1..]) == Ok(second.value);
    assert AnalyzeItems(st, p[1..]) == Ok(second.value);
    assert AnalyzeItems(st, p) == Ok(second.value);
  }
}

=== FILE: tokens.dfy ===
/** The token vocabulary shared by the lexer and the parser (token/token.h). */
module Tokens {

  /** The closed set of token kinds, in declaration order. */
  datatype Kind =
    | TokEof
    | TokDef
    | TokExtern
    | TokInt
    | TokFloat
    | TokIntLiteral
    | TokFloatLiteral
    | TokChar
    | TokCharLiteral
    | TokBool
    | TokBoolLiteral
    | TokString
    | TokStringLiteral
    | TokIdentifier
    | TokOperator
    | TokSemicolon
    | TokComma
    | TokLParen
    | TokRParen
    | TokLBrace
    | TokRBrace
    | TokLBracket
    | TokRBracket
    | TokArrow
    | TokReturn
    | TokIf
    | TokElse
    | TokWhile
    | TokFor

  datatype Operator =
    | Plus | Minus | PlusPlus | MinusMinus | Multiply | Divide
    | EqualEqual | NotEqual | Less | Greater | LessEqual | GreaterEqual
    | PlusEqual | MinusEqual | AndAnd | OrOr | And | Or | Not | Equal | Arrow

  datatype TypeKind = INT | FLOAT | STRING | BOOL | CHAR | VOID

  /** The payload variant of a token. A float literal keeps the integer part
      the lexer accumulated and the raw fraction digits; the double computed
      from them is not modelled. */
  datatype Value =
    | NoValue
    | FloatVal(whole: int, fraction: string)
    | IntVal(i: int)
    | BoolVal(b: bool)
    | CharVal(c: char)
    | StrVal(s: string)
    | OpVal(op: Operator)

  datatype Token = Token(kind: Kind, value: Value)

  /** The payload alternative the lexer attaches to each kind, and that the
      parser reads back with `std::get`. */
  predicate PayloadFits(t: Token) {
    match t.kind
    case TokIntLiteral => t.value.IntVal?
    case TokFloatLiteral => t.value.FloatVal?
    case TokBoolLiteral => t.value.BoolVal?
    case TokCharLiteral => t.value.CharVal?
    case TokStringLiteral => t.value.StrVal?
    case TokIdentifier => t.value.StrVal?
    case TokOperator => t.value.OpVal?
    case TokArrow => t.value == OpVal(Arrow)
    case _ => t.value.NoValue?
  }

  const EofToken := Token(TokEof, NoValue)
}

=== FILE: wrappers.dfy ===
/** Failure-compatible result types. Every fatal `error()` of the compiler
    front end becomes a `Failure` carrying the message the source prints. */
module Wrappers {

  datatype Option<+T> = None | Some(value: T)

  datatype Result<+T> = Success(value: T) | Failure(error: string) {

    predicate IsFailure() {
      Failure?
    }

    function PropagateFailure<U>(): Result<U>
      requires Failure?
    {
      Failure(error)
    }

    function Extract(): T
      requires Success?
    {
      value
    }
  }
}
